=== FILE: README.md ===
# Emi scene graph and integer vector core, in Dafny

This project models the core of Emi, a small C# engine:

- the `Element` composite tree: parent and child links, dense sibling indices, child-added / child-removed / parent-changed notifications, the own-parent and descendant-parent errors;
- the `Transform` property setters and their dirty-flag invalidation through the tree;
- the `TransformMatrix` lazy cache of local and world matrices;
- the generic vector helpers (`Vector3Extensions`, `Vector3Math`, `MathE.Vector2`) specialised to C# `int`, with the `Vector3i` and `Vector2i` integer vector types;
- `VertexLayout` stride accounting;
- the `Camera` projection and its row-major flattening.

## How the model is built

- **Scene.** A scene is a `State` (module `Elements`). It holds a map from element ids to `Node(parent, children, parentIndex)`, a map from ids to `Info` (name, runtime type name, transform, matrix cache), and the trace of notifications raised so far.
- **Operations.** Every mutating operation is a pure function from one state to the next. A throwing operation returns an `Outcome` whose `error` names the exception; its state keeps whatever the C# code had already done before throwing.
- **Well-formedness.** `Tree.Wf` says that links are closed, that parents and child lists agree with no duplicates, and that no element is its own proper ancestor. `Tree.Indexed` says that each child's `parentIndex` is its position in its parent's list. `CompositeProps` proves that these are preserved, and states exactly where the C# code lets `Indexed` lapse.
- **Integers.** C# `int` is the subset type `Ints.Int32`. `+`, `-` and `*` wrap modulo 2^32 (`Ints.Wrap`). `/` and `%` truncate toward zero. Division by zero, `int.MinValue / -1`, `Math.Abs(int.MinValue)` and `Clamp` with `min > max` throw in C#; here they return `Err` results.
- **Floating point.** Doubles are `real`s. `Math.Round(x, MidpointRounding.AwayFromZero)` is `Rounding.RoundHalfAway`. Quaternion normalisation, `Quaternion.FromEulerDegrees`, `Matrix4x4.TransformPoint` and float division are function parameters. Matrices are symbolic terms: scaling, rotation, translation and product.

### Behaviour worth knowing

- `Add` of an element that is already a child of the same parent does not move it: `HandleParentChange` returns early when the old parent is the new one (Element.Composite.cs:171). The child stays where it is, and the requested index is stored unchecked in `_parentIndex` (`CompositeProps.AddStaleIndex`).
- Reparenting does not invalidate the moved subtree. `Invalidate` is called only by the `Position`, `Rotation` and `Scale` setters (Transform.cs:53, 72, 84); `HandleParentChange` (Element.Composite.cs:164-182) never calls it. A cached world matrix therefore survives a move (`MatrixCache.StaleWorldAfterMove`).
- The generic helpers truncate. `Normalize` and `ProjectOnto` convert their scale with `TValue.CreateTruncating` (Vector3Extensions.cs:208, 245), and `Divide` and `Modulus` use C# `/` and `%`, which truncate toward zero (Vector3Extensions.cs:92, 104). Only `Vector3i.Normalize` and `Vector2i.Normalize` round, with `Math.Round` in its default mode, which sends ties to even.
- C# integer `/` and `%` throw on a zero divisor, and `int.MinValue / -1` throws as well; the model returns `Err(DivideByZero)` and `Err(Overflow)` for these.

## Model

| member | source | states |
|---|---|---|
| Elements.NewElement | Emi/Core/Element.cs:11-13 | a new element is detached, with no children, no name and the default transform marked dirty; nothing else in the scene changes and no notification is raised |
| Elements.ReadName | Emi/Core/Element.cs:19 | reading `Name` yields the stored name, or else the runtime type name, which is then stored |
| Elements.WriteName | Emi/Core/Element.cs:20 | writing `Name` stores the value, or the type name for `null`; a name is always stored afterwards |
| Elements.FreshNameIsTypeName | Emi/Core/Element.cs:18-22 | a freshly constructed element reads its type name as its name |
| Elements.NameReadsBack | Emi/Core/Element.cs:18-22 | after a write, reading returns the written value (the type name for `null`) and changes nothing |
| Elements.ReadNameMemoises | Emi/Core/Element.cs:19 | a second read returns the same name and leaves the element as the first read left it |
| Tree.IsDescendantOfWalk | Emi/Core/Element.Composite.cs:120-128 | the bounded upward walk answers true exactly when the candidate is reached within the walk's steps above the element |
| Tree.IsDescendantOf | Emi/Core/Element.Composite.cs:120-128 | false for `null` and for an element without a parent; true when asked about the element's own parent |
| Tree.IsDescendantOfIsAncestor | Emi/Core/Element.Composite.cs:120-128 | in a well-formed scene `IsDescendantOf(x)` holds iff `x` is a proper ancestor; it is false for `null` and for the element itself |
| Tree.IsDescendantOfStrictOrder | Emi/Core/Element.Composite.cs:120-128 | `IsDescendantOf` is irreflexive, transitive and asymmetric in a well-formed scene |
| Tree.AncestorTransitive | Emi/Core/Element.Composite.cs:121-126 | an ancestor of an ancestor is reached by the same upward walk |
| Tree.ChainEnds | Emi/Core/Element.Composite.cs:122-126 | in a well-formed scene of N elements every parent chain ends within N steps, so the `while` loop terminates |
| Tree.ReparentKeepsAcyclic | Emi/Core/Element.Composite.cs:165-168 | re-pointing an element at a parent that is neither itself nor a descendant cannot create a cycle |
| Composite.TryRemoveChild | Emi/Core/Element.Composite.cs:184-191 | returns the child's old position (negative and no change when absent); otherwise the list loses exactly that position and the remaining siblings are re-indexed densely |
| Composite.Reindex | Emi/Core/Element.Composite.cs:193-196 | every listed child from the start position onwards gets its position as index; no other element or link changes |
| Composite.ClampIndex | Emi/Core/Element.Composite.cs:152 | `int.Clamp(v, 0, count)`: the value itself inside the range, 0 below it, `count` above it |
| Composite.PlacementIndex | Emi/Core/Element.Composite.cs:152 | no requested index means the end of the list; a requested one is clamped to `[0, count]` |
| Composite.PlaceChild | Emi/Core/Element.Composite.cs:151-157 | the child is removed if present, then inserted at the placement index among the others; siblings are re-indexed; no parent changes |
| Composite.HandleChildPlacement | Emi/Core/Element.Composite.cs:150-162 | placement raises child-added only when the child was not already listed; a re-placement raises nothing |
| Composite.ParentCheck | Emi/Core/Element.Composite.cs:165-168 | the own-parent error iff the new parent is the element; the descendant error iff it is a different element that `IsDescendantOf` the element; no other error |
| Composite.SetParent | Emi/Core/Element.Composite.cs:84-92 | errors are exactly those of the parent check, and then nothing changes; setting the current parent changes nothing; otherwise only this element's parent link changes, to the requested one |
| Composite.Move | Emi/Core/Element.Composite.cs:164-182 | a permitted parent change sets exactly this element's parent link to the requested one, leaves every other element's parent alone, and touches no name or transform |
| Composite.Add | Emi/Core/Element.Composite.cs:35-38 | the requested index is stored before `SetParent` runs, so on an error or a same-parent add only that stored index has changed |
| Composite.SetParentIndex | Emi/Core/Element.Composite.cs:74-77 | a detached element just stores the value; no parent link changes either way |
| Composite.DetachAll | Emi/Core/Element.Composite.cs:44-45 | every listed element ends up detached and every other element keeps its parent |
| Composite.Clear | Emi/Core/Element.Composite.cs:43-46 | every former child is detached and no other parent link changes |
| Composite.AttachEach | Emi/Core/Element.Composite.cs:55-59 | the attaching loop changes only the tree: the set of elements and every name and transform stay as they were |
| Composite.SetChildren | Emi/Core/Element.Composite.cs:52-60 | `SetChildren` changes only the tree, never an element's name or transform |
| Composite.VisitOrder | Emi/Core/Element.Composite.cs:138-144 | the visit sequence pairs each snapshot element with its snapshot index, forwards or backwards |
| Composite.ForEachChild | Emi/Core/Element.Composite.cs:135-145 | the action runs once per child of the snapshot taken before the first call, in `VisitOrder`, whatever the action does to the tree |
| CompositeProps.MoveLists | Emi/Core/Element.Composite.cs:164-182 | after a real parent change, the old parent's list loses exactly the child, the new parent's list gains it at the placement index, and no other list changes |
| CompositeProps.MoveListsIndexed | Emi/Core/Element.Composite.cs:173-179 | after a move both affected lists are densely indexed; a detached child's index is cleared |
| CompositeProps.MoveIndexFrame | Emi/Core/Element.Composite.cs:164-196 | a move changes the index of no element outside the two affected lists |
| CompositeProps.MoveEvents | Emi/Core/Element.Composite.cs:84-92 | a move appends child-removed (with the pre-removal index) if there was an old parent, then child-added (with the final index) if there is a new one, then parent-changed (old, new) |
| CompositeProps.SetParentKeepsWf | Emi/Core/Element.Composite.cs:84-92 | `SetParent` keeps the scene well formed and densely indexed, whatever it returns |
| CompositeProps.MoveKeepsWf | Emi/Core/Element.Composite.cs:164-182 | a permitted parent change keeps links closed and consistent, the scene acyclic, and every list densely indexed |
| CompositeProps.DirectMoveKeepsOldIndex | Emi/Core/Element.Composite.cs:88-89 | setting a new parent directly reuses the child's index in the old list as the requested index, clamped to the new list |
| CompositeProps.AddPlacesAt | Emi/Core/Element.Composite.cs:35-38 | adding a child from elsewhere succeeds and inserts it at the requested index clamped to `[0, count]` (the end when none is given), and that is its index |
| CompositeProps.AddEvents | Emi/Core/Element.Composite.cs:35-38 | adding raises child-removed on the old parent if any, then child-added with the final index, then parent-changed |
| CompositeProps.AddIsMove | Emi/Core/Element.Composite.cs:35-38 | `Add` is exactly storing the requested index and then moving the child |
| CompositeProps.AddFails | Emi/Core/Element.Composite.cs:165-168 | `Add` fails iff the child is the parent itself or one of the parent's ancestors |
| CompositeProps.AddKeepsWf | Emi/Core/Element.Composite.cs:35-38 | `Add` keeps every list densely indexed, except when it stores a different index on an attached element that it then does not move |
| CompositeProps.AddStaleIndex | Emi/Core/Element.Composite.cs:36 | on a same-parent add or an error the child list is unchanged but the requested index is stored, so an attached child's index can disagree with its position |
| CompositeProps.DetachAllEvents | Emi/Core/Element.Composite.cs:44-45 | clearing raises, per former child in order, child-removed at index 0 followed by parent-changed to `null` |
| CompositeProps.DetachAllIndices | Emi/Core/Element.Composite.cs:44-45 | every former child's index is cleared; detached elements keep theirs |
| CompositeProps.ClearShape | Emi/Core/Element.Composite.cs:43-46 | after `Clear` the list is empty, every former child is detached with no index, the scene stays well formed, and the parent's own chain is unchanged |
| CompositeProps.ReassignOwnChildren | Emi/Core/Element.Composite.cs:8-11 | `x.Children = x.Children` leaves `x` with no children, because the setter clears the live list before enumerating it |
| CompositeProps.AttachEachChecks | Emi/Core/Element.Composite.cs:56-59 | the attaching loop finishes without error iff every remaining item may be parented here |
| CompositeProps.SetChildrenChecks | Emi/Core/Element.Composite.cs:52-60 | `SetChildren` with a list of distinct elements fails iff some item is the parent or one of its ancestors |
| CompositeProps.SetChildrenShape | Emi/Core/Element.Composite.cs:52-60 | on success the child list is the given list and item j has index j; the scene stays well formed even on failure (what it then holds is `SetChildrenPartial`) |
| CompositeProps.FirstMisfit | Emi/Core/Element.Composite.cs:55-59 | the position of the first remaining item that may not be parented here, or the list's length: every item before it fits and that item does not |
| CompositeProps.AttachEachStops | Emi/Core/Element.Composite.cs:55-59 | the loop throws exactly at the first misfit; the parent's list then holds the items before it, and the misfit keeps its position as a stale index |
| CompositeProps.AttachEachAdds | Emi/Core/Element.Composite.cs:55-59 | the loop raises child-added on the parent once per attached item, in list order, with the item's position as index, and no other child-added on that parent |
| CompositeProps.AttachEachExtends | Emi/Core/Element.Composite.cs:55-59 | the loop only appends notifications |
| CompositeProps.SetChildrenPartial | Emi/Core/Element.Composite.cs:52-60 | with distinct items, `SetChildren` throws iff some item is the parent or one of its ancestors; it is not atomic: the old children are already detached, the parent holds exactly the items before the first such one, and that item holds its position as a stale index |
| CompositeProps.SetChildrenEvents | Emi/Core/Element.Composite.cs:52-60 | `SetChildren` first raises the clearing notifications, then child-added once per attached item in list order with its position as index; after a throw only the items before the misfit were announced |
| CompositeProps.SetParentIndexDetached | Emi/Core/Element.Composite.cs:76 | on a detached element the setter only stores the value |
| CompositeProps.SetParentIndexAttached | Emi/Core/Element.Composite.cs:76 | on an attached element the setter moves the child to the clamped position among its siblings without any notification, and only that list changes |
| CompositeProps.SetParentIndexIndexed | Emi/Core/Element.Composite.cs:74-77 | the setter keeps every list densely indexed |
| CompositeProps.SetParentIndexToCurrent | Emi/Core/Element.Composite.cs:74-77 | setting `ParentIndex` to its current value changes nothing and raises nothing |
| Transforms.MarkDirty | Emi/Mathematics/Transform/TransformMatrix.cs:32 | `Invalidate()` makes this cache dirty and changes no other flag or field |
| Transforms.MarkClean | Emi/Mathematics/Transform/TransformMatrix.cs:33 | `Validate()` makes this cache clean and changes no other flag or field |
| Transforms.ToggleDirty | Emi/Mathematics/Transform/TransformMatrix.cs:31-33 | invalidating a validated node makes it dirty; validating an invalidated one makes it clean; other nodes keep their flags |
| Transforms.UpwardsMarks | Emi/Mathematics/Transform/Transform.cs:110-113 | upward propagation dirties exactly the node and the ancestors its walk reaches |
| Transforms.DownwardsMarks | Emi/Mathematics/Transform/Transform.cs:110-115 | downward propagation dirties exactly the node and the descendants its walk reaches |
| Transforms.Invalidate | Emi/Mathematics/Transform/Transform.cs:108-116 | invalidation changes no link and raises no notification; apart from dirty flags every transform stays as it was |
| Transforms.InvalidateMarks | Emi/Mathematics/Transform/Transform.cs:108-116 | in a well-formed scene, `Invalidate` dirties exactly the node plus all ancestors (upwards), all descendants (downwards) or nothing else, and leaves every other flag as it was |
| Transforms.SetPosition | Emi/Mathematics/Transform/Transform.cs:49-55 | the position setter stores the value and dirties the node's cache |
| Transforms.SetScale | Emi/Mathematics/Transform/Transform.cs:80-86 | the scale setter stores the value and dirties the node's cache |
| Transforms.NeedsNormalizing | Emi/Mathematics/Transform/Transform.cs:67-68 | a quaternion of length 1 never needs normalising and the zero quaternion always does |
| Transforms.NeedsNormalizingIsLengthTest | Emi/Mathematics/Transform/Transform.cs:67-68 | the squared-length test used by the model is the source's `abs(Length - 1) > 1e-3` test |
| Transforms.StoredRotation | Emi/Mathematics/Transform/Transform.cs:66-71 | a quaternion within 1e-3 of unit length is stored as given; any other is normalised first |
| Transforms.UnitRotationKept | Emi/Mathematics/Transform/Transform.cs:66-71 | a unit quaternion, and the identity in particular, is stored unchanged |
| Transforms.StoredRotationSettles | Emi/Mathematics/Transform/Transform.cs:66-71 | when normalisation yields a near-unit quaternion, storing the stored rotation again changes nothing |
| Transforms.SetRotation | Emi/Mathematics/Transform/Transform.cs:61-74 | the rotation setter stores the (possibly normalised) quaternion and dirties the node's cache |
| Transforms.SetEulerDegrees | Emi/Mathematics/Transform/Transform.cs:102-104 | the Euler setter stores the converted quaternion through the rotation setter's normalisation and dirties the cache, and touches no link or name |
| Transforms.SetMarksSubtree | Emi/Mathematics/Transform/Transform.cs:108-116 | any property setter dirties exactly the node and its descendants, and changes nothing else outside the node |
| Transforms.ChildDirtiedByParent | Emi/Mathematics/Transform/Transform.cs:114-115 | after a child is validated, setting a property on its parent makes the child dirty again |
| MatrixCache.GetMatrix | Emi/Mathematics/Transform/TransformMatrix.cs:35-43 | a read leaves the node clean and returns its cached matrix of the requested kind; only caches and dirty flags change |
| MatrixCache.Read | Emi/Mathematics/Transform/TransformMatrix.cs:25-26 | `LocalMatrix` and `WorldMatrix` never change links, notifications or properties, and leave the node clean |
| MatrixCache.ReadSucceeds | Emi/Mathematics/Transform/TransformMatrix.cs:56-62 | in a well-formed scene the recursive world-matrix read always finishes |
| MatrixCache.CleanReadIsCached | Emi/Mathematics/Transform/TransformMatrix.cs:35-42 | reading a clean node returns its cache and changes nothing |
| MatrixCache.ReadTwice | Emi/Mathematics/Transform/TransformMatrix.cs:35-42 | a second read of either kind right after a read returns the cached value and changes nothing |
| MatrixCache.DirtyReadRecomputes | Emi/Mathematics/Transform/TransformMatrix.cs:36-39 | reading a dirty node recomputes both matrices: local is scale·rotation·translation, world is local (root) or local·parent's fresh world |
| MatrixCache.ComputeLocal | Emi/Mathematics/Transform/TransformMatrix.cs:45-54 | the local matrix is scale, then rotation, then translation, multiplied left to right; the property it has is the next row |
| MatrixCache.ComputeLocalReadsProperties | Emi/Mathematics/Transform/TransformMatrix.cs:45-54 | two transforms have the same local matrix iff they have the same position, rotation and scale; caches and the dirty flag play no part |
| MatrixCache.ReadTouchesChain | Emi/Mathematics/Transform/TransformMatrix.cs:56-62 | a read changes the cache of no element outside the node's ancestor chain |
| MatrixCache.StaleWorldAfterMove | Emi/Mathematics/Transform/TransformMatrix.cs:35-42 | after reparenting a clean node, its `WorldMatrix` still returns the matrix cached before the move |
| MatrixCache.WorldPosition | Emi/Mathematics/Transform/Transform.cs:94-96 | `WorldPosition` is the world matrix applied to the origin, with the read's cache update |
| MatrixCache.LocalAfterSetPosition | Emi/Mathematics/Transform/TransformMatrix.cs:45-54 | after setting the position, the local matrix is the unchanged scale and rotation followed by translation to the new position |
| MatrixCache.WorldUnderRoot | Emi/Mathematics/Transform/TransformMatrix.cs:56-62 | a child of a root reads as world matrix its own local matrix times its parent's local matrix |
| Ints.Wrap | Emi/Mathematics/Vector3Extensions.cs:54-56 | an `int` result is the exact result modulo 2^32, and equals it whenever it fits |
| Ints.Div32 | Emi/Mathematics/Vector3Extensions.cs:90-92 | `int` division throws iff the divisor is zero or it is `int.MinValue / -1`, and otherwise truncates toward zero |
| Ints.Rem32 | Emi/Mathematics/Vector3Extensions.cs:102-104 | `int` remainder fails in the same cases as division; otherwise it is smaller in magnitude than the divisor and carries the dividend's sign |
| Ints.Abs32 | Emi/Mathematics/Vector3Extensions.cs:151-153 | `int.Abs` throws iff the value is `int.MinValue`; otherwise it is the non-negative magnitude |
| Ints.TruncRatio | Emi/Mathematics/Vector3Extensions.cs:244-245 | `CreateTruncating` of the ratio of an `int` dot product to a non-zero squared length (negative when it wrapped) truncates toward zero and is never larger in magnitude than the dot product; the one quotient that does not fit, `int.MinValue` over -1, saturates to `int.MaxValue` |
| Ints.Clamp32 | Emi/Mathematics/Vector3Extensions.cs:164-169 | `int.Clamp` throws iff min exceeds max; otherwise the result lies in the range and equals the value when the value already does |
| Vector3Ops.WithX | Emi/Mathematics/Vector3Extensions.cs:18-20 | replaces x and keeps y and z |
| Vector3Ops.WithY | Emi/Mathematics/Vector3Extensions.cs:30-32 | replaces y and keeps x and z |
| Vector3Ops.WithZ | Emi/Mathematics/Vector3Extensions.cs:42-44 | replaces z and keeps x and y |
| Vector3Ops.WithLaws | Emi/Mathematics/Vector3Extensions.cs:18-44 | the `With` operations are lenses: replacing by the current value is the identity, the later replacement wins, and replacements of different axes commute |
| Vector3Ops.Add | Emi/Mathematics/Vector3Extensions.cs:54-56 | each component is the exact sum reduced modulo 2^32, and the exact sum whenever that fits in an `int` |
| Vector3Ops.Subtract | Emi/Mathematics/Vector3Extensions.cs:66-68 | each component is the exact difference reduced modulo 2^32, and the exact difference whenever it fits |
| Vector3Ops.Multiply | Emi/Mathematics/Vector3Extensions.cs:78-80 | each component is the exact product with the scalar reduced modulo 2^32, and the exact product whenever it fits |
| Vector3Ops.Negate | Emi/Mathematics/Vector3Extensions.cs:113-115 | each component is the exact negation reduced modulo 2^32, so `-int.MinValue` stays `int.MinValue` |
| Vector3Ops.Cross | Emi/Mathematics/Vector3Extensions.cs:125-130 | each component is the exact cross-product component reduced modulo 2^32, and the exact one whenever it fits |
| Vector3Ops.Dot | Emi/Mathematics/Vector3Extensions.cs:140-142 | the exact dot product reduced modulo 2^32, and the exact one whenever it fits |
| Vector3Ops.Divide | Emi/Mathematics/Vector3Extensions.cs:90-92 | component-wise truncating division; it fails with divide-by-zero iff the scalar is 0 and with overflow iff the scalar is -1 and some component is `int.MinValue` |
| Vector3Ops.Modulus | Emi/Mathematics/Vector3Extensions.cs:102-104 | component-wise remainder; it fails exactly when division does, and every component is smaller in magnitude than the scalar |
| Vector3Ops.DivideModulusReassemble | Emi/Mathematics/Vector3Extensions.cs:90-104 | `v / s * s + v % s == v` whenever the division succeeds |
| Vector3Ops.SubtractUndoesAdd | Emi/Mathematics/Vector3Extensions.cs:54-68 | `(a + b) - b == a` under wrap-around |
| Vector3Ops.AddRestoresSubtract | Emi/Mathematics/Vector3Extensions.cs:54-68 | `a + (b - a) == b` under wrap-around, and zero is the identity of addition |
| Vector3Ops.MultiplyByZeroOrOne | Emi/Mathematics/Vector3Extensions.cs:78-80 | scaling by 0 gives the zero vector and scaling by 1 is the identity |
| Vector3Ops.NegateInvolution | Emi/Mathematics/Vector3Extensions.cs:113-115 | negating twice is the identity, `int.MinValue` included |
| Vector3Ops.CrossExact | Emi/Mathematics/Vector3Extensions.cs:125-130 | each wrapped cross-product component is the exact one reduced modulo 2^32 |
| Vector3Ops.CrossSelfIsZero | Emi/Mathematics/Vector3Extensions.cs:125-130 | the cross product of a vector with itself is zero |
| Vector3Ops.CrossParallelIsZero | Emi/Mathematics/Vector3Extensions.cs:125-130 | the cross product with any integer multiple of the vector, or with zero, is zero even when the products wrap |
| Vector3Ops.CrossAnticommutes | Emi/Mathematics/Vector3Extensions.cs:125-130 | `a × b == -(b × a)` |
| Vector3Ops.DotCommutes | Emi/Mathematics/Vector3Extensions.cs:140-142 | the dot product is symmetric |
| Vector3Ops.DotCrossIsZero | Emi/Mathematics/Vector3Extensions.cs:125-142 | the cross product is orthogonal to its first operand, `a · (a × b) == 0`, under wrap-around |
| Vector3Ops.Abs | Emi/Mathematics/Vector3Extensions.cs:151-153 | fails iff a component is `int.MinValue`; otherwise every component is non-negative with the same magnitude |
| Vector3Ops.Clamp | Emi/Mathematics/Vector3Extensions.cs:164-169 | fails iff some min component exceeds its max; otherwise the result lies between min and max, and a vector already between them is returned unchanged |
| Vector3Ops.ClampIdempotent | Emi/Mathematics/Vector3Extensions.cs:164-169 | clamping twice equals clamping once |
| Vector3Ops.Min | Emi/Mathematics/Vector3Math.cs:13-18 | each component is the smaller of the two inputs' components |
| Vector3Ops.Max | Emi/Mathematics/Vector3Math.cs:23-28 | each component is the larger of the two inputs' components |
| Vector3Ops.MinMaxCommute | Emi/Mathematics/Vector3Math.cs:13-28 | `Min` and `Max` are symmetric in their arguments |
| Vector3Ops.LengthSquaredAsWrittenIsSelfDot | Emi/Mathematics/Vector3Extensions.cs:178-180 | the squared length as written is the wrapped self dot product |
| Vector3Ops.LengthSquaredAsWritten | Emi/Mathematics/Vector3Extensions.cs:178-180 | the squared length as the code computes it: the exact squared length reduced modulo 2^32, and the exact one whenever it fits |
| Vector3Ops.LengthSquaredAsWrittenVanishes | Emi/Mathematics/Vector3Extensions.cs:178-180 | the non-zero vector (65536, 0, 0) has squared length 0 as written |
| Vector3Ops.LengthSquaredAsWrittenIsOne | Emi/Mathematics/Vector3Extensions.cs:178-180 | (int.MaxValue, 0, 0) has squared length exactly 1 as written, although its true squared length exceeds `int.MaxValue` |
| Vector3Ops.LengthSquaredAsWrittenNegative | Emi/Mathematics/Vector3Extensions.cs:178-180 | (46341, 0, 0) has squared length -2147479015 as written, so the code's length of it is NaN |
| Vector3Ops.LengthSquared | Emi/Mathematics/Vector3Extensions.cs:178-180 | the corrected squared length, computed exactly: zero iff the vector is zero (the code's value, `LengthSquaredAsWritten`, is 0 at (65536, 0, 0) and negative at (46341, 0, 0)) |
| Vector3Ops.LengthSquaredWraps | Emi/Mathematics/Vector3Extensions.cs:178-180 | the as-written value is the exact one reduced modulo 2^32, and equal to it when the exact one fits in an `int` |
| Vector3Ops.Normalize | Emi/Mathematics/Vector3Extensions.cs:200-210 | the corrected `Normalize`, on the exact length: the zero vector gives zero; because the inverse length is truncated to `int`, a vector of length 1 is returned unchanged and every other vector gives zero |
| Vector3Ops.NormalizeIdempotent | Emi/Mathematics/Vector3Extensions.cs:200-210 | normalising twice with the corrected `Normalize` equals normalising once |
| Vector3Ops.NormalizeAsWritten | Emi/Mathematics/Vector3Extensions.cs:189-210 | `Normalize` as written, on the wrapped squared length: no value iff that is negative (the length is NaN); otherwise zero, or the vector itself exactly when its wrapped squared length is 1 |
| Vector3Ops.NormalizeAgreesWhenFits | Emi/Mathematics/Vector3Extensions.cs:178-210 | whenever the exact squared length fits in an `int`, the code's `Normalize` and the corrected one agree |
| Vector3Ops.NormalizeAsWrittenIdempotent | Emi/Mathematics/Vector3Extensions.cs:200-210 | wherever the code's `Normalize` has a value, applying it again changes nothing |
| Vector3Ops.NormalizeAsWrittenKeepsMaxValue | Emi/Mathematics/Vector3Extensions.cs:178-210 | the code returns (int.MaxValue, 0, 0) unchanged, its wrapped squared length being 1, where the corrected `Normalize` gives zero |
| Vector3Ops.ProjectOnto | Emi/Mathematics/Vector3Extensions.cs:236-247 | the corrected `ProjectOnto`, dividing by the exact squared length: projecting onto the zero vector gives zero |
| Vector3Ops.ProjectOntoSelf | Emi/Mathematics/Vector3Extensions.cs:236-247 | a non-zero vector whose squared length fits in an `int` projects onto itself as itself |
| Vector3Ops.ProjectOntoOrthogonal | Emi/Mathematics/Vector3Extensions.cs:236-247 | a vector with dot product 0 with the normal projects to zero, as written and corrected |
| Vector3Ops.ProjectOntoAsWritten | Emi/Mathematics/Vector3Extensions.cs:236-247 | `ProjectOnto` as written, dividing by the wrapped squared length: a normal whose wrapped squared length is 0, the zero vector among them, gives zero |
| Vector3Ops.ProjectOntoAgreesWhenFits | Emi/Mathematics/Vector3Extensions.cs:236-247 | whenever the normal's exact squared length fits in an `int`, the code's `ProjectOnto` and the corrected one agree |
| Vector3Ops.ProjectOntoAsWrittenDiffers | Emi/Mathematics/Vector3Extensions.cs:236-247 | the code projects (2, 0, 0) onto (65537, 0, 0) as (65537, 0, 0), where the corrected projection is zero |
| Vector3Ops.ProjectOntoAsWrittenVanishes | Emi/Mathematics/Vector3Extensions.cs:236-247 | the code projects every vector onto the non-zero (65536, 0, 0) as zero |
| Vector3Ops.DistanceSquared | Emi/Mathematics/Vector3Math.cs:33-38 | the corrected squared distance, measuring the wrapped difference exactly: zero iff the two vectors are equal |
| Vector3Ops.DistanceSquaredAsWritten | Emi/Mathematics/Vector3Math.cs:33-38 | the squared distance as the code computes it: the corrected one reduced modulo 2^32, and 0 for equal vectors |
| Vector3Ops.DistanceSquaredAsWrittenVanishes | Emi/Mathematics/Vector3Math.cs:33-38 | as written, (65536, 0, 0) is at squared distance 0 from the origin, although the corrected distance is not 0 |
| Vector3Ops.DistanceSquaredSymmetric | Emi/Mathematics/Vector3Math.cs:33-38 | the squared distance is symmetric, even though the difference wraps |
| Vector3Ops.Lerp | Emi/Mathematics/Vector3Math.cs:50-56 | the amount is clamped to [0, 1], so any amount at most 0 gives the start and any amount at least 1 gives the end |
| Vector2Ops.WithX | Emi/Mathematics/MathE.Vector2.cs:18-20 | replaces x and keeps y |
| Vector2Ops.WithY | Emi/Mathematics/MathE.Vector2.cs:30-32 | replaces y and keeps x |
| Vector2Ops.WithLaws | Emi/Mathematics/MathE.Vector2.cs:18-32 | replacing by the current value is the identity, the later replacement wins, and x and y replacements commute |
| Vector2Ops.Add | Emi/Mathematics/MathE.Vector2.cs:42-44 | each component is the exact sum reduced modulo 2^32, and the exact sum whenever it fits |
| Vector2Ops.Subtract | Emi/Mathematics/MathE.Vector2.cs:54-56 | each component is the exact difference reduced modulo 2^32, and the exact difference whenever it fits |
| Vector2Ops.Multiply | Emi/Mathematics/MathE.Vector2.cs:66-68 | each component is the exact product with the scalar reduced modulo 2^32, and the exact product whenever it fits |
| Vector2Ops.Negate | Emi/Mathematics/MathE.Vector2.cs:101-103 | each component is the exact negation reduced modulo 2^32 |
| Vector2Ops.Dot | Emi/Mathematics/MathE.Vector2.cs:113-115 | the exact dot product reduced modulo 2^32, and the exact one whenever it fits |
| Vector2Ops.Divide | Emi/Mathematics/MathE.Vector2.cs:78-80 | component-wise truncating division, with the same two failure cases as in 3D |
| Vector2Ops.Modulus | Emi/Mathematics/MathE.Vector2.cs:90-92 | component-wise remainder, failing exactly when division does, with each component smaller in magnitude than the scalar |
| Vector2Ops.DivideModulusReassemble | Emi/Mathematics/MathE.Vector2.cs:78-92 | `v / s * s + v % s == v` whenever the division succeeds |
| Vector2Ops.SubtractUndoesAdd | Emi/Mathematics/MathE.Vector2.cs:42-56 | `(a + b) - b == a` under wrap-around |
| Vector2Ops.NegateInvolution | Emi/Mathematics/MathE.Vector2.cs:101-103 | negating twice is the identity |
| Vector2Ops.DotCommutes | Emi/Mathematics/MathE.Vector2.cs:113-115 | the dot product is symmetric |
| Vector2Ops.DotQuarterTurnIsZero | Emi/Mathematics/MathE.Vector2.cs:113-115 | a vector is orthogonal to its quarter turn `(y, -x)` under wrap-around |
| Vector2Ops.DotPerpendicularExample | Emi/Mathematics/MathE.Vector2.cs:113-115 | a worked example: (1, 2) · (2, -1) is 0 |
| Vector2Ops.Abs | Emi/Mathematics/MathE.Vector2.cs:124-126 | fails iff a component is `int.MinValue`; otherwise it gives non-negative components of the same magnitude |
| Vector2Ops.Clamp | Emi/Mathematics/MathE.Vector2.cs:137-141 | fails iff min exceeds max on some axis; otherwise the result lies between them, and a vector already between them is returned unchanged |
| Vector2Ops.Min | Emi/Mathematics/MathE.Vector2.cs:229-233 | each component is the smaller of the two |
| Vector2Ops.Max | Emi/Mathematics/MathE.Vector2.cs:243-247 | each component is the larger of the two |
| Vector2Ops.MinMaxCommute | Emi/Mathematics/MathE.Vector2.cs:229-247 | `Min` and `Max` are symmetric in their arguments |
| Vector2Ops.LengthSquaredAsWrittenVanishes | Emi/Mathematics/MathE.Vector2.cs:150-152 | the non-zero vector (65536, 0) has squared length 0 as written |
| Vector2Ops.LengthSquaredAsWrittenIsOne | Emi/Mathematics/MathE.Vector2.cs:150-152 | (int.MaxValue, 0) has squared length exactly 1 as written |
| Vector2Ops.LengthSquaredAsWritten | Emi/Mathematics/MathE.Vector2.cs:150-152 | the squared length as the code computes it: the exact one reduced modulo 2^32, and the exact one whenever it fits |
| Vector2Ops.LengthSquaredAsWrittenNegative | Emi/Mathematics/MathE.Vector2.cs:150-152 | (46341, 0) has squared length -2147479015 as written |
| Vector2Ops.LengthSquared | Emi/Mathematics/MathE.Vector2.cs:150-152 | the corrected squared length, computed exactly: zero iff the vector is zero (the code's value, `LengthSquaredAsWritten`, is 0 at (65536, 0) and negative at (46341, 0)) |
| Vector2Ops.LengthSquaredWraps | Emi/Mathematics/MathE.Vector2.cs:150-152 | the as-written value is the exact one modulo 2^32, and equal to it when the exact one fits |
| Vector2Ops.Normalize | Emi/Mathematics/MathE.Vector2.cs:172-182 | the corrected `Normalize`, on the exact length: zero gives zero; a vector of length 1 is returned unchanged, and every other vector gives zero |
| Vector2Ops.NormalizeIdempotent | Emi/Mathematics/MathE.Vector2.cs:172-182 | normalising twice with the corrected `Normalize` equals normalising once |
| Vector2Ops.NormalizeAsWritten | Emi/Mathematics/MathE.Vector2.cs:161-182 | `Normalize` as written, on the wrapped squared length: no value iff that is negative; otherwise zero, or the vector itself exactly when its wrapped squared length is 1 |
| Vector2Ops.NormalizeAgreesWhenFits | Emi/Mathematics/MathE.Vector2.cs:150-182 | whenever the exact squared length fits in an `int`, the code's `Normalize` and the corrected one agree |
| Vector2Ops.NormalizeAsWrittenIdempotent | Emi/Mathematics/MathE.Vector2.cs:172-182 | wherever the code's `Normalize` has a value, applying it again changes nothing |
| Vector2Ops.NormalizeAsWrittenKeepsMaxValue | Emi/Mathematics/MathE.Vector2.cs:150-182 | the code returns (int.MaxValue, 0) unchanged where the corrected `Normalize` gives zero |
| Vector2Ops.ProjectOnto | Emi/Mathematics/MathE.Vector2.cs:208-219 | the corrected `ProjectOnto`, dividing by the exact squared length: projecting onto the zero vector gives zero |
| Vector2Ops.ProjectOntoSelf | Emi/Mathematics/MathE.Vector2.cs:208-219 | a non-zero vector whose squared length fits projects onto itself as itself |
| Vector2Ops.ProjectOntoOrthogonal | Emi/Mathematics/MathE.Vector2.cs:208-219 | a vector with dot product 0 with the normal projects to zero, as written and corrected |
| Vector2Ops.ProjectOntoAsWritten | Emi/Mathematics/MathE.Vector2.cs:208-219 | `ProjectOnto` as written: a normal whose wrapped squared length is 0 gives zero |
| Vector2Ops.ProjectOntoAgreesWhenFits | Emi/Mathematics/MathE.Vector2.cs:208-219 | whenever the normal's exact squared length fits, the code's `ProjectOnto` and the corrected one agree |
| Vector2Ops.ProjectOntoAsWrittenDiffers | Emi/Mathematics/MathE.Vector2.cs:208-219 | the code projects (2, 0) onto (65537, 0) as (65537, 0), where the corrected projection is zero |
| Vector2Ops.ProjectOntoAsWrittenVanishes | Emi/Mathematics/MathE.Vector2.cs:208-219 | the code projects every vector onto (65536, 0) as zero |
| Vector2Ops.DistanceSquared | Emi/Mathematics/MathE.Vector2.cs:257-262 | the corrected squared distance: zero iff the two vectors are equal |
| Vector2Ops.DistanceSquaredAsWritten | Emi/Mathematics/MathE.Vector2.cs:257-262 | the squared distance as the code computes it: the corrected one reduced modulo 2^32, and 0 for equal vectors |
| Vector2Ops.DistanceSquaredAsWrittenVanishes | Emi/Mathematics/MathE.Vector2.cs:257-262 | as written, (65536, 0) is at squared distance 0 from the origin |
| Vector2Ops.DistanceSquaredSymmetric | Emi/Mathematics/MathE.Vector2.cs:257-262 | the squared distance is symmetric |
| IntVector3.Splat | Emi/Mathematics/Vectors/Vector3i.cs:37-41 | all three components are the given value |
| IntVector3.UnitsOrthogonal | Emi/Mathematics/Vectors/Vector3i.cs:49-56 | distinct unit axes have dot product 0 |
| IntVector3.UnitsRightHanded | Emi/Mathematics/Vectors/Vector3i.cs:49-56 | X × Y = Z, Y × Z = X, Z × X = Y |
| IntVector3.OneIsSumOfUnits | Emi/Mathematics/Vectors/Vector3i.cs:43-56 | `One` is the sum of the three unit axes; splatting 1 and 0 gives `One` and `Zero` |
| IntVector3.Normalize | Emi/Mathematics/Vectors/Vector3i.cs:80-91 | zero is returned unchanged; any other vector gives a non-zero vector with components in {-1, 0, 1} whose signs agree with the input |
| IntVector3.NormalizeIdempotent | Emi/Mathematics/Vectors/Vector3i.cs:80-91 | normalising twice with the corrected `Normalize` equals normalising once |
| IntVector3.NormalizeAsWritten | Emi/Mathematics/Vectors/Vector3i.cs:80-91 | `Normalize` as written, on the wrapped squared length: no value iff that is negative (the length is NaN); a wrapped squared length of 0 returns the vector unchanged; otherwise each component keeps its sign or becomes 0 and never grows in magnitude; the identical method of the `Vector3i` in Emi/Mathematics/Vector3i.cs:80-91, whose length comes from the wrapping `Length` at Emi/Mathematics/Vector3Extensions.cs:189-191, is the same function |
| IntVector3.NormalizeAgreesWhenFits | Emi/Mathematics/Vectors/Vector3i.cs:80-91 | whenever the exact squared length fits in an `int`, the code's `Normalize` and the corrected one agree |
| IntVector3.NormalizeAsWrittenKeepsWrappedZero | Emi/Mathematics/Vectors/Vector3i.cs:80-91 | the code returns (65536, 0, 0) unchanged, where the corrected `Normalize` gives (1, 0, 0) |
| IntVector3.NormalizeAsWrittenNotIdempotent | Emi/Mathematics/Vectors/Vector3i.cs:80-91 | the code maps (65537, 0, 0) to (181, 0, 0) and that to (1, 0, 0), so it is not idempotent; the corrected `Normalize` gives (1, 0, 0) at once |
| IntVector3.NormalizeAgreesOnUnitVectors | Emi/Mathematics/Vectors/Vector3i.cs:80-91 | on a vector of length 1 the rounding and the generic truncating normalisations agree and return the vector itself |
| IntVector3.CrossOperatorExample | Emi/Mathematics/Vector3i.cs:103 | the `*` operator between two vectors is the cross product: (2, 3, 4) × (5, 6, 7) = (-3, 6, -3) |
| IntVector3.ToDouble | Emi/Mathematics/Vector3i.cs:62 | each component converts exactly to a double |
| IntVector3.FromDouble | Emi/Mathematics/Vectors/Vector3i.cs:124-127 | each component is rounded half away from zero; the conversion is defined iff every rounded component fits in an `int` |
| IntVector3.FromDoubleToDouble | Emi/Mathematics/Vectors/Vector3i.cs:124-127 | converting to double and back gives the original vector |
| IntVector3.FromDoubleIsNearest | Emi/Mathematics/Vectors/Vector3i.cs:124-127 | every converted component is within 0.5 of the double it came from |
| IntVector2.Splat | Emi/Mathematics/Vectors/Vector2i.cs:32-35 | both components are the given value |
| IntVector2.UnitsOrthogonal | Emi/Mathematics/Vectors/Vector2i.cs:43-47 | the two unit axes have dot product 0 |
| IntVector2.UnitsHaveLengthOne | Emi/Mathematics/Vectors/Vector2i.cs:43-47 | each unit axis has squared length 1 |
| IntVector2.OneIsSumOfUnits | Emi/Mathematics/Vectors/Vector2i.cs:37-47 | `One` is the sum of the unit axes; splatting 1 and 0 gives `One` and `Zero` |
| IntVector2.Normalize | Emi/Mathematics/Vectors/Vector2i.cs:62-72 | zero is returned unchanged; any other vector gives a non-zero vector with components in {-1, 0, 1} whose signs agree with the input |
| IntVector2.NormalizeIdempotent | Emi/Mathematics/Vectors/Vector2i.cs:62-72 | normalising twice with the corrected `Normalize` equals normalising once |
| IntVector2.NormalizeAsWritten | Emi/Mathematics/Vectors/Vector2i.cs:62-72 | `Normalize` as written, on the wrapped squared length: no value iff that is negative; a wrapped squared length of 0 returns the vector unchanged; otherwise each component keeps its sign or becomes 0 and never grows in magnitude |
| IntVector2.NormalizeAgreesWhenFits | Emi/Mathematics/Vectors/Vector2i.cs:62-72 | whenever the exact squared length fits in an `int`, the code's `Normalize` and the corrected one agree |
| IntVector2.NormalizeAsWrittenKeepsWrappedZero | Emi/Mathematics/Vectors/Vector2i.cs:62-72 | the code returns (65536, 0) unchanged, where the corrected `Normalize` gives (1, 0) |
| IntVector2.NormalizeAsWrittenNotIdempotent | Emi/Mathematics/Vectors/Vector2i.cs:62-72 | the code maps (65537, 0) to (181, 0) and that to (1, 0), so it is not idempotent |
| IntVector2.NormalizeAgreesOnUnitVectors | Emi/Mathematics/Vectors/Vector2i.cs:62-72 | on a vector of length 1 the rounding and truncating normalisations agree and return the vector itself |
| IntVector2.FromDouble | Emi/Mathematics/Vectors/Vector2i.cs:101-103 | each component is rounded half away from zero; the conversion is defined iff both fit in an `int` |
| IntVector2.FromDoubleOfIntegers | Emi/Mathematics/Vectors/Vector2i.cs:101-103 | integral doubles convert back to the same integers |
| IntVector2.FromDoubleNegate | Emi/Mathematics/Vectors/Vector2i.cs:101-103 | rounding away from zero is odd: converting the negated doubles gives the negated vector |
| Rounding.RoundHalfAway | Emi/Mathematics/Vectors/Vector3i.cs:125-127 | the result is the nearest integer, with ties going away from zero, and it carries the input's sign |
| Rounding.RoundHalfAwayOdd | Emi/Mathematics/Vectors/Vector3i.cs:125-127 | rounding the negation gives the negated rounding |
| Rounding.RoundToInt32 | Emi/Mathematics/Vectors/Vector3i.cs:125-127 | the `(int)` cast is defined iff the rounded value fits in an `int`, and then equals it |
| Rounding.WidenThenRound | Emi/Mathematics/Vectors/Vector3i.cs:125-127 | an `int` widened to double and rounded back is unchanged |
| Rounding.RoundedUnit | Emi/Mathematics/Vectors/Vector3i.cs:86-90 | a component divided by the length and rounded lies in {-1, 0, 1}, keeps the component's sign, and is non-zero iff the component exceeds half the length |
| Rounding.RoundedQuotient | Emi/Mathematics/Vectors/Vector3i.cs:86-90 | a component over the square root of a positive squared length, rounded to nearest without taking the root: its magnitude k satisfies (2k-1)^2·ls < 4c^2 <= (2k+1)^2·ls, it is no larger than the component's, and it has the component's sign or is 0 |
| Rounding.BracketUnique | Emi/Mathematics/Vectors/Vector3i.cs:86-90 | at most one integer satisfies that bracket, so the rounded quotient is the nearest integer |
| Rounding.RoundedQuotientIsUnit | Emi/Mathematics/Vectors/Vector3i.cs:86-90 | when the component's square is at most the squared length, the rounded quotient is the unit rounding `RoundedUnit` |
| VertexLayouts.GetSize | Emi/Graphics/VertexLayout.cs:24-36 | the size table equals the component width in bytes times the component count that the format's name spells, for every format; it is zero only for unsized formats |
| VertexLayouts.End | Emi/Graphics/VertexLayout.cs:20 | an attribute's end is its offset plus its size when that fits in a `uint`; otherwise it wraps to a value below the offset |
| VertexLayouts.NewLayout | Emi/Graphics/VertexLayout.cs:9-11 | a new layout has the given stride and no attributes |
| VertexLayouts.AddAttribute | Emi/Graphics/VertexLayout.cs:13-22 | the attribute is appended; the stride never shrinks, and without wrap-around it becomes the larger of itself and the attribute's end |
| VertexLayouts.CreateDefault | Emi/Graphics/VertexLayout.cs:38-42 | the default layout is one `Float32x3` attribute at location 0, offset 0, with stride 12 |
| VertexLayouts.AddKeepsCovered | Emi/Graphics/VertexLayout.cs:20-21 | if the stride covers every attribute's end before the call, it still does afterwards |
| VertexLayouts.MaxEndIsMax | Emi/Graphics/VertexLayout.cs:20-21 | the folded end is at least the starting stride, at least every attribute's end, and equal to one of them |
| VertexLayouts.AddAllStride | Emi/Graphics/VertexLayout.cs:13-22 | after adding a sequence of attributes the stride is the maximum of the old stride and every attribute's end |
| VertexLayouts.WrappedEndUndercounts | Emi/Graphics/VertexLayout.cs:20 | an offset near 2^32 wraps the computed end, so the stride stays at 8 and no longer covers the attribute |
| Cameras.UpdateProjection | Emi/Graphics/Camera.cs:10-18 | the projection is the identity except M11 = 1 / aspect, M33 = 0.5 and M43 = 0.5 |
| Cameras.GetProjectionMatrixFlat | Emi/Graphics/Camera.cs:20-27 | the flattened projection has 16 entries |
| Cameras.Flat | Emi/Graphics/Camera.cs:20-27 | the flattening has 16 entries, and entry `(row, col)` sits at position `4·(row-1) + (col-1)` |
| Cameras.FlatRoundTrip | Emi/Graphics/Camera.cs:20-27 | flattening is a bijection between matrices and 16-element sequences |
| Cameras.SquareViewport | Emi/Graphics/Camera.cs:10-27 | for a square viewport the flattened projection has 1 at positions 0 and 5 and 0.5 at positions 10 and 14 |

## Left out

- Event handlers: notifications are recorded in a trace, not delivered. A handler that mutates the tree while a notification is being raised (re-entrancy) is not modelled, and neither is the state such a handler would see (for example, child-removed fires before the parent link is re-pointed). Only the order of the notifications is proved.
- `a.Children = b.Children` with `b` different from `a` enumerates `b`'s live list while moving its items. The C# enumerator then throws after the first move. This cross-element case is not modelled; `a.Children = a.Children` is (`CompositeProps.ReassignOwnChildren`).
- `SetChildren` with the same element twice in the list: the second occurrence takes the same-parent path and leaves a stale index. `CompositeProps.SetChildrenChecks`, `CompositeProps.SetChildrenShape`, `CompositeProps.SetChildrenPartial` and `CompositeProps.SetChildrenEvents` assume distinct items.
- `Tree.IsDescendantOfWalk`: the upward walk carries a fuel bound equal to the number of elements in the scene. In a scene with a cycle the C# loop would not end, and that case is not modelled. `Tree.ChainEnds` shows the bound is enough in every well-formed scene.
- `MatrixCache.GetMatrix` likewise recurses up the parent chain with fuel. `MatrixCache.ReadSucceeds` shows the fuel is enough in well-formed scenes.
- Quaternion and `Matrix4x4` arithmetic, `Quaternion.Normalize`, `Quaternion.FromEulerDegrees` and `Matrix4x4.TransformPoint` are parameters or symbolic terms. The numeric world-position scenarios and the Euler versus axis-angle equivalence therefore reduce to the symbolic matrix product (`MatrixCache.WorldUnderRoot`) and are not evaluated.
- `Transforms.NeedsNormalizingIsLengthTest`: the rotation setter's test is stated on the squared length, and the square root is a parameter of the lemma.
- Float and double vector types (`Vector2`, `Vector3`, `Vector3d`, `Vector2d`), the float-only 2D `Lerp`/`LerpCore`, and `Length`/`Distance` (square roots) are not modelled. The model covers the generic helpers at `int` only.
- `Reflect` (Vector3Extensions.cs:220-226, MathE.Vector2.cs:192-198) is not modelled. Its factor is `dot + dot` truncated from a double, which at `int` is an ordinary wrapped doubling.
- `Vector3i.ToSingle` (the older `Vector3i.cs`) converts to `float`. It is not modelled because single-precision rounding of large integers is not.
- IntVector3.Normalize: `Math.Round` rounds ties to even, and the model rounds a component to 0 exactly when it is at most half the length. A tie would need the other squared components to sum to three times this one's square, which no non-zero integers achieve, so in exact arithmetic the tie rule never matters. The rounding error of `1d / length` in `double` is not modelled. The same holds for IntVector2.Normalize.
- IntVector3.Normalize is the corrected half of a finding below: it divides by the exact length. The code divides by the square root of the wrapped squared length, and every vector whose exact squared length exceeds `int.MaxValue` can then come out differently: (65536, 0, 0) is returned unchanged where the corrected version gives (1, 0, 0), and (65537, 0, 0) gives (181, 0, 0). `IntVector3.NormalizeAsWritten` models the code.
- IntVector2.Normalize is likewise the corrected half; `IntVector2.NormalizeAsWritten` models the code, which returns (65536, 0) unchanged and maps (65537, 0) to (181, 0).
- IntVector3.NormalizeIdempotent states idempotence of the corrected `Normalize`. The code's `Normalize` is not idempotent: (65537, 0, 0) gives (181, 0, 0), and normalising that gives (1, 0, 0) (`IntVector3.NormalizeAsWrittenNotIdempotent`).
- IntVector2.NormalizeIdempotent likewise holds of the corrected `Normalize` only; the code maps (65537, 0) to (181, 0) and then to (1, 0) (`IntVector2.NormalizeAsWrittenNotIdempotent`).
- IntVector3.NormalizeAsWritten: a negative wrapped squared length makes `Math.Sqrt` return NaN, and the `(int)` cast of NaN is not the same on every runtime, so the model gives no value. A component whose quotient is exactly half an odd integer is rounded toward zero, where `Math.Round` rounds to even, and the rounding error of `1d / length` and of the product in double precision is not modelled.
- IntVector2.NormalizeAsWritten: the same NaN case, tie rule and double-precision rounding are left out as in 3D.
- Vector3Ops.Normalize is the corrected half of a finding below: it uses the exact squared length. The code uses the wrapped one, and every vector whose exact squared length exceeds `int.MaxValue` can then come out differently; (int.MaxValue, 0, 0), for one, is returned unchanged instead of zero. `Vector3Ops.NormalizeAsWritten` models the code.
- Vector3Ops.ProjectOnto is likewise corrected: it divides by the normal's exact squared length. The code divides by the wrapped one, so every normal whose exact squared length exceeds `int.MaxValue` can give a different projection; (2, 0, 0) onto (65537, 0, 0) gives (65537, 0, 0) instead of zero. `Vector3Ops.ProjectOntoAsWritten` models the code.
- Vector2Ops.Normalize is the corrected half in 2D, with the same differences; `Vector2Ops.NormalizeAsWritten` models the code.
- Vector2Ops.ProjectOnto is the corrected half in 2D; `Vector2Ops.ProjectOntoAsWritten` models the code.
- Vector3Ops.NormalizeAsWritten: a negative wrapped squared length makes the length NaN, and `int.CreateTruncating` of a NaN scale is not the same on every runtime, so the model gives no value there.
- Vector2Ops.NormalizeAsWritten: the same NaN case has no value, as in 3D.
- Vector3Ops.LengthSquared is the corrected half of a finding below: it is computed exactly. The code computes it in `int`, so it wraps: 0 at (65536, 0, 0) (`Vector3Ops.LengthSquaredAsWrittenVanishes`) and -2147479015 at (46341, 0, 0) (`Vector3Ops.LengthSquaredAsWrittenNegative`). `Vector3Ops.LengthSquaredAsWritten` models the code.
- Vector2Ops.LengthSquared is the corrected half in 2D: the code's value is 0 at (65536, 0) and -2147479015 at (46341, 0). `Vector2Ops.LengthSquaredAsWritten` models the code.
- Vector3Ops.DistanceSquared is the corrected half of a finding below: it measures the wrapped difference exactly. The code's squared length wraps, so it is not zero only for equal vectors: (65536, 0, 0) is at squared distance 0 from the origin. `Vector3Ops.DistanceSquaredAsWritten` models the code.
- Vector2Ops.DistanceSquared is the corrected half in 2D; `Vector2Ops.DistanceSquaredAsWritten` models the code.
- `LerpTo` (Vector3Extensions.cs:250-252) only forwards to `Vector3Math.Lerp`. The `Vector3i` and `Vector2i` operators, `Dot`, `Min`, `Max`, `Clamp` and `Normalized` are one-line forwards to the generic helpers and are the same Dafny members. `IsFinite` is the constant `true`.
- `Rounding.RoundToInt32`: an out-of-range `(int)` cast of a double has no defined value in C#, and the model returns no value.
- `VertexAttribute` and `VertexFormat` come from the WebGPU binding. The formats are an enumeration of the names the size table mentions, plus `Undefined` and a catch-all.
- `Cameras.UpdateProjection`: float division is a parameter, so `width / height` and `1 / aspect` are not evaluated. A zero height gives whatever the parameter gives, just as C# gives infinity or NaN.
- Graphics devices, pipelines, shaders, buffers, the window and the application loop are outside the core.

## Findings

| source | as written | input that shows it | evidently intended | confidence | as-written member | corrected member |
|---|---|---|---|---|---|---|
| Emi/Mathematics/Vector3Extensions.cs:178-180 | the squared length `x*x + y*y + z*z` is computed in `int`, wrapping modulo 2^32, and only then converted to `double` | `(65536, 0, 0)` gives 0, so `Normalize` and `ProjectOnto` treat it as the zero vector; `(2147483647, 0, 0)` gives 1, so `Normalize` returns it unchanged as if it were a unit vector; `(46341, 0, 0)` gives -2147479015, a negative squared length | the squared length computed in double precision, which is zero only for the zero vector and never negative | medium (not executed) | Vector3Ops.LengthSquaredAsWrittenVanishes | Vector3Ops.LengthSquared |
| Emi/Mathematics/MathE.Vector2.cs:150-152 | the 2D squared length `x*x + y*y` is computed in `int` before conversion | `(65536, 0)` gives 0; `(2147483647, 0)` gives 1; `(46341, 0)` gives -2147479015 | the squared length computed in double precision, never negative | medium (not executed) | Vector2Ops.LengthSquaredAsWrittenVanishes | Vector2Ops.LengthSquared |
| Emi/Mathematics/Vector3Extensions.cs:200-210 | `Normalize` takes the length from the wrapped squared length | `(2147483647, 0, 0)` has wrapped squared length 1 and is returned unchanged | zero, the truncated normalisation of a vector longer than 1 | medium (not executed) | Vector3Ops.NormalizeAsWrittenKeepsMaxValue | Vector3Ops.Normalize |
| Emi/Mathematics/Vector3Extensions.cs:236-247 | `ProjectOnto` divides the dot product by the wrapped squared length of the normal | `(2, 0, 0)` onto `(65537, 0, 0)`: the ratio is 131074 / 131073 and truncates to 1, giving `(65537, 0, 0)` | the ratio 131074 / 4295098369, which truncates to 0 | medium (not executed) | Vector3Ops.ProjectOntoAsWrittenDiffers | Vector3Ops.ProjectOnto |
| Emi/Mathematics/MathE.Vector2.cs:172-182 | the 2D `Normalize` takes the length from the wrapped squared length | `(2147483647, 0)` is returned unchanged | zero | medium (not executed) | Vector2Ops.NormalizeAsWrittenKeepsMaxValue | Vector2Ops.Normalize |
| Emi/Mathematics/MathE.Vector2.cs:208-219 | the 2D `ProjectOnto` divides by the wrapped squared length | `(2, 0)` onto `(65537, 0)` gives `(65537, 0)` | zero | medium (not executed) | Vector2Ops.ProjectOntoAsWrittenDiffers | Vector2Ops.ProjectOnto |
| Emi/Mathematics/Vector3Math.cs:33-38 | `DistanceSquared` takes the wrapped squared length of the difference | `(65536, 0, 0)` and the origin are at squared distance 0 | 2^32, and 0 only for equal vectors | medium (not executed) | Vector3Ops.DistanceSquaredAsWrittenVanishes | Vector3Ops.DistanceSquared |
| Emi/Mathematics/MathE.Vector2.cs:257-262 | the 2D `DistanceSquared` takes the wrapped squared length of the difference | `(65536, 0)` and the origin are at squared distance 0 | 2^32 | medium (not executed) | Vector2Ops.DistanceSquaredAsWrittenVanishes | Vector2Ops.DistanceSquared |
| Emi/Mathematics/Vectors/Vector3i.cs:80-91 | `Vector3i.Normalize` divides each component by the square root of the wrapped squared length; the identical method in Emi/Mathematics/Vector3i.cs:80-91 takes it from the wrapping `Length` of Emi/Mathematics/Vector3Extensions.cs:189-191 | `(65537, 0, 0)`: wrapped squared length 131073, length about 362.04, result `(181, 0, 0)`, and normalising that gives `(1, 0, 0)`; `(65536, 0, 0)` is returned unchanged | `(1, 0, 0)` in both cases, and idempotence | medium (not executed) | IntVector3.NormalizeAsWrittenNotIdempotent | IntVector3.Normalize |
| Emi/Mathematics/Vectors/Vector2i.cs:62-72 | `Vector2i.Normalize` divides by the square root of the wrapped squared length | `(65537, 0)` gives `(181, 0)`, and normalising that gives `(1, 0)` | `(1, 0)`, and idempotence | medium (not executed) | IntVector2.NormalizeAsWrittenNotIdempotent | IntVector2.Normalize |

=== FILE: camera.dfy ===
/** `Camera`: the projection matrix `UpdateProjection` fills in, and its
    row-major flattening for upload. */
module Cameras {

  /** `Matrix4X4<float>`, entry `mRC` in row `R` and column `C`. */
  datatype Mat4 = Mat4(
    m11: real, m12: real, m13: real, m14: real,
    m21: real, m22: real, m23: real, m24: real,
    m31: real, m32: real, m33: real, m34: real,
    m41: real, m42: real, m43: real, m44: real)

  const Zero4: Mat4 := Mat4(0.0, 0.0, 0.0, 0.0, 0.0, 0.0, 0.0, 0.0, 0.0, 0.0, 0.0, 0.0, 0.0, 0.0, 0.0, 0.0)
  const Identity4: Mat4 := Mat4(1.0, 0.0, 0.0, 0.0, 0.0, 1.0, 0.0, 0.0, 0.0, 0.0, 1.0, 0.0, 0.0, 0.0, 0.0, 1.0)

  /** Entry `(row, col)`, both counted from 1. */
  function Entry(m: Mat4, row: nat, col: nat): real
    requires 1 <= row <= 4 && 1 <= col <= 4
  {
    match (row, col)
    case (1, 1) => m.m11 case (1, 2) => m.m12 case (1, 3) => m.m13 case (1, 4) => m.m14
    case (2, 1) => m.m21 case (2, 2) => m.m22 case (2, 3) => m.m23 case (2, 4) => m.m24
    case (3, 1) => m.m31 case (3, 2) => m.m32 case (3, 3) => m.m33 case (3, 4) => m.m34
    case (4, 1) => m.m41 case (4, 2) => m.m42 case (4, 3) => m.m43 case _ => m.m44
  }

  /** A camera holds only its projection; a new one holds the all-zero
      default value of the struct. */
  datatype Camera = Camera(projection: Mat4)

  const NewCamera: Camera := Camera(Zero4)

  /** `UpdateProjection(width, height)`: the identity with `M11 = 1 / (width
      / height)`, `M22 = 1`, `M33 = 0.5` and `M43 = 0.5`. `divide` is single
      precision division, a parameter. */
  function UpdateProjection(c: Camera, width: real, height: real, divide: (real, real) -> real): (r: Camera)
    ensures r.projection.m11 == divide(1.0, divide(width, height))
    ensures Entry(r.projection, 2, 2) == 1.0 && Entry(r.projection, 3, 3) == 0.5
    ensures Entry(r.projection, 4, 3) == 0.5 && Entry(r.projection, 4, 4) == 1.0
    ensures forall row, col :: 1 <= row <= 4 && 1 <= col <= 4 && (row, col) !in {(1, 1), (2, 2), (3, 3), (4, 3)} ==>
      Entry(r.projection, row, col) == Entry(Identity4, row, col)
  {
    var aspectRatio := divide(width, height);
    Camera(Identity4.(m11 := divide(1.0, aspectRatio), m22 := 1.0, m33 := 0.5, m43 := 0.5))
  }

  /** `GetProjectionMatrixFlat`: the sixteen entries, row after row, so
      that entry `(row, col)` lands at `4 * (row - 1) + (col - 1)`. */
  function Flat(m: Mat4): (r: seq<real>)
    ensures |r| == 16
    ensures forall row, col :: 1 <= row <= 4 && 1 <= col <= 4 ==>
      r[4 * (row - 1) + (col - 1)] == Entry(m, row, col)
  {
    [m.m11, m.m12, m.m13, m.m14,
     m.m21, m.m22, m.m23, m.m24,
     m.m31, m.m32, m.m33, m.m34,
     m.m41, m.m42, m.m43, m.m44]
  }

  function GetProjectionMatrixFlat(c: Camera): (r: seq<real>)
    ensures |r| == 16
  {
    Flat(c.projection)
  }

  /** Reading sixteen values back into a matrix, row after row. */
  function Unflat(xs: seq<real>): (m: Mat4)
    requires |xs| == 16
  {
    Mat4(xs[0], xs[1], xs[2], xs[3], xs[4], xs[5], xs[6], xs[7],
         xs[8], xs[9], xs[10], xs[11], xs[12], xs[13], xs[14], xs[15])
  }

  /** Flattening loses nothing: it and `Unflat` are inverse to each other. */
  lemma FlatRoundTrip(m: Mat4, xs: seq<real>)
    requires |xs| == 16
    ensures Unflat(Flat(m)) == m
    ensures Flat(Unflat(xs)) == xs
  {
  }

  /** A square viewport, with `divide` exact on it, gives the flattened
      projection `1` at 0 and 5 and `0.5` at 10 and 14. */
  lemma SquareViewport(c: Camera, side: real, divide: (real, real) -> real)
    requires divide(side, side) == 1.0 && divide(1.0, 1.0) == 1.0
    ensures var flat := GetProjectionMatrixFlat(UpdateProjection(c, side, side, divide));
      flat[0] == 1.0 && flat[5] == 1.0 && flat[10] == 0.5 && flat[14] == 0.5
  {
  }
}

=== FILE: composite.dfy ===
/** The composite operations of `Element`: `Add`, `SetParent`, the
    `ParentIndex` setter, `Clear`, `SetChildren` and `ForEachChild`, with the
    private helpers they share (`HandleChildPlacement`, `HandleParentChange`,
    `TryRemoveChild`, `ReindexChildren`). Each operation maps a scene to the
    scene it leaves behind, appending the events it raises to the trace;
    the two `InvalidOperationException`s of `SetParent` become errors. */
module Composite {
  import opened Wrappers
  import opened Seqs
  import opened Elements
  import opened Tree

  datatype TreeError =
    | OwnParent         // "An element cannot be its own parent."
    | DescendantParent  // "An element cannot be assigned a descendant as its parent."

  /** The scene after an operation, and the exception it ended with, if any.
      An operation that throws part-way leaves its earlier effects in place. */
  datatype Outcome = Outcome(state: State, error: Option<TreeError>)

  // ---- Field updates ----

  /** `t` differs from `s` only in the tree fields (parent, children, index)
      and the event trace. */
  ghost predicate TreeOnlyChange(s: State, t: State) {
    t.nodes.Keys == s.nodes.Keys && t.info == s.info
  }

  function WithParent(s: State, c: Id, parent: Option<Id>): (t: State)
    requires c in s.nodes
    ensures TreeOnlyChange(s, t) && t.events == s.events
    ensures ParentOf(t, c) == parent
    ensures forall n :: n != c ==> ParentOf(t, n) == ParentOf(s, n)
    ensures forall n :: ChildrenOf(t, n) == ChildrenOf(s, n) && IndexField(t, n) == IndexField(s, n)
  {
    s.(nodes := s.nodes[c := s.nodes[c].(parent := parent)])
  }

  /** Sets `_parentIndex`; an id outside the scene has no field to set. */
  function WithIndex(s: State, c: Id, index: Option<int>): (t: State)
    ensures TreeOnlyChange(s, t) && t.events == s.events
    ensures c in s.nodes ==> IndexField(t, c) == index
    ensures forall n :: n != c ==> IndexField(t, n) == IndexField(s, n)
    ensures forall n :: ChildrenOf(t, n) == ChildrenOf(s, n) && ParentOf(t, n) == ParentOf(s, n)
  {
    if c in s.nodes then s.(nodes := s.nodes[c := s.nodes[c].(parentIndex := index)]) else s
  }

  function WithChildren(s: State, p: Id, kids: seq<Id>): (t: State)
    requires p in s.nodes
    ensures TreeOnlyChange(s, t) && t.events == s.events
    ensures ChildrenOf(t, p) == kids
    ensures forall n :: n != p ==> ChildrenOf(t, n) == ChildrenOf(s, n)
    ensures forall n :: ParentOf(t, n) == ParentOf(s, n) && IndexField(t, n) == IndexField(s, n)
  {
    s.(nodes := s.nodes[p := s.nodes[p].(children := kids)])
  }

  /** Raises `e`: appends it to the trace. */
  function Emit(s: State, e: Event): (t: State)
    ensures t.nodes == s.nodes && t.info == s.info && t.events == s.events + [e]
    ensures forall n :: ParentOf(t, n) == ParentOf(s, n) && ChildrenOf(t, n) == ChildrenOf(s, n)
    ensures forall n :: IndexField(t, n) == IndexField(s, n)
  {
    s.(events := s.events + [e])
  }

  // ---- Private helpers ----

  /** `ReindexChildren`, from position `i` on: each listed child's
      `_parentIndex` becomes its position. Nothing else changes. */
  function Reindex(s: State, kids: seq<Id>, i: nat): (t: State)
    requires i <= |kids|
    ensures TreeOnlyChange(s, t) && t.events == s.events
    ensures forall n :: ParentOf(t, n) == ParentOf(s, n) && ChildrenOf(t, n) == ChildrenOf(s, n)
    ensures forall n :: n !in kids[i..] ==> IndexField(t, n) == IndexField(s, n)
    ensures NoDup(kids) ==>
      forall k :: i <= k < |kids| && kids[k] in s.nodes ==> IndexField(t, kids[k]) == Some(k)
    decreases |kids| - i
  {
    if i == |kids| then s
    else Reindex(WithIndex(s, kids[i], Some(i)), kids, i + 1)
  }

  /** `TryRemoveChild`: drops `c` from `p`'s list and reindexes the rest;
      returns the index it was at, or -1 when it was not there. */
  function TryRemoveChild(s: State, p: Id, c: Id): (r: (State, int))
    ensures r.1 == IndexOf(ChildrenOf(s, p), c)
    ensures r.1 < 0 ==> r.0 == s
    ensures r.1 >= 0 ==> ChildrenOf(r.0, p) == RemoveAt(ChildrenOf(s, p), r.1)
    ensures TreeOnlyChange(s, r.0) && r.0.events == s.events
    ensures forall n :: ParentOf(r.0, n) == ParentOf(s, n)
    ensures forall n :: n != p ==> ChildrenOf(r.0, n) == ChildrenOf(s, n)
    ensures forall n :: n !in ChildrenOf(r.0, p) ==> IndexField(r.0, n) == IndexField(s, n)
    ensures r.1 >= 0 && NoDup(ChildrenOf(r.0, p)) && ChildrenIn(s, p) ==> ListIndexed(r.0, p)
  {
    var kids := ChildrenOf(s, p);
    var i := IndexOf(kids, c);
    if i < 0 then (s, i)
    else
      var rest := RemoveAt(kids, i);
      var s1 := WithChildren(s, p, rest);
      (Reindex(s1, rest, 0), i)
  }

  /** `int.Clamp(newIndex, 0, count)`, which cannot throw as `count >= 0`. */
  function ClampIndex(v: int, count: nat): (i: nat)
    ensures i <= count
    ensures 0 <= v <= count ==> i == v
    ensures v < 0 ==> i == 0
    ensures v > count ==> i == count
  {
    if v < 0 then 0 else if v > count then count else v
  }

  /** Where `HandleChildPlacement` puts the child in a list of `count`
      others: at the clamped index, or at the end for `null`. */
  function PlacementIndex(newIndex: Option<int>, count: nat): (i: nat)
    ensures i <= count
    ensures newIndex.None? ==> i == count
    ensures newIndex.Some? ==> i == ClampIndex(newIndex.value, count)
  {
    match newIndex
    case None => count
    case Some(v) => ClampIndex(v, count)
  }

  /** The list work of `HandleChildPlacement`: takes `c` out of `p`'s list
      if it is there, inserts it at the placement index and reindexes.
      Returns `c`'s resulting `_parentIndex`. */
  function PlaceChild(s: State, p: Id, c: Id, newIndex: Option<int>): (r: (State, int))
    requires p in s.nodes
    ensures var others := Remove(ChildrenOf(s, p), c).1;
      ChildrenOf(r.0, p) == Insert(others, PlacementIndex(newIndex, |others|), c)
    ensures TreeOnlyChange(s, r.0) && r.0.events == s.events
    ensures forall n :: ParentOf(r.0, n) == ParentOf(s, n)
    ensures forall n :: n != p ==> ChildrenOf(r.0, n) == ChildrenOf(s, n)
    ensures forall n :: n !in ChildrenOf(r.0, p) ==> IndexField(r.0, n) == IndexField(s, n)
    ensures NoDup(ChildrenOf(r.0, p)) && ChildrenIn(s, p) && c in s.nodes ==>
      ListIndexed(r.0, p) && r.1 == PlacementIndex(newIndex, |Remove(ChildrenOf(s, p), c).1|)
  {
    var others := Remove(ChildrenOf(s, p), c).1;
    var index := PlacementIndex(newIndex, |others|);
    var kids := Insert(others, index, c);
    var s0 := WithChildren(s, p, kids);
    var s1 := Reindex(s0, kids, 0);
    assert ChildrenOf(s1, p) == kids;
    (s1, IndexField(s1, c).GetOr(index))
  }

  /** `HandleChildPlacement`: places `c` in `p`'s list and raises child-added,
      with `c`'s new index, only when `c` was not already in the list. */
  function HandleChildPlacement(s: State, p: Id, c: Id, newIndex: Option<int>): (r: (State, int))
    requires p in s.nodes
    ensures c in ChildrenOf(s, p) ==> r == PlaceChild(s, p, c, newIndex)
    ensures c !in ChildrenOf(s, p) ==>
      var (t, i) := PlaceChild(s, p, c, newIndex);
      r == (Emit(t, ChildAdded(p, c, i)), i)
    ensures TreeOnlyChange(s, r.0)
    ensures forall n :: ParentOf(r.0, n) == ParentOf(s, n)
  {
    var modifying := Remove(ChildrenOf(s, p), c).0;
    var (s1, final) := PlaceChild(s, p, c, newIndex);
    if modifying then (s1, final)
    else (Emit(s1, ChildAdded(p, c, final)), final)
  }

  // ---- SetParent ----

  /** The two checks `HandleParentChange` makes before touching anything. */
  function ParentCheck(s: State, c: Id, parent: Option<Id>): (e: Option<TreeError>)
    ensures e == Some(OwnParent) <==> parent == Some(c)
    ensures e == Some(DescendantParent) <==>
      parent != Some(c) && parent.Some? && IsDescendantOf(s, parent.value, Some(c))
    ensures e.Some? ==> e == Some(OwnParent) || e == Some(DescendantParent)
  {
    if parent == Some(c) then Some(OwnParent)
    else if parent.Some? && IsDescendantOf(s, parent.value, Some(c)) then Some(DescendantParent)
    else None
  }

  /** The removal half of `HandleParentChange`: `c` leaves its old parent's
      list, which raises child-removed with the old index while `c._parent`
      still names the old parent. */
  function DetachFromOld(s: State, c: Id): (t: State)
    ensures TreeOnlyChange(s, t)
    ensures forall n :: ParentOf(t, n) == ParentOf(s, n)
  {
    match ParentOf(s, c)
    case None => s
    case Some(o) =>
      var (u, i) := TryRemoveChild(s, o, c);
      if i >= 0 then Emit(u, ChildRemoved(o, c, i)) else u
  }

  /** `_parent = parent`, and `_parentIndex = null` when detaching. */
  function Repoint(s: State, c: Id, parent: Option<Id>): (t: State)
    requires c in s.nodes
    ensures TreeOnlyChange(s, t) && t.events == s.events
    ensures ParentOf(t, c) == parent
    ensures forall n :: n != c ==> ParentOf(t, n) == ParentOf(s, n)
    ensures forall n :: ChildrenOf(t, n) == ChildrenOf(s, n)
    ensures forall n :: n != c ==> IndexField(t, n) == IndexField(s, n)
    ensures IndexField(t, c) == if parent.None? then None else IndexField(s, c)
  {
    var t := WithParent(s, c, parent);
    if parent.None? then WithIndex(t, c, None) else t
  }

  /** `_parentIndex = p.HandleChildPlacement(c, newIndex)`, the attaching
      half of `SetParent` and of the `ParentIndex` setter. */
  function AttachTo(s: State, p: Id, c: Id, newIndex: Option<int>): (t: State)
    requires p in s.nodes
    ensures TreeOnlyChange(s, t)
    ensures forall n :: ParentOf(t, n) == ParentOf(s, n)
  {
    var r := HandleChildPlacement(s, p, c, newIndex);
    WithIndex(r.0, c, Some(r.1))
  }

  /** `SetParent(parent)`. Throws, changing nothing, when `parent` is the
      element itself or one of its descendants; does nothing when `parent` is
      already the parent; otherwise detaches from the old parent, attaches to
      the new one at the element's current `_parentIndex` (clamped; `null`
      appends) and raises parent-changed. */
  function SetParent(s: State, c: Id, parent: Option<Id>): (r: Outcome)
    requires c in s.nodes
    requires parent.Some? ==> parent.value in s.nodes
    ensures r.error == ParentCheck(s, c, parent)
    ensures parent.None? ==> r.error.None?
    ensures r.error.Some? || ParentOf(s, c) == parent ==> r.state == s
    ensures r.error.None? ==> ParentOf(r.state, c) == parent
    ensures forall n :: n != c ==> ParentOf(r.state, n) == ParentOf(s, n)
    ensures TreeOnlyChange(s, r.state)
  {
    var err := ParentCheck(s, c, parent);
    if err.Some? then Outcome(s, err)
    else if ParentOf(s, c) == parent then Outcome(s, None)
    else Outcome(Move(s, c, parent), None)
  }

  /** The effect of `SetParent` once the checks have passed and the parent
      does change: detach, re-point, attach, raise parent-changed. */
  function Move(s: State, c: Id, parent: Option<Id>): (t: State)
    requires c in s.nodes
    requires parent.Some? ==> parent.value in s.nodes
    ensures ParentOf(t, c) == parent
    ensures forall n :: n != c ==> ParentOf(t, n) == ParentOf(s, n)
    ensures TreeOnlyChange(s, t)
  {
    var s1 := Repoint(DetachFromOld(s, c), c, parent);
    var s2 := if parent.None? then s1 else AttachTo(s1, parent.value, c, IndexField(s1, c));
    Emit(s2, ParentChanged(c, ParentOf(s, c), parent))
  }

  // ---- The public operations built on SetParent ----

  /** `p.Add(c, index)`: stores `index` in `c._parentIndex`, then
      `c.SetParent(p)`. The stored index stays even when `SetParent` throws
      or does nothing. */
  function Add(s: State, p: Id, c: Id, index: Option<int>): (r: Outcome)
    requires p in s.nodes && c in s.nodes
    ensures r.error == ParentCheck(s, c, Some(p))
    ensures r.error.None? ==> ParentOf(r.state, c) == Some(p)
    ensures r.error.Some? || ParentOf(s, c) == Some(p) ==> r.state == WithIndex(s, c, index)
    ensures forall n :: n != c ==> ParentOf(r.state, n) == ParentOf(s, n)
    ensures TreeOnlyChange(s, r.state)
  {
    IsDescendantOfSameParents(s, WithIndex(s, c, index), p, Some(c));
    SetParent(WithIndex(s, c, index), c, Some(p))
  }

  /** The `ParentIndex` setter: a detached element just stores the value; an
      attached one is re-placed in its parent's list at the (clamped) value,
      or at the end for `null`, and stores where it ended up. */
  function SetParentIndex(s: State, c: Id, value: Option<int>): (t: State)
    requires c in s.nodes
    requires ParentOf(s, c).Some? ==> ParentOf(s, c).value in s.nodes
    ensures ParentOf(s, c).None? ==> t == WithIndex(s, c, value)
    ensures forall n :: ParentOf(t, n) == ParentOf(s, n)
    ensures TreeOnlyChange(s, t)
  {
    match ParentOf(s, c)
    case None => WithIndex(s, c, value)
    case Some(p) => AttachTo(s, p, c, value)
  }

  /** The loop of `Clear`: `SetParent(null)` on each element of the
      snapshot in turn. Detaching never throws. */
  function DetachAll(s: State, kids: seq<Id>): (t: State)
    requires forall k :: k in kids ==> k in s.nodes
    ensures TreeOnlyChange(s, t)
    ensures forall k :: k in kids ==> ParentOf(t, k) == None
    ensures forall n :: n !in kids ==> ParentOf(t, n) == ParentOf(s, n)
    decreases |kids|
  {
    if |kids| == 0 then s
    else DetachAll(SetParent(s, kids[0], None).state, kids[1..])
  }

  /** `p.Clear()`: detaches every child, walking a snapshot of the list. */
  function Clear(s: State, p: Id): (t: State)
    requires ChildrenIn(s, p)
    ensures TreeOnlyChange(s, t)
    ensures forall k :: k in ChildrenOf(s, p) ==> ParentOf(t, k) == None
    ensures forall n :: n !in ChildrenOf(s, p) ==> ParentOf(t, n) == ParentOf(s, n)
  {
    DetachAll(s, ChildrenOf(s, p))
  }

  /** The loop of `SetChildren`, from position `k` of the new list on: each
      element gets `_parentIndex = k` and then `SetParent(p)`. The first
      exception ends the loop and leaves the earlier steps in place. */
  function AttachEach(s: State, p: Id, list: seq<Id>, k: nat): (r: Outcome)
    requires p in s.nodes && forall x :: x in list ==> x in s.nodes
    requires k <= |list|
    ensures TreeOnlyChange(s, r.state)
    decreases |list| - k
  {
    if k == |list| then Outcome(s, None)
    else
      var o := Add(s, p, list[k], Some(k));
      if o.error.Some? then o
      else AttachEach(o.state, p, list, k + 1)
  }

  /** `p.SetChildren(list)` (also the `Children` setter): `Clear()`, then
      attach each listed element in order at its position in the list. */
  function SetChildren(s: State, p: Id, list: seq<Id>): (r: Outcome)
    requires p in s.nodes && ChildrenIn(s, p) && forall x :: x in list ==> x in s.nodes
    ensures TreeOnlyChange(s, r.state)
  {
    AttachEach(Clear(s, p), p, list, 0)
  }

  // ---- ForEachChild ----

  /** Runs `action` over `steps` in order, threading the scene through. */
  function ApplyAll(s: State, action: (State, Id, int) -> State, steps: seq<(Id, int)>): State
    decreases |steps|
  {
    if |steps| == 0 then s
    else ApplyAll(action(s, steps[0].0, steps[0].1), action, steps[1..])
  }

  lemma {:induction false} ApplyAllSnoc(s: State, action: (State, Id, int) -> State, steps: seq<(Id, int)>, x: (Id, int))
    ensures ApplyAll(s, action, steps + [x]) == action(ApplyAll(s, action, steps), x.0, x.1)
    decreases |steps|
  {
    if |steps| > 0 {
      assert (steps + [x])[1..] == steps[1..] + [x];
      ApplyAllSnoc(action(s, steps[0].0, steps[0].1), action, steps[1..], x);
    }
  }

  /** The calls `ForEachChild` makes: each child of the snapshot with its
      snapshot index, first to last, or last to first when `reverse`. */
  function VisitOrder(snapshot: seq<Id>, reverse: bool): (v: seq<(Id, int)>)
    ensures |v| == |snapshot|
    ensures forall j :: 0 <= j < |v| ==>
      var i := if reverse then |snapshot| - 1 - j else j;
      v[j] == (snapshot[i], i)
  {
    seq(|snapshot|, j requires 0 <= j < |snapshot| =>
      var i := if reverse then |snapshot| - 1 - j else j;
      (snapshot[i], i))
  }

  /** `ForEachChild(action, reverse)`: takes a snapshot of the child list and
      calls `action(child, index)` over it. What the action does to the
      list (adding, removing, reordering) does not change which calls are
      made: they are exactly `VisitOrder` of the snapshot, in that order. */
  method ForEachChild(s: State, p: Id, action: (State, Id, int) -> State, reverse: bool)
    returns (t: State, visited: seq<(Id, int)>)
    ensures visited == VisitOrder(ChildrenOf(s, p), reverse)
    ensures t == ApplyAll(s, action, visited)
  {
    var snapshot := ChildrenOf(s, p);
    var order := VisitOrder(snapshot, reverse);
    t, visited := s, [];
    if reverse {
      var i := |snapshot| - 1;
      while i >= 0
        invariant -1 <= i < |snapshot|
        invariant visited == order[..|snapshot| - 1 - i]
        invariant t == ApplyAll(s, action, visited)
      {
        ApplyAllSnoc(s, action, visited, (snapshot[i], i));
        assert order[..|snapshot| - i] == order[..|snapshot| - 1 - i] + [order[|snapshot| - 1 - i]];
        t := action(t, snapshot[i], i);
        visited := visited + [(snapshot[i], i)];
        i := i - 1;
      }
    } else {
      var i := 0;
      while i < |snapshot|
        invariant 0 <= i <= |snapshot|
        invariant visited == order[..i]
        invariant t == ApplyAll(s, action, visited)
      {
        ApplyAllSnoc(s, action, visited, (snapshot[i], i));
        assert order[..i + 1] == order[..i] + [order[i]];
        t := action(t, snapshot[i], i);
        visited := visited + [(snapshot[i], i)];
        i := i + 1;
      }
    }
    assert order[..|snapshot|] == order;
  }
}

=== FILE: composite_props.dfy ===
/** What the composite operations do to a well-formed scene: the shape of
    each step, the events each operation raises and in which order, and the
    invariants (`Wf`, `Indexed`) that `SetParent` and its callers keep. */
module CompositeProps {
  import opened Wrappers
  import opened Seqs
  import opened Elements
  import opened Tree
  import opened Composite

  lemma AppendThree<T>(xs: seq<T>, a: T, b: T, c: T)
    ensures xs + [a] + [b] + [c] == xs + [a, b, c]
  {
  }

  lemma AppendTwo<T>(xs: seq<T>, a: T, b: T)
    ensures xs + [a] + [b] == xs + [a, b]
  {
  }

  lemma AppendAssoc<T>(a: seq<T>, b: seq<T>, c: seq<T>)
    ensures a + b + c == a + (b + c)
  {
  }

  // ---- One step at a time ----

  /** Detaching `c` from its old parent `o`, when `c` is in `o`'s list, is
      `TryRemoveChild` followed by child-removed with the index it had. */
  lemma DetachUnfold(s: State, c: Id, o: Id)
    requires ParentOf(s, c) == Some(o) && c in ChildrenOf(s, o)
    ensures var r := TryRemoveChild(s, o, c);
      r.1 == IndexOf(ChildrenOf(s, o), c) >= 0 &&
      DetachFromOld(s, c) == Emit(r.0, ChildRemoved(o, c, r.1))
  {
  }

  /** Detaching `c` from its old parent `o`, when `c` is in `o`'s list
      without repeats: `c` leaves the list, which keeps no repeats, and no
      other list changes ... */
  lemma DetachLists(s: State, c: Id, o: Id)
    requires ParentOf(s, c) == Some(o) && ChildrenIn(s, o)
    requires c in ChildrenOf(s, o) && NoDup(ChildrenOf(s, o))
    ensures var t := DetachFromOld(s, c);
      && ChildrenOf(t, o) == RemoveAt(ChildrenOf(s, o), IndexOf(ChildrenOf(s, o), c))
      && NoDup(ChildrenOf(t, o)) && c !in ChildrenOf(t, o)
      && (forall n :: n != o ==> ChildrenOf(t, n) == ChildrenOf(s, n))
  {
    DetachUnfold(s, c, o);
    RemoveAtNoDup(ChildrenOf(s, o), IndexOf(ChildrenOf(s, o), c));
  }

  /** ... and that list is reindexed. */
  lemma DetachIndexed(s: State, c: Id, o: Id)
    requires ParentOf(s, c) == Some(o) && ChildrenIn(s, o)
    requires c in ChildrenOf(s, o) && NoDup(ChildrenOf(s, o))
    ensures ListIndexed(DetachFromOld(s, c), o)
  {
    DetachUnfold(s, c, o);
    RemoveAtNoDup(ChildrenOf(s, o), IndexOf(ChildrenOf(s, o), c));
    var r := TryRemoveChild(s, o, c);
    assert ListIndexed(r.0, o);
    var t := Emit(r.0, ChildRemoved(o, c, r.1));
    EmitKeepsListIndexed(r.0, ChildRemoved(o, c, r.1), o);
  }

  lemma EmitKeepsListIndexed(s: State, e: Event, p: Id)
    requires ListIndexed(s, p)
    ensures ListIndexed(Emit(s, e), p)
  {
    var t := Emit(s, e);
    assert ChildrenOf(t, p) == ChildrenOf(s, p);
    forall j | 0 <= j < |ChildrenOf(t, p)|
      ensures IndexField(t, ChildrenOf(t, p)[j]) == Some(j)
    {
      assert IndexField(t, ChildrenOf(t, p)[j]) == IndexField(s, ChildrenOf(s, p)[j]);
    }
  }

  /** ... the indices of elements outside `o`'s new list stay, and
      child-removed is raised with the index `c` had. */
  lemma DetachRest(s: State, c: Id, o: Id)
    requires ParentOf(s, c) == Some(o) && c in ChildrenOf(s, o)
    ensures var t := DetachFromOld(s, c);
      && (forall n :: n !in ChildrenOf(t, o) ==> IndexField(t, n) == IndexField(s, n))
      && t.events == s.events + [ChildRemoved(o, c, IndexOf(ChildrenOf(s, o), c))]
  {
    DetachUnfold(s, c, o);
  }

  /** Attaching `c`, not yet in `p`'s list, is `PlaceChild`, then
      child-added with the placement index, then storing that index. */
  lemma AttachUnfold(s: State, p: Id, c: Id, newIndex: Option<int>)
    requires p in s.nodes && c in s.nodes && ChildrenIn(s, p)
    requires c !in ChildrenOf(s, p) && NoDup(ChildrenOf(s, p))
    ensures var r := PlaceChild(s, p, c, newIndex);
      var i := PlacementIndex(newIndex, |ChildrenOf(s, p)|);
      && r.1 == i
      && ChildrenOf(r.0, p) == Insert(ChildrenOf(s, p), i, c)
      && NoDup(ChildrenOf(r.0, p)) && ListIndexed(r.0, p)
      && AttachTo(s, p, c, newIndex) == WithIndex(Emit(r.0, ChildAdded(p, c, i)), c, Some(i))
  {
    var kids := ChildrenOf(s, p);
    var i := PlacementIndex(newIndex, |kids|);
    InsertNoDup(kids, i, c);
  }

  /** Attaching `c`, not yet in `p`'s list, at `newIndex`: it is inserted at
      the placement index, the list keeps no repeats, and no other list
      changes ... */
  lemma AttachLists(s: State, p: Id, c: Id, newIndex: Option<int>)
    requires p in s.nodes && c in s.nodes && ChildrenIn(s, p)
    requires c !in ChildrenOf(s, p) && NoDup(ChildrenOf(s, p))
    ensures var t := AttachTo(s, p, c, newIndex);
      && ChildrenOf(t, p) == Insert(ChildrenOf(s, p), PlacementIndex(newIndex, |ChildrenOf(s, p)|), c)
      && NoDup(ChildrenOf(t, p))
      && (forall n :: n != p ==> ChildrenOf(t, n) == ChildrenOf(s, n))
  {
    AttachUnfold(s, p, c, newIndex);
  }

  /** ... the list is reindexed, with `c` at the placement index ... */
  lemma AttachIndexed(s: State, p: Id, c: Id, newIndex: Option<int>)
    requires p in s.nodes && c in s.nodes && ChildrenIn(s, p)
    requires c !in ChildrenOf(s, p) && NoDup(ChildrenOf(s, p))
    ensures var t := AttachTo(s, p, c, newIndex);
      ListIndexed(t, p) && IndexField(t, c) == Some(PlacementIndex(newIndex, |ChildrenOf(s, p)|))
  {
    AttachUnfold(s, p, c, newIndex);
    var r := PlaceChild(s, p, c, newIndex);
    var i := r.1;
    var u := Emit(r.0, ChildAdded(p, c, i));
    EmitKeepsListIndexed(r.0, ChildAdded(p, c, i), p);
    assert Insert(ChildrenOf(s, p), i, c)[i] == c;
    assert IndexField(u, c) == Some(i);
    IndexRewriteKeepsListIndexed(u, p, c, Some(i));
  }

  /** ... the indices of elements outside `p`'s new list stay, and
      child-added is raised with the placement index. */
  lemma AttachRest(s: State, p: Id, c: Id, newIndex: Option<int>)
    requires p in s.nodes && c in s.nodes && ChildrenIn(s, p)
    requires c !in ChildrenOf(s, p) && NoDup(ChildrenOf(s, p))
    ensures var t := AttachTo(s, p, c, newIndex);
      && (forall n :: n !in ChildrenOf(t, p) ==> IndexField(t, n) == IndexField(s, n))
      && t.events == s.events + [ChildAdded(p, c, PlacementIndex(newIndex, |ChildrenOf(s, p)|))]
  {
    AttachUnfold(s, p, c, newIndex);
    var r := PlaceChild(s, p, c, newIndex);
    assert c in ChildrenOf(r.0, p) by {
      assert Insert(ChildrenOf(s, p), r.1, c)[r.1] == c;
    }
  }

  /** Storing in `c` the index it already has changes nothing that
      `ListIndexed` looks at. */
  lemma IndexRewriteKeepsListIndexed(s: State, p: Id, c: Id, index: Option<int>)
    requires ListIndexed(s, p) && IndexField(s, c) == index
    ensures ListIndexed(WithIndex(s, c, index), p)
  {
    var t := WithIndex(s, c, index);
    forall j | 0 <= j < |ChildrenOf(t, p)|
      ensures IndexField(t, ChildrenOf(t, p)[j]) == Some(j)
    {
      assert ChildrenOf(t, p) == ChildrenOf(s, p);
    }
  }

  /** Re-placing `c`, already in `p`'s list without repeats, is `PlaceChild`
      (no event), then storing the placement index among the others. */
  lemma ReplaceUnfold(s: State, p: Id, c: Id, newIndex: Option<int>)
    requires p in s.nodes && c in s.nodes && ChildrenIn(s, p)
    requires c in ChildrenOf(s, p) && NoDup(ChildrenOf(s, p))
    ensures var r := PlaceChild(s, p, c, newIndex);
      var others := RemoveAt(ChildrenOf(s, p), IndexOf(ChildrenOf(s, p), c));
      var i := PlacementIndex(newIndex, |others|);
      && r.1 == i
      && ChildrenOf(r.0, p) == Insert(others, i, c)
      && NoDup(ChildrenOf(r.0, p)) && ListIndexed(r.0, p)
      && AttachTo(s, p, c, newIndex) == WithIndex(r.0, c, Some(i))
  {
    var kids := ChildrenOf(s, p);
    var others := RemoveAt(kids, IndexOf(kids, c));
    RemoveAtNoDup(kids, IndexOf(kids, c));
    InsertNoDup(others, PlacementIndex(newIndex, |others|), c);
  }

  /** Re-placing `c`, already in `p`'s list without repeats, at `newIndex`:
      it moves to the placement index among the others, the list keeps no
      repeats and is reindexed, and no event is raised. */
  lemma ReplaceShape(s: State, p: Id, c: Id, newIndex: Option<int>)
    requires p in s.nodes && c in s.nodes && ChildrenIn(s, p)
    requires c in ChildrenOf(s, p) && NoDup(ChildrenOf(s, p))
    ensures var t := AttachTo(s, p, c, newIndex);
      var others := RemoveAt(ChildrenOf(s, p), IndexOf(ChildrenOf(s, p), c));
      var i := PlacementIndex(newIndex, |others|);
      && ChildrenOf(t, p) == Insert(others, i, c)
      && NoDup(ChildrenOf(t, p))
      && ListIndexed(t, p) && IndexField(t, c) == Some(i)
      && t.events == s.events
  {
    ReplaceUnfold(s, p, c, newIndex);
    var r := PlaceChild(s, p, c, newIndex);
    var others := RemoveAt(ChildrenOf(s, p), IndexOf(ChildrenOf(s, p), c));
    assert Insert(others, r.1, c)[r.1] == c;
    IndexRewriteKeepsListIndexed(r.0, p, c, Some(r.1));
  }

  // ---- One move ----

  /** Where a move puts `c` in the new parent's list: its current
      `_parentIndex`, clamped, or the end. */
  function MoveIndex(s: State, c: Id, p: Id): nat {
    PlacementIndex(IndexField(s, c), |ChildrenOf(s, p)|)
  }

  /** The child lists after moving `c` from `prior` to `parent`: `c` has
      left the old parent's list, has entered the new parent's list at
      `MoveIndex`, and every other list is as it was. */
  ghost predicate MovedLists(s: State, t: State, c: Id, prior: Option<Id>, parent: Option<Id>) {
    && (prior.Some? ==> ChildrenOf(t, prior.value) == Remove(ChildrenOf(s, prior.value), c).1)
    && (parent.Some? ==> ChildrenOf(t, parent.value) == Insert(ChildrenOf(s, parent.value), MoveIndex(s, c, parent.value), c))
    && (forall n: Id :: Some(n) != prior && Some(n) != parent ==> ChildrenOf(t, n) == ChildrenOf(s, n))
  }

  /** The scene facts a move relies on, all implied by `Wf`: `c`'s old
      parent lists it once, its new parent does not list it, and the two
      lists are within the scene and without repeats. */
  ghost predicate MovePre(s: State, c: Id, parent: Option<Id>) {
    && c in s.nodes
    && ParentOf(s, c) != parent
    && (ParentOf(s, c).Some? ==>
          var o := ParentOf(s, c).value;
          o in s.nodes && ChildrenIn(s, o) && c in ChildrenOf(s, o) && NoDup(ChildrenOf(s, o)))
    && (parent.Some? ==>
          var p := parent.value;
          p in s.nodes && ChildrenIn(s, p) && c !in ChildrenOf(s, p) && NoDup(ChildrenOf(s, p)))
  }

  /** The first half of a move, detach and re-point, touches only the old
      parent's list, and leaves `c`'s index unless it is detached. */
  lemma FirstHalf(s: State, c: Id, parent: Option<Id>)
    requires MovePre(s, c, parent)
    ensures var s1 := Repoint(DetachFromOld(s, c), c, parent);
      && (ParentOf(s, c).Some? ==>
            var o := ParentOf(s, c).value;
            && ChildrenOf(s1, o) == Remove(ChildrenOf(s, o), c).1
            && NoDup(ChildrenOf(s1, o)) && c !in ChildrenOf(s1, o))
      && (forall n: Id :: Some(n) != ParentOf(s, c) ==> ChildrenOf(s1, n) == ChildrenOf(s, n))
      && IndexField(s1, c) == (if parent.None? then None else IndexField(s, c))
  {
    if ParentOf(s, c).Some? {
      var o := ParentOf(s, c).value;
      DetachLists(s, c, o);
      DetachRest(s, c, o);
    }
  }

  /** A move leaves the child lists as `MovedLists` says. */
  lemma MoveLists(s: State, c: Id, parent: Option<Id>)
    requires MovePre(s, c, parent)
    ensures MovedLists(s, Move(s, c, parent), c, ParentOf(s, c), parent)
  {
    FirstHalf(s, c, parent);
    var s1 := Repoint(DetachFromOld(s, c), c, parent);
    if parent.Some? {
      var p := parent.value;
      assert ChildrenOf(s1, p) == ChildrenOf(s, p);
      AttachLists(s1, p, c, IndexField(s1, c));
    }
  }

  /** In a consistent scene two different parents list disjoint children. */
  lemma ListsDisjoint(s: State, a: Id, b: Id)
    requires Consistent(s) && a in s.nodes && b in s.nodes && a != b && ChildrenIn(s, a)
    ensures forall x :: x in ChildrenOf(s, a) ==> x !in ChildrenOf(s, b)
  {
  }

  /** The scene after detaching and re-pointing, before attaching. */
  function Detached(s: State, c: Id, parent: Option<Id>): State
    requires c in s.nodes
  {
    Repoint(DetachFromOld(s, c), c, parent)
  }

  /** The first half keeps the old parent's list reindexed, and leaves every
      index outside that list alone, except that detaching clears `c`'s. */
  lemma FirstHalfIndices(s: State, c: Id, parent: Option<Id>)
    requires MovePre(s, c, parent)
    ensures var s1 := Detached(s, c, parent);
      && (ParentOf(s, c).Some? ==> ListIndexed(s1, ParentOf(s, c).value))
      && (forall n :: n != c && (ParentOf(s, c).Some? ==> n !in ChildrenOf(s1, ParentOf(s, c).value)) ==>
            IndexField(s1, n) == IndexField(s, n))
  {
    FirstHalf(s, c, parent);
    var s1 := Detached(s, c, parent);
    if ParentOf(s, c).Some? {
      var o := ParentOf(s, c).value;
      var d := DetachFromOld(s, c);
      DetachIndexed(s, c, o);
      DetachRest(s, c, o);
      forall j | 0 <= j < |ChildrenOf(s1, o)|
        ensures IndexField(s1, ChildrenOf(s1, o)[j]) == Some(j)
      {
        assert ChildrenOf(s1, o)[j] == ChildrenOf(d, o)[j];
      }
    }
  }

  /** The second half of a move to `p`: `c` enters `p`'s list at `MoveIndex`,
      which is reindexed; indices outside that list stay; child-added is
      raised with that index. */
  lemma SecondHalf(s: State, c: Id, p: Id)
    requires MovePre(s, c, Some(p))
    ensures var s1 := Detached(s, c, Some(p));
      var s2 := AttachTo(s1, p, c, IndexField(s1, c));
      && ChildrenOf(s2, p) == Insert(ChildrenOf(s, p), MoveIndex(s, c, p), c)
      && ListIndexed(s2, p) && IndexField(s2, c) == Some(MoveIndex(s, c, p))
      && (forall n :: n !in ChildrenOf(s2, p) ==> IndexField(s2, n) == IndexField(s1, n))
      && (forall n :: n != p ==> ChildrenOf(s2, n) == ChildrenOf(s1, n))
      && s2.events == s1.events + [ChildAdded(p, c, MoveIndex(s, c, p))]
  {
    FirstHalf(s, c, Some(p));
    var s1 := Detached(s, c, Some(p));
    assert ChildrenOf(s1, p) == ChildrenOf(s, p);
    AttachLists(s1, p, c, IndexField(s1, c));
    AttachIndexed(s1, p, c, IndexField(s1, c));
    AttachRest(s1, p, c, IndexField(s1, c));
  }

  /** After a move both touched lists are reindexed, and `c` holds its new
      position, or no index once detached. */
  lemma MoveListsIndexed(s: State, c: Id, parent: Option<Id>)
    requires MovePre(s, c, parent)
    requires ParentOf(s, c).Some? && parent.Some? ==>
      forall x :: x in ChildrenOf(s, ParentOf(s, c).value) ==> x !in ChildrenOf(s, parent.value)
    ensures var t := Move(s, c, parent);
      && (ParentOf(s, c).Some? ==> ListIndexed(t, ParentOf(s, c).value))
      && (parent.Some? ==> ListIndexed(t, parent.value) && IndexField(t, c) == Some(MoveIndex(s, c, parent.value)))
      && (parent.None? ==> IndexField(t, c) == None)
  {
    FirstHalf(s, c, parent);
    FirstHalfIndices(s, c, parent);
    var s1 := Detached(s, c, parent);
    var s2 := if parent.None? then s1 else AttachTo(s1, parent.value, c, IndexField(s1, c));
    var t := Move(s, c, parent);
    assert t == Emit(s2, ParentChanged(c, ParentOf(s, c), parent));
    if parent.Some? {
      var p := parent.value;
      SecondHalf(s, c, p);
      EmitKeepsListIndexed(s2, ParentChanged(c, ParentOf(s, c), parent), p);
    }
    if ParentOf(s, c).Some? {
      var o := ParentOf(s, c).value;
      assert ListIndexed(s2, o) by {
        if parent.Some? {
          var p := parent.value;
          forall j | 0 <= j < |ChildrenOf(s2, o)|
            ensures IndexField(s2, ChildrenOf(s2, o)[j]) == Some(j)
          {
            var x := ChildrenOf(s2, o)[j];
            assert x == ChildrenOf(s1, o)[j];
            assert x in ChildrenOf(s, o);
            assert x != c;
            assert x !in ChildrenOf(s2, p);
          }
        }
      }
      EmitKeepsListIndexed(s2, ParentChanged(c, ParentOf(s, c), parent), o);
    }
  }

  /** A move changes no index outside the two touched lists besides `c`'s. */
  lemma MoveIndexFrame(s: State, c: Id, parent: Option<Id>)
    requires MovePre(s, c, parent)
    ensures var t := Move(s, c, parent);
      forall n :: Untouched(t, c, ParentOf(s, c), parent, n) ==> IndexField(t, n) == IndexField(s, n)
  {
    FirstHalf(s, c, parent);
    FirstHalfIndices(s, c, parent);
    var s1 := Detached(s, c, parent);
    var s2 := if parent.None? then s1 else AttachTo(s1, parent.value, c, IndexField(s1, c));
    var t := Move(s, c, parent);
    assert t == Emit(s2, ParentChanged(c, ParentOf(s, c), parent));
    if parent.Some? {
      SecondHalf(s, c, parent.value);
    }
    forall n | Untouched(t, c, ParentOf(s, c), parent, n)
      ensures IndexField(t, n) == IndexField(s, n)
    {
      assert IndexField(t, n) == IndexField(s2, n);
      if parent.Some? {
        assert n !in ChildrenOf(s2, parent.value);
      }
      assert IndexField(s2, n) == IndexField(s1, n);
      if ParentOf(s, c).Some? {
        assert n !in ChildrenOf(s1, ParentOf(s, c).value);
      }
    }
  }

  /** `n` is neither `c` nor in the list, in `t`, of either parent. */
  ghost predicate Untouched(t: State, c: Id, prior: Option<Id>, parent: Option<Id>, n: Id) {
    && n != c
    && (prior.Some? ==> n !in ChildrenOf(t, prior.value))
    && (parent.Some? ==> n !in ChildrenOf(t, parent.value))
  }

  /** What detaching from the old parent raises. */
  function RemovedPart(s: State, c: Id): seq<Event> {
    match ParentOf(s, c)
    case None => []
    case Some(o) => [ChildRemoved(o, c, IndexOf(ChildrenOf(s, o), c))]
  }

  /** What attaching to the new parent raises. */
  function AddedPart(s: State, c: Id, parent: Option<Id>): seq<Event> {
    match parent
    case None => []
    case Some(p) => [ChildAdded(p, c, MoveIndex(s, c, p))]
  }

  /** A move raises, in this order: child-removed on the old parent with the
      index `c` had there, child-added on the new parent with the index `c`
      gets there, and parent-changed on `c` itself. */
  lemma MoveEvents(s: State, c: Id, parent: Option<Id>)
    requires MovePre(s, c, parent)
    ensures Move(s, c, parent).events ==
      s.events + RemovedPart(s, c) + AddedPart(s, c, parent) + [ParentChanged(c, ParentOf(s, c), parent)]
  {
    var d := DetachFromOld(s, c);
    assert d.events == s.events + RemovedPart(s, c) by {
      if ParentOf(s, c).Some? {
        DetachRest(s, c, ParentOf(s, c).value);
      }
    }
    var s1 := Detached(s, c, parent);
    assert s1.events == d.events;
    var s2 := if parent.None? then s1 else AttachTo(s1, parent.value, c, IndexField(s1, c));
    assert s2.events == s1.events + AddedPart(s, c, parent) by {
      if parent.Some? {
        SecondHalf(s, c, parent.value);
      }
    }
    assert Move(s, c, parent) == Emit(s2, ParentChanged(c, ParentOf(s, c), parent));
  }

  // ---- Re-linking keeps the invariants ----

  /** What a move does to the tree fields, stated without reference to how
      it is computed: `c` alone is re-pointed, from `prior` to `parent`, and
      the lists change as `MovedLists` says. */
  ghost predicate Relinked(s: State, t: State, c: Id, parent: Option<Id>) {
    && c in s.nodes
    && t.nodes.Keys == s.nodes.Keys
    && ParentOf(t, c) == parent
    && (forall n :: n != c ==> ParentOf(t, n) == ParentOf(s, n))
    && MovedLists(s, t, c, ParentOf(s, c), parent)
  }

  lemma RelinkClosed(s: State, t: State, c: Id, parent: Option<Id>)
    requires Closed(s) && Relinked(s, t, c, parent)
    requires parent.Some? ==> parent.value in s.nodes
    ensures Closed(t)
  {
    forall n | n in t.nodes && ParentOf(t, n).Some?
      ensures ParentOf(t, n).value in t.nodes
    {
      if n != c {
        assert ParentOf(s, n) == ParentOf(t, n);
      }
    }
    forall n | n in t.nodes
      ensures ChildrenIn(t, n)
    {
      assert ChildrenIn(s, n);
      if Some(n) == ParentOf(s, c) {
        assert forall x :: x in ChildrenOf(t, n) ==> x in ChildrenOf(s, n);
      } else if Some(n) == parent {
        assert forall x :: x in ChildrenOf(t, n) ==> x in ChildrenOf(s, n) || x == c;
      } else {
        assert ChildrenOf(t, n) == ChildrenOf(s, n);
      }
    }
  }

  /** The child lists of the old and the new parent after a move keep no
      repeats and hold exactly the elements `Consistent` asks for. */
  lemma RelinkedLists(s: State, t: State, c: Id, parent: Option<Id>)
    requires Consistent(s) && Relinked(s, t, c, parent) && ParentOf(s, c) != parent
    requires parent.Some? ==> parent.value in s.nodes
    ensures ParentOf(s, c).Some? ==> var o := ParentOf(s, c).value;
      && NoDup(ChildrenOf(t, o))
      && forall x :: x in ChildrenOf(t, o) <==> x in ChildrenOf(s, o) && x != c
    ensures parent.Some? ==> var p := parent.value;
      && NoDup(ChildrenOf(t, p))
      && forall x :: x in ChildrenOf(t, p) <==> x in ChildrenOf(s, p) || x == c
  {
    if ParentOf(s, c).Some? {
      var o := ParentOf(s, c).value;
      if o in s.nodes {
        RemoveNoDup(ChildrenOf(s, o), c);
      } else {
        assert ChildrenOf(s, o) == [];
      }
    }
    if parent.Some? {
      var p := parent.value;
      assert c !in ChildrenOf(s, p);
      InsertNoDup(ChildrenOf(s, p), MoveIndex(s, c, p), c);
    }
  }

  lemma RelinkConsistent(s: State, t: State, c: Id, parent: Option<Id>)
    requires Consistent(s) && Relinked(s, t, c, parent) && ParentOf(s, c) != parent
    requires parent.Some? ==> parent.value in s.nodes
    ensures Consistent(t)
  {
    RelinkedLists(s, t, c, parent);
    forall n | n in t.nodes
      ensures NoDup(ChildrenOf(t, n))
    {
      if Some(n) != ParentOf(s, c) && Some(n) != parent {
        assert ChildrenOf(t, n) == ChildrenOf(s, n);
      }
    }
    forall q, x | q in t.nodes && x in t.nodes
      ensures x in ChildrenOf(t, q) <==> ParentOf(t, x) == Some(q)
    {
      if Some(q) != ParentOf(s, c) && Some(q) != parent {
        assert ChildrenOf(t, q) == ChildrenOf(s, q);
      }
    }
  }

  /** Every list but that of `c`'s parent is densely indexed: what storing
      an arbitrary index in `c` leaves of `Indexed`. */
  ghost predicate IndexedBut(s: State, c: Id) {
    forall q :: q in s.nodes && Some(q) != ParentOf(s, c) ==> ListIndexed(s, q)
  }

  lemma RelinkIndexed(s: State, t: State, c: Id, parent: Option<Id>)
    requires Consistent(s) && IndexedBut(s, c) && Relinked(s, t, c, parent) && ParentOf(s, c) != parent
    requires parent.Some? ==> parent.value in s.nodes
    requires ParentOf(s, c).Some? ==> ListIndexed(t, ParentOf(s, c).value)
    requires parent.Some? ==> ListIndexed(t, parent.value)
    requires forall n :: Untouched(t, c, ParentOf(s, c), parent, n) ==> IndexField(t, n) == IndexField(s, n)
    ensures Indexed(t)
  {
    RelinkedLists(s, t, c, parent);
    forall q | q in t.nodes
      ensures ListIndexed(t, q)
    {
      if Some(q) != ParentOf(s, c) && Some(q) != parent {
        UntouchedListIndexed(s, t, c, parent, q);
      }
    }
  }

  /** A list neither parent owns keeps its members and their indices. */
  lemma UntouchedListIndexed(s: State, t: State, c: Id, parent: Option<Id>, q: Id)
    requires Consistent(s) && IndexedBut(s, c) && Relinked(s, t, c, parent) && ParentOf(s, c) != parent
    requires ParentOf(s, c).Some? ==>
      forall x :: x in ChildrenOf(t, ParentOf(s, c).value) <==> x in ChildrenOf(s, ParentOf(s, c).value) && x != c
    requires parent.Some? ==> forall x :: x in ChildrenOf(t, parent.value) <==> x in ChildrenOf(s, parent.value) || x == c
    requires forall n :: Untouched(t, c, ParentOf(s, c), parent, n) ==> IndexField(t, n) == IndexField(s, n)
    requires q in t.nodes && Some(q) != ParentOf(s, c) && Some(q) != parent
    ensures ListIndexed(t, q)
  {
    assert ChildrenOf(t, q) == ChildrenOf(s, q);
    assert ListIndexed(s, q);
    forall j | 0 <= j < |ChildrenOf(t, q)|
      ensures IndexField(t, ChildrenOf(t, q)[j]) == Some(j)
    {
      var x := ChildrenOf(s, q)[j];
      assert IndexField(s, x) == Some(j);
      assert ParentOf(s, x) == Some(q) && x != c;
      assert ParentOf(s, c).Some? ==> x !in ChildrenOf(s, ParentOf(s, c).value);
      assert parent.Some? ==> x !in ChildrenOf(s, parent.value);
      assert Untouched(t, c, ParentOf(s, c), parent, x);
    }
  }

  /** In a well-formed scene, a `SetParent` that passes its checks and
      changes the parent meets everything a move relies on. */
  lemma WfMovePre(s: State, c: Id, parent: Option<Id>)
    requires Wf(s) && c in s.nodes && (parent.Some? ==> parent.value in s.nodes)
    requires ParentCheck(s, c, parent).None? && ParentOf(s, c) != parent
    ensures MovePre(s, c, parent)
    ensures parent != Some(c) && (parent.Some? ==> !IsAncestor(s, c, parent.value))
    ensures ParentOf(s, c).Some? && parent.Some? ==>
      forall x :: x in ChildrenOf(s, ParentOf(s, c).value) ==> x !in ChildrenOf(s, parent.value)
  {
    if parent.Some? {
      IsDescendantOfIsAncestor(s, parent.value, Some(c));
    }
    if ParentOf(s, c).Some? {
      var o := ParentOf(s, c).value;
      if parent.Some? {
        ListsDisjoint(s, o, parent.value);
      }
    }
  }

  /** A move, in a well-formed scene, is a re-link. */
  lemma MoveRelinks(s: State, c: Id, parent: Option<Id>)
    requires MovePre(s, c, parent)
    ensures Relinked(s, Move(s, c, parent), c, parent)
  {
    MoveLists(s, c, parent);
  }

  /** A move keeps a scene well formed ... */
  lemma MoveKeepsLinks(s: State, c: Id, parent: Option<Id>)
    requires Wf(s)
    requires c in s.nodes && (parent.Some? ==> parent.value in s.nodes)
    requires ParentCheck(s, c, parent).None? && ParentOf(s, c) != parent
    ensures Wf(Move(s, c, parent))
  {
    var t := Move(s, c, parent);
    WfMovePre(s, c, parent);
    MoveRelinks(s, c, parent);
    RelinkClosed(s, t, c, parent);
    RelinkConsistent(s, t, c, parent);
    ReparentKeepsAcyclic(s, t, c, parent);
  }

  /** ... and leaves it densely indexed even when `c`'s own index was off
      beforehand: the move rewrites it. */
  lemma MoveKeepsWf(s: State, c: Id, parent: Option<Id>)
    requires Wf(s) && IndexedBut(s, c)
    requires c in s.nodes && (parent.Some? ==> parent.value in s.nodes)
    requires ParentCheck(s, c, parent).None? && ParentOf(s, c) != parent
    ensures Wf(Move(s, c, parent)) && Indexed(Move(s, c, parent))
  {
    var t := Move(s, c, parent);
    MoveKeepsLinks(s, c, parent);
    WfMovePre(s, c, parent);
    MoveRelinks(s, c, parent);
    MoveListsIndexed(s, c, parent);
    MoveIndexFrame(s, c, parent);
    RelinkIndexed(s, t, c, parent);
  }

  /** `SetParent` keeps a scene well formed and densely indexed, whether it
      throws, does nothing or moves the element. */
  lemma SetParentKeepsWf(s: State, c: Id, parent: Option<Id>)
    requires Wf(s) && Indexed(s)
    requires c in s.nodes && (parent.Some? ==> parent.value in s.nodes)
    ensures var r := SetParent(s, c, parent); Wf(r.state) && Indexed(r.state)
  {
    if ParentCheck(s, c, parent).None? && ParentOf(s, c) != parent {
      MoveKeepsWf(s, c, parent);
    }
  }

  /** `SetParent(p)` on an element attached elsewhere does not append it:
      the element enters `p`'s list at the index it had in its old parent's
      list, clamped to the length of `p`'s list, since `_parentIndex` is
      only reset when detaching. */
  lemma DirectMoveKeepsOldIndex(s: State, c: Id, p: Id)
    requires Wf(s) && Indexed(s) && c in s.nodes && p in s.nodes
    requires ParentOf(s, c).Some? && ParentOf(s, c) != Some(p) && ParentCheck(s, c, Some(p)).None?
    ensures var before := IndexOf(ChildrenOf(s, ParentOf(s, c).value), c);
      var t := SetParent(s, c, Some(p)).state;
      var i := ClampIndex(before, |ChildrenOf(s, p)|);
      && 0 <= before
      && ChildrenOf(t, p) == Insert(ChildrenOf(s, p), i, c)
      && IndexField(t, c) == Some(i)
  {
    var o := ParentOf(s, c).value;
    WfMovePre(s, c, Some(p));
    MoveLists(s, c, Some(p));
    MoveListsIndexed(s, c, Some(p));
    var j := IndexOf(ChildrenOf(s, o), c);
    assert ListIndexed(s, o);
    assert IndexField(s, ChildrenOf(s, o)[j]) == Some(j);
  }

  // ---- Add ----

  /** Storing any index in `c` keeps the links, so the scene stays well
      formed, and only the list of `c`'s parent can lose its indexing. */
  lemma StoreIndexKeeps(s: State, c: Id, index: Option<int>)
    requires Wf(s) && Indexed(s)
    ensures Wf(WithIndex(s, c, index)) && IndexedBut(WithIndex(s, c, index), c)
  {
    var t := WithIndex(s, c, index);
    SameLinksKeepWf(s, t);
    forall q | q in t.nodes && Some(q) != ParentOf(t, c)
      ensures ListIndexed(t, q)
    {
      assert ListIndexed(s, q);
      forall j | 0 <= j < |ChildrenOf(t, q)|
        ensures IndexField(t, ChildrenOf(t, q)[j]) == Some(j)
      {
        assert IndexField(s, ChildrenOf(s, q)[j]) == Some(j);
      }
    }
  }

  /** `Add` always keeps the scene well formed ... */
  lemma AddKeepsLinks(s: State, p: Id, c: Id, index: Option<int>)
    requires Wf(s) && p in s.nodes && c in s.nodes
    ensures Wf(Add(s, p, c, index).state)
  {
    var s1 := WithIndex(s, c, index);
    SameLinksKeepWf(s, s1);
    var r := Add(s, p, c, index);
    if r.error.None? && ParentOf(s, c) != Some(p) {
      assert r.state == Move(s1, c, Some(p));
      MoveKeepsLinks(s1, c, Some(p));
    }
  }

  /** ... and never changes the chain above `p`: on success the re-pointed
      element is not on it. */
  lemma AddKeepsChain(s: State, p: Id, c: Id, index: Option<int>)
    requires Wf(s) && p in s.nodes && c in s.nodes
    ensures forall j: nat :: Up(Add(s, p, c, index).state, p, j) == Up(s, p, j)
  {
    var t := Add(s, p, c, index).state;
    if ParentCheck(s, c, Some(p)).None? {
      IsDescendantOfIsAncestor(s, p, Some(c));
      assert ParentsAgreeExcept(s, t, c);
      forall i: nat
        ensures Up(s, p, i) != Some(c)
      {
        if i > 0 {
          assert !IsAncestor(s, c, p);
        }
      }
      forall j: nat
        ensures Up(t, p, j) == Up(s, p, j)
      {
        AncestorsKept(s, t, c, p, j);
      }
    } else {
      forall j: nat
        ensures Up(t, p, j) == Up(s, p, j)
      {
        UpSameParents(s, t, p, j);
      }
    }
  }

  /** `Add` keeps the scene densely indexed when it moves the element, when the element had no parent, or when the
      stored index is the one the element already had. */
  lemma AddKeepsWf(s: State, p: Id, c: Id, index: Option<int>)
    requires Wf(s) && Indexed(s) && p in s.nodes && c in s.nodes
    ensures var r := Add(s, p, c, index);
      (r.error.None? && ParentOf(s, c) != Some(p)) || ParentOf(s, c).None? || index == IndexField(s, c) ==>
        Indexed(r.state)
  {
    var s1 := WithIndex(s, c, index);
    var r := Add(s, p, c, index);
    if r.error.None? && ParentOf(s, c) != Some(p) {
      AddIsMove(s, p, c, index);
      StoreIndexKeeps(s, c, index);
      MoveKeepsWf(s1, c, Some(p));
    } else if ParentOf(s, c).None? {
      StoreIndexKeeps(s, c, index);
    } else if index == IndexField(s, c) {
      assert forall n :: IndexField(s1, n) == IndexField(s, n);
      forall q | q in s1.nodes
        ensures ListIndexed(s1, q)
      {
        assert ListIndexed(s, q);
      }
    }
  }

  /** The other side of `AddKeepsWf`: when `Add` throws or finds the parent
      already set, the stored index stays, the list does not move, and an
      attached element whose index changed breaks the indexing. */
  lemma AddStaleIndex(s: State, p: Id, c: Id, index: Option<int>)
    requires Wf(s) && Indexed(s) && p in s.nodes && c in s.nodes
    requires ParentCheck(s, c, Some(p)).Some? || ParentOf(s, c) == Some(p)
    ensures var r := Add(s, p, c, index);
      && ChildrenOf(r.state, p) == ChildrenOf(s, p)
      && IndexField(r.state, c) == index
      && (ParentOf(s, c).Some? && index != IndexField(s, c) ==> !Indexed(r.state))
  {
    var t := WithIndex(s, c, index);
    if ParentOf(s, c).Some? && index != IndexField(s, c) {
      var o := ParentOf(s, c).value;
      assert c in ChildrenOf(s, o);
      var j := IndexOf(ChildrenOf(s, o), c);
      assert ListIndexed(s, o);
      assert IndexField(t, ChildrenOf(t, o)[j]) != Some(j);
    }
  }

  /** When `Add` moves the element, it lands in `p`'s list at the stored
      index, clamped (or at the end for `null`), and keeps that position as
      its index. */
  lemma AddPlacesAt(s: State, p: Id, c: Id, index: Option<int>)
    requires Wf(s) && p in s.nodes && c in s.nodes
    requires ParentCheck(s, c, Some(p)).None? && ParentOf(s, c) != Some(p)
    ensures var r := Add(s, p, c, index);
      var i := PlacementIndex(index, |ChildrenOf(s, p)|);
      && r.error.None?
      && ChildrenOf(r.state, p) == Insert(ChildrenOf(s, p), i, c)
      && IndexField(r.state, c) == Some(i)
  {
    var s1 := WithIndex(s, c, index);
    AddIsMove(s, p, c, index);
    var t := Move(s1, c, Some(p));
    MoveLists(s1, c, Some(p));
    assert ChildrenOf(t, p) == Insert(ChildrenOf(s1, p), MoveIndex(s1, c, p), c);
    WfMovePre(s1, c, Some(p));
    MoveListsIndexed(s1, c, Some(p));
  }

  /** ... and raises child-removed on the old parent if there was one, then
      child-added with that position, then parent-changed. */
  lemma AddEvents(s: State, p: Id, c: Id, index: Option<int>)
    requires Wf(s) && p in s.nodes && c in s.nodes
    requires ParentCheck(s, c, Some(p)).None? && ParentOf(s, c) != Some(p)
    ensures Add(s, p, c, index).state.events ==
      s.events + RemovedPart(s, c) + [ChildAdded(p, c, PlacementIndex(index, |ChildrenOf(s, p)|)), ParentChanged(c, ParentOf(s, c), Some(p))]
  {
    var s1 := WithIndex(s, c, index);
    var added := ChildAdded(p, c, PlacementIndex(index, |ChildrenOf(s, p)|));
    var changed := ParentChanged(c, ParentOf(s, c), Some(p));
    assert && MovePre(s1, c, Some(p)) && Add(s, p, c, index).state == Move(s1, c, Some(p))
           && RemovedPart(s1, c) == RemovedPart(s, c) && AddedPart(s1, c, Some(p)) == [added] by {
      AddIsMove(s, p, c, index);
    }
    MoveEvents(s1, c, Some(p));
    AppendTwo(s.events + RemovedPart(s, c), added, changed);
  }

  /** When the checks pass and the parent changes, `Add` is a move from the
      scene with the index stored. */
  lemma AddIsMove(s: State, p: Id, c: Id, index: Option<int>)
    requires Wf(s) && p in s.nodes && c in s.nodes
    requires ParentCheck(s, c, Some(p)).None? && ParentOf(s, c) != Some(p)
    ensures var s1 := WithIndex(s, c, index);
      && Wf(s1) && ParentCheck(s1, c, Some(p)).None? && ParentOf(s1, c) != Some(p)
      && MovePre(s1, c, Some(p))
      && Add(s, p, c, index) == Outcome(Move(s1, c, Some(p)), None)
      && MoveIndex(s1, c, p) == PlacementIndex(index, |ChildrenOf(s, p)|)
  {
    var s1 := WithIndex(s, c, index);
    SameLinksKeepWf(s, s1);
    IsDescendantOfSameParents(s, s1, p, Some(c));
    WfMovePre(s1, c, Some(p));
  }

  // ---- Clear ----

  /** The events `Clear` raises for the snapshot `kids`: for each child in
      turn, child-removed at index 0 (the rest have moved up), then
      parent-changed from `p` to none. */
  function ClearEvents(p: Id, kids: seq<Id>): seq<Event>
    decreases |kids|
  {
    if |kids| == 0 then []
    else [ChildRemoved(p, kids[0], 0), ParentChanged(kids[0], Some(p), None)] + ClearEvents(p, kids[1..])
  }

  /** In a well-formed scene, detaching the first child of `p` is a move. */
  lemma FirstChildMoves(s: State, p: Id)
    requires Wf(s) && p in s.nodes && |ChildrenOf(s, p)| > 0
    ensures var k := ChildrenOf(s, p)[0];
      && k in s.nodes && ParentOf(s, k) == Some(p)
      && ParentCheck(s, k, None).None? && MovePre(s, k, None)
      && SetParent(s, k, None).state == Move(s, k, None)
  {
    var k := ChildrenOf(s, p)[0];
    assert ChildrenIn(s, p);
    assert ParentOf(s, k) == Some(p);
    WfMovePre(s, k, None);
  }

  /** Detaching the first child moves the others up ... */
  lemma DetachFirstLists(s: State, p: Id)
    requires |ChildrenOf(s, p)| > 0
    requires var k := ChildrenOf(s, p)[0]; MovePre(s, k, None) && ParentOf(s, k) == Some(p)
    ensures ChildrenOf(Move(s, ChildrenOf(s, p)[0], None), p) == ChildrenOf(s, p)[1..]
  {
    var kids := ChildrenOf(s, p);
    assert IndexOf(kids, kids[0]) == 0;
    MoveLists(s, kids[0], None);
    assert RemoveAt(kids, 0) == kids[1..];
  }

  /** ... and raises child-removed at index 0, then parent-changed. */
  lemma DetachFirstEvents(s: State, p: Id)
    requires |ChildrenOf(s, p)| > 0
    requires var k := ChildrenOf(s, p)[0]; MovePre(s, k, None) && ParentOf(s, k) == Some(p)
    ensures var k := ChildrenOf(s, p)[0];
      Move(s, k, None).events == s.events + [ChildRemoved(p, k, 0), ParentChanged(k, Some(p), None)]
  {
    var kids := ChildrenOf(s, p);
    var k := kids[0];
    assert IndexOf(kids, k) == 0;
    MoveEvents(s, k, None);
    assert RemovedPart(s, k) == [ChildRemoved(p, k, 0)];
    assert AddedPart(s, k, None) == [];
    AppendTwo(s.events, ChildRemoved(p, k, 0), ParentChanged(k, Some(p), None));
    assert s.events + [ChildRemoved(p, k, 0)] + [] == s.events + [ChildRemoved(p, k, 0)];
  }

  /** ... leaves the detached child without an index, and every element
      that had no parent with the index it had. */
  lemma DetachFirstIndices(s: State, p: Id)
    requires Consistent(s) && |ChildrenOf(s, p)| > 0
    requires var k := ChildrenOf(s, p)[0]; MovePre(s, k, None) && ParentOf(s, k) == Some(p)
    ensures var k := ChildrenOf(s, p)[0];
      var t := Move(s, k, None);
      && IndexField(t, k) == None
      && (forall n :: n in s.nodes && ParentOf(s, n).None? ==> IndexField(t, n) == IndexField(s, n))
  {
    var kids := ChildrenOf(s, p);
    var k := kids[0];
    var t := Move(s, k, None);
    DetachFirstLists(s, p);
    MoveListsIndexed(s, k, None);
    MoveIndexFrame(s, k, None);
    forall n | n in s.nodes && ParentOf(s, n).None?
      ensures IndexField(t, n) == IndexField(s, n)
    {
      assert n !in kids;
      assert Untouched(t, k, Some(p), None, n);
    }
  }

  /** ... and does not touch the chain above `p`. */
  lemma DetachFirstUp(s: State, p: Id)
    requires Acyclic(s) && |ChildrenOf(s, p)| > 0
    requires var k := ChildrenOf(s, p)[0]; MovePre(s, k, None) && ParentOf(s, k) == Some(p)
    ensures var t := Move(s, ChildrenOf(s, p)[0], None);
      forall j: nat :: Up(t, p, j) == Up(s, p, j)
  {
    var k := ChildrenOf(s, p)[0];
    var t := Move(s, k, None);
    NotAboveParent(s, k, p);
    forall j: nat
      ensures Up(t, p, j) == Up(s, p, j)
    {
      AncestorsKept(s, t, k, p, j);
    }
  }

  /** One turn of the `Clear` loop in a well-formed scene: the first child
      leaves, the others move up, and nothing outside `p`'s list changes its
      index; the chain above `p` stays. */
  lemma DetachFirst(s: State, p: Id)
    requires Wf(s) && Indexed(s) && p in s.nodes && |ChildrenOf(s, p)| > 0
    ensures var k := ChildrenOf(s, p)[0];
      var t := SetParent(s, k, None).state;
      && Wf(t) && Indexed(t)
      && ChildrenOf(t, p) == ChildrenOf(s, p)[1..]
      && t.events == s.events + [ChildRemoved(p, k, 0), ParentChanged(k, Some(p), None)]
      && ParentOf(t, k) == None && IndexField(t, k) == None
      && (forall n :: n in s.nodes && ParentOf(s, n).None? ==> IndexField(t, n) == IndexField(s, n))
      && (forall j: nat :: Up(t, p, j) == Up(s, p, j))
  {
    var k := ChildrenOf(s, p)[0];
    FirstChildMoves(s, p);
    MoveKeepsWf(s, k, None);
    DetachFirstLists(s, p);
    DetachFirstEvents(s, p);
    DetachFirstIndices(s, p);
    DetachFirstUp(s, p);
  }

  /** The `Clear` loop over the snapshot `kids`, which is `p`'s list, keeps
      the scene well formed and indexed, empties the list and keeps the
      chain above `p`. */
  lemma {:induction false} DetachAllKeeps(s: State, p: Id, kids: seq<Id>)
    requires Wf(s) && Indexed(s) && p in s.nodes && ChildrenOf(s, p) == kids
    ensures forall k :: k in kids ==> k in s.nodes
    ensures var t := DetachAll(s, kids);
      && Wf(t) && Indexed(t)
      && ChildrenOf(t, p) == []
      && (forall j: nat :: Up(t, p, j) == Up(s, p, j))
    decreases |kids|
  {
    assert ChildrenIn(s, p);
    if |kids| > 0 {
      var s1 := SetParent(s, kids[0], None).state;
      DetachFirst(s, p);
      DetachAllKeeps(s1, p, kids[1..]);
      assert DetachAll(s, kids) == DetachAll(s1, kids[1..]);
    }
  }

  /** ... raises `ClearEvents` of the snapshot ... */
  lemma {:induction false} DetachAllEvents(s: State, p: Id, kids: seq<Id>)
    requires Wf(s) && Indexed(s) && p in s.nodes && ChildrenOf(s, p) == kids
    ensures forall k :: k in kids ==> k in s.nodes
    ensures DetachAll(s, kids).events == s.events + ClearEvents(p, kids)
    decreases |kids|
  {
    assert ChildrenIn(s, p);
    if |kids| > 0 {
      var k := kids[0];
      var s1 := SetParent(s, k, None).state;
      DetachFirst(s, p);
      DetachAllEvents(s1, p, kids[1..]);
      assert DetachAll(s, kids) == DetachAll(s1, kids[1..]);
      var step := [ChildRemoved(p, k, 0), ParentChanged(k, Some(p), None)];
      assert step + ClearEvents(p, kids[1..]) == ClearEvents(p, kids);
      AppendAssoc(s.events, step, ClearEvents(p, kids[1..]));
    }
  }

  /** ... clears the index of each child, and leaves the index of every
      element that had no parent. */
  lemma {:induction false} DetachAllIndices(s: State, p: Id, kids: seq<Id>)
    requires Wf(s) && Indexed(s) && p in s.nodes && ChildrenOf(s, p) == kids
    ensures forall k :: k in kids ==> k in s.nodes
    ensures var t := DetachAll(s, kids);
      && (forall k :: k in kids ==> IndexField(t, k) == None)
      && (forall n :: n in s.nodes && ParentOf(s, n).None? ==> IndexField(t, n) == IndexField(s, n))
    decreases |kids|
  {
    assert ChildrenIn(s, p);
    if |kids| > 0 {
      var k := kids[0];
      var s1 := SetParent(s, k, None).state;
      DetachFirst(s, p);
      DetachAllIndices(s1, p, kids[1..]);
      var t := DetachAll(s1, kids[1..]);
      assert DetachAll(s, kids) == t;
      assert k in s1.nodes && ParentOf(s1, k).None? && IndexField(s1, k) == None;
      forall k' | k' in kids
        ensures IndexField(t, k') == None
      {
        if k' != k {
          assert k' in kids[1..];
        }
      }
      forall n | n in s.nodes && ParentOf(s, n).None?
        ensures IndexField(t, n) == IndexField(s, n)
      {
        assert n != k && ParentOf(s1, n).None?;
      }
    }
  }

  /** `p.Clear()` in a well-formed scene: `p` ends with no children, each of
      them detached with no index; the events come child by child; the scene
      stays well formed and indexed; the chain above `p` stays. */
  lemma ClearShape(s: State, p: Id)
    requires Wf(s) && Indexed(s) && p in s.nodes
    ensures var t := Clear(s, p);
      && Wf(t) && Indexed(t)
      && ChildrenOf(t, p) == []
      && (forall k :: k in ChildrenOf(s, p) ==> ParentOf(t, k) == None && IndexField(t, k) == None)
      && t.events == s.events + ClearEvents(p, ChildrenOf(s, p))
      && (forall j: nat :: Up(t, p, j) == Up(s, p, j))
  {
    DetachAllKeeps(s, p, ChildrenOf(s, p));
    DetachAllEvents(s, p, ChildrenOf(s, p));
    DetachAllIndices(s, p, ChildrenOf(s, p));
  }

  /** `p.Children = p.Children`: the setter is handed the live view of `p`'s
      own list, which `Clear` empties before the loop reads it. So every
      child is removed and none is put back. */
  function ReassignOwnChildren(s: State, p: Id): (r: Outcome)
    requires Wf(s) && Indexed(s) && p in s.nodes
    ensures r.error.None? && ChildrenOf(r.state, p) == []
    ensures forall k :: k in ChildrenOf(s, p) ==> ParentOf(r.state, k) == None
  {
    var cleared := Clear(s, p);
    ClearShape(s, p);
    AttachEach(cleared, p, ChildrenOf(cleared, p), 0)
  }

  // ---- SetChildren ----

  /** `x` may be attached under `p`: the two checks of `SetParent` pass. */
  predicate Fits(s: State, p: Id, x: Id) {
    x != p && !IsDescendantOf(s, p, Some(x))
  }

  /** In a well-formed scene that means `x` is neither `p` nor one of its
      ancestors. */
  lemma FitsIsNotAncestor(s: State, p: Id, x: Id)
    requires Wf(s) && p in s.nodes
    ensures Fits(s, p, x) <==> x != p && !IsAncestor(s, x, p)
  {
    IsDescendantOfIsAncestor(s, p, Some(x));
  }

  /** `Add` throws exactly when the element does not fit. */
  lemma AddFails(s: State, p: Id, c: Id, index: Option<int>)
    requires p in s.nodes && c in s.nodes
    ensures Add(s, p, c, index).error.None? <==> Fits(s, p, c)
  {
    var e := ParentCheck(s, c, Some(p));
    assert Add(s, p, c, index).error == e;
  }

  /** Two scenes of the same size with the same chain above `p` agree on
      what fits under it. */
  lemma FitsSameChain(s: State, t: State, p: Id, x: Id)
    requires |t.nodes| == |s.nodes|
    requires forall j: nat :: Up(t, p, j) == Up(s, p, j)
    ensures Fits(t, p, x) == Fits(s, p, x)
  {
    IsDescendantOfWalk(s, p, Some(x));
    IsDescendantOfWalk(t, p, Some(x));
    assert IsDescendantOf(s, p, Some(x)) ==> IsDescendantOf(t, p, Some(x)) by {
      if IsDescendantOf(s, p, Some(x)) {
        var j: nat :| 1 <= j <= 1 + |s.nodes| && Up(s, p, j) == Some(x);
        assert Up(t, p, j) == Some(x);
      }
    }
    assert IsDescendantOf(t, p, Some(x)) ==> IsDescendantOf(s, p, Some(x)) by {
      if IsDescendantOf(t, p, Some(x)) {
        var j: nat :| 1 <= j <= 1 + |t.nodes| && Up(t, p, j) == Some(x);
        assert Up(s, p, j) == Some(x);
      }
    }
  }

  /** One turn of the `SetChildren` loop, with the first `k` elements of
      `list` already attached: when it does not throw, the element joins the
      end of `p`'s list and the scene stays well formed and indexed. */
  lemma AttachStepPlaces(s: State, p: Id, list: seq<Id>, k: nat)
    requires Wf(s) && Indexed(s) && p in s.nodes && (forall x :: x in list ==> x in s.nodes)
    requires NoDup(list) && k < |list| && ChildrenOf(s, p) == list[..k]
    ensures ParentOf(s, list[k]) != Some(p)
    ensures var o := Add(s, p, list[k], Some(k));
      && Wf(o.state)
      && (o.error.None? ==> Indexed(o.state) && ChildrenOf(o.state, p) == list[..k + 1])
  {
    assert list[k] !in list[..k];
    var x := list[k];
    AddKeepsLinks(s, p, x, Some(k));
    AddKeepsWf(s, p, x, Some(k));
    if ParentCheck(s, x, Some(p)).None? {
      assert x !in list[..k];
      assert ParentOf(s, x) != Some(p);
      AddPlacesAt(s, p, x, Some(k));
      InsertAtEnd(list[..k], x);
      TakeSnoc(list, k);
    }
  }

  /** The `SetChildren` loop from position `k` on keeps the scene well
      formed, and when it runs to the end `p`'s list is `list` ... */
  lemma {:induction false} AttachEachKeeps(s: State, p: Id, list: seq<Id>, k: nat)
    requires Wf(s) && Indexed(s) && p in s.nodes && (forall x :: x in list ==> x in s.nodes)
    requires NoDup(list) && k <= |list| && ChildrenOf(s, p) == list[..k]
    ensures var r := AttachEach(s, p, list, k);
      && Wf(r.state)
      && (r.error.None? ==> Indexed(r.state) && ChildrenOf(r.state, p) == list)
    decreases |list| - k
  {
    if k == |list| {
      assert list[..k] == list;
    } else {
      var o := Add(s, p, list[k], Some(k));
      AttachStepPlaces(s, p, list, k);
      if o.error.None? {
        AttachEachKeeps(o.state, p, list, k + 1);
      }
    }
  }

  /** ... and it runs to the end exactly when every remaining element fits
      under `p`. */
  lemma {:induction false} AttachEachChecks(s: State, p: Id, list: seq<Id>, k: nat)
    requires Wf(s) && p in s.nodes && (forall x :: x in list ==> x in s.nodes) && k <= |list|
    ensures AttachEach(s, p, list, k).error.None? <==> AllFit(s, p, list, k)
    decreases |list| - k
  {
    if k < |list| {
      var o := Add(s, p, list[k], Some(k));
      AddKeepsLinks(s, p, list[k], Some(k));
      AddKeepsChain(s, p, list[k], Some(k));
      AddFails(s, p, list[k], Some(k));
      if o.error.None? {
        assert AttachEach(s, p, list, k) == AttachEach(o.state, p, list, k + 1);
        AttachEachChecks(o.state, p, list, k + 1);
        AllFitSameChain(s, o.state, p, list, k + 1);
      } else {
        assert AttachEach(s, p, list, k) == o;
      }
    }
  }

  /** Every element of `list` from position `k` on fits under `p`. */
  predicate AllFit(s: State, p: Id, list: seq<Id>, k: nat)
    decreases |list| - k
  {
    k >= |list| || (Fits(s, p, list[k]) && AllFit(s, p, list, k + 1))
  }

  lemma {:induction false} AllFitEach(s: State, p: Id, list: seq<Id>, k: nat)
    ensures AllFit(s, p, list, k) <==> forall j :: k <= j < |list| ==> Fits(s, p, list[j])
    decreases |list| - k
  {
    if k < |list| {
      AllFitEach(s, p, list, k + 1);
    }
  }

  lemma {:induction false} AllFitSameChain(s: State, t: State, p: Id, list: seq<Id>, k: nat)
    requires |t.nodes| == |s.nodes|
    requires forall j: nat :: Up(t, p, j) == Up(s, p, j)
    ensures AllFit(t, p, list, k) == AllFit(s, p, list, k)
    decreases |list| - k
  {
    if k < |list| {
      FitsSameChain(s, t, p, list[k]);
      AllFitSameChain(s, t, p, list, k + 1);
    }
  }

  /** `p.SetChildren(list)` for a list without repeats, in a well-formed
      scene, completes exactly when every element is neither `p` nor one of
      its ancestors (`Clear` does not change those). */
  lemma SetChildrenChecks(s: State, p: Id, list: seq<Id>)
    requires Wf(s) && Indexed(s) && p in s.nodes && (forall x :: x in list ==> x in s.nodes)
    requires NoDup(list)
    ensures SetChildren(s, p, list).error.None? <==> forall x :: x in list ==> x != p && !IsAncestor(s, x, p)
  {
    var c := Clear(s, p);
    ClearShape(s, p);
    assert ChildrenOf(c, p) == list[..0];
    AttachEachChecks(c, p, list, 0);
    AllFitSameChain(s, c, p, list, 0);
    AllFitMembers(s, p, list);
  }

  /** In a well-formed scene, the whole list fits under `p` exactly when
      no element is `p` or one of its ancestors. */
  lemma AllFitMembers(s: State, p: Id, list: seq<Id>)
    requires Wf(s) && p in s.nodes
    ensures AllFit(s, p, list, 0) <==> forall x :: x in list ==> x != p && !IsAncestor(s, x, p)
  {
    AllFitEach(s, p, list, 0);
    forall x | x in list
      ensures Fits(s, p, x) <==> x != p && !IsAncestor(s, x, p)
    {
      FitsIsNotAncestor(s, p, x);
    }
    if !AllFit(s, p, list, 0) {
      var j :| 0 <= j < |list| && !Fits(s, p, list[j]);
      assert list[j] in list;
    }
  }

  /** Whether or not it completes, `SetChildren` leaves the scene well
      formed (`SetChildrenPartial` says what a failed call leaves). When it
      completes, `p`'s children are `list`, in order, each with `p` as
      parent and its position as index. */
  lemma SetChildrenShape(s: State, p: Id, list: seq<Id>)
    requires Wf(s) && Indexed(s) && p in s.nodes && (forall x :: x in list ==> x in s.nodes)
    requires NoDup(list)
    ensures var r := SetChildren(s, p, list);
      && Wf(r.state)
      && (r.error.None? ==> ChildrenOf(r.state, p) == list && Indexed(r.state))
      && (r.error.None? ==> forall j :: 0 <= j < |list| ==>
            ParentOf(r.state, list[j]) == Some(p) && IndexField(r.state, list[j]) == Some(j))
  {
    var c := Clear(s, p);
    ClearShape(s, p);
    assert ChildrenOf(c, p) == list[..0];
    AttachEachKeeps(c, p, list, 0);
    var r := SetChildren(s, p, list);
    if r.error.None? {
      forall j | 0 <= j < |list|
        ensures ParentOf(r.state, list[j]) == Some(p) && IndexField(r.state, list[j]) == Some(j)
      {
        assert ListIndexed(r.state, p);
        assert list[j] in ChildrenOf(r.state, p);
      }
    }
  }

  // ---- SetChildren is not atomic ----

  /** The first position from `k` on whose element does not fit under `p`,
      or the length of the list when every one does: where the `SetChildren`
      loop throws. */
  function FirstMisfit(s: State, p: Id, list: seq<Id>, k: nat): (j: nat)
    requires k <= |list|
    ensures k <= j <= |list|
    ensures j < |list| ==> !Fits(s, p, list[j])
    ensures forall i :: k <= i < j ==> Fits(s, p, list[i])
    decreases |list| - k
  {
    if k == |list| || !Fits(s, p, list[k]) then k else FirstMisfit(s, p, list, k + 1)
  }

  lemma {:induction false} FirstMisfitSameChain(s: State, t: State, p: Id, list: seq<Id>, k: nat)
    requires k <= |list| && |t.nodes| == |s.nodes|
    requires forall j: nat :: Up(t, p, j) == Up(s, p, j)
    ensures FirstMisfit(t, p, list, k) == FirstMisfit(s, p, list, k)
    decreases |list| - k
  {
    if k < |list| {
      FitsSameChain(s, t, p, list[k]);
      FirstMisfitSameChain(s, t, p, list, k + 1);
    }
  }

  /** The child-added events raised by `p`, in order. */
  function AddedOn(p: Id, evs: seq<Event>): seq<Event>
    decreases |evs|
  {
    if |evs| == 0 then []
    else (if evs[0].ChildAdded? && evs[0].parent == p then [evs[0]] else []) + AddedOn(p, evs[1..])
  }

  lemma {:induction false} AddedOnConcat(p: Id, a: seq<Event>, b: seq<Event>)
    ensures AddedOn(p, a + b) == AddedOn(p, a) + AddedOn(p, b)
    decreases |a|
  {
    if |a| > 0 {
      assert (a + b)[1..] == a[1..] + b;
      AddedOnConcat(p, a[1..], b);
    } else {
      assert a + b == b;
    }
  }

  /** `Clear` raises no child-added. */
  lemma {:induction false} AddedOnClear(p: Id, q: Id, kids: seq<Id>)
    ensures AddedOn(p, ClearEvents(q, kids)) == []
    decreases |kids|
  {
    if |kids| > 0 {
      var pair := [ChildRemoved(q, kids[0], 0), ParentChanged(kids[0], Some(q), None)];
      AddedOnConcat(p, pair, ClearEvents(q, kids[1..]));
      assert AddedOn(p, pair) == [] by {
        assert pair[1..][1..] == [];
      }
      AddedOnClear(p, q, kids[1..]);
    }
  }

  /** Child-added on `p` for positions `k` up to `j` of `list`, each with its
      position as index. */
  function AddedRun(p: Id, list: seq<Id>, k: nat, j: nat): (r: seq<Event>)
    requires k <= j <= |list|
    ensures |r| == j - k
    ensures forall i :: k <= i < j ==> r[i - k] == ChildAdded(p, list[i], i)
    decreases j - k
  {
    if k == j then [] else [ChildAdded(p, list[k], k)] + AddedRun(p, list, k + 1, j)
  }

  lemma AddedRunStep(p: Id, list: seq<Id>, k: nat, j: nat)
    requires k < j <= |list|
    ensures AddedRun(p, list, k, j) == [ChildAdded(p, list[k], k)] + AddedRun(p, list, k + 1, j)
  {
  }

  /** A trace extended by a move onto `p` gains exactly one child-added on
      `p`: the child-removed part names no addition. */
  lemma AddedOnMove(p: Id, evs: seq<Event>, removed: seq<Event>, added: Event, changed: Event)
    requires |removed| <= 1 && (|removed| == 1 ==> removed[0].ChildRemoved?)
    requires added.ChildAdded? && added.parent == p && changed.ParentChanged?
    ensures AddedOn(p, evs + removed + [added, changed]) == AddedOn(p, evs) + [added]
  {
    AppendAssoc(evs, removed, [added, changed]);
    AddedOnConcat(p, evs, removed + [added, changed]);
    AddedOnConcat(p, removed, [added, changed]);
    assert AddedOn(p, removed) == [] by {
      if |removed| == 1 {
        assert removed[1..] == [];
      }
    }
    assert AddedOn(p, [added, changed]) == [added] by {
      assert [added, changed][1..] == [changed];
      assert [changed][1..] == [];
    }
  }

  /** One successful turn of the loop: `Add` of an element from elsewhere,
      with the end of `p`'s list as index, raises child-removed on the old
      parent if there is one, then child-added on `p` at that position, then
      parent-changed. */
  lemma AttachStepEvents(s: State, p: Id, x: Id, k: nat)
    requires Wf(s) && p in s.nodes && x in s.nodes && |ChildrenOf(s, p)| == k
    requires Fits(s, p, x) && ParentOf(s, x) != Some(p)
    ensures Add(s, p, x, Some(k)).state.events ==
      s.events + RemovedPart(s, x) + [ChildAdded(p, x, k), ParentChanged(x, ParentOf(s, x), Some(p))]
  {
    AddFails(s, p, x, Some(k));
    AddEvents(s, p, x, Some(k));
  }

  /** The state the `SetChildren` loop is in before position `k`: a well
      formed, indexed scene whose list for `p` holds the first `k` elements
      of a list without repeats. */
  ghost predicate AttachReady(s: State, p: Id, list: seq<Id>, k: nat) {
    && Wf(s) && Indexed(s) && p in s.nodes && (forall x :: x in list ==> x in s.nodes)
    && NoDup(list) && k <= |list| && ChildrenOf(s, p) == list[..k]
  }

  /** What the loop needs from one successful turn: the loop is ready for
      the next position, the first misfit from there on is unchanged, the
      loop carries on from there, and the turn raised the events of a move. */
  lemma AttachStepNext(s: State, p: Id, list: seq<Id>, k: nat)
    requires AttachReady(s, p, list, k) && k < |list| && Fits(s, p, list[k])
    ensures var o := Add(s, p, list[k], Some(k));
      && o.error.None? && AttachReady(o.state, p, list, k + 1)
      && FirstMisfit(o.state, p, list, k + 1) == FirstMisfit(s, p, list, k)
      && AttachEach(s, p, list, k) == AttachEach(o.state, p, list, k + 1)
      && o.state.events == s.events + RemovedPart(s, list[k])
           + [ChildAdded(p, list[k], k), ParentChanged(list[k], ParentOf(s, list[k]), Some(p))]
  {
    var o := Add(s, p, list[k], Some(k));
    AddFails(s, p, list[k], Some(k));
    AttachStepPlaces(s, p, list, k);
    AddKeepsChain(s, p, list[k], Some(k));
    FirstMisfitSameChain(s, o.state, p, list, k + 1);
    AttachStepEvents(s, p, list[k], k);
  }

  /** ... and so adds exactly one child-added on `p` to the trace. */
  lemma AttachStepAdded(s: State, p: Id, list: seq<Id>, k: nat)
    requires AttachReady(s, p, list, k) && k < |list| && Fits(s, p, list[k])
    ensures AddedOn(p, Add(s, p, list[k], Some(k)).state.events) ==
      AddedOn(p, s.events) + [ChildAdded(p, list[k], k)]
  {
    AttachStepNext(s, p, list, k);
    AddedOnMove(p, s.events, RemovedPart(s, list[k]), ChildAdded(p, list[k], k),
      ParentChanged(list[k], ParentOf(s, list[k]), Some(p)));
  }

  /** The turn that throws: `Add` stores the position as index and changes
      nothing else, and the loop ends there. */
  lemma AttachStepStops(s: State, p: Id, list: seq<Id>, k: nat)
    requires p in s.nodes && (forall x :: x in list ==> x in s.nodes)
    requires k < |list| && !Fits(s, p, list[k])
    ensures var o := Add(s, p, list[k], Some(k));
      && o.error.Some? && o.state == WithIndex(s, list[k], Some(k))
      && AttachEach(s, p, list, k) == o
  {
    AddFails(s, p, list[k], Some(k));
  }

  /** The `SetChildren` loop from position `k` on throws exactly at the
      first element that does not fit. It leaves `p` with the elements
      before that one, and that element with its position stored as index
      although it was not attached. */
  lemma {:induction false} AttachEachStops(s: State, p: Id, list: seq<Id>, k: nat)
    requires AttachReady(s, p, list, k)
    ensures var r, j := AttachEach(s, p, list, k), FirstMisfit(s, p, list, k);
      && (r.error.Some? <==> j < |list|)
      && ChildrenOf(r.state, p) == list[..j]
      && (j < |list| ==> IndexField(r.state, list[j]) == Some(j))
    decreases |list| - k
  {
    if k == |list| {
      assert list[..k] == list;
    } else if Fits(s, p, list[k]) {
      AttachStepNext(s, p, list, k);
      AttachEachStops(Add(s, p, list[k], Some(k)).state, p, list, k + 1);
    } else {
      AttachStepStops(s, p, list, k);
    }
  }

  /** ... and, along the way, raises child-added on `p` for each attached
      element in list order, with its position as index. */
  lemma {:induction false} AttachEachAdds(s: State, p: Id, list: seq<Id>, k: nat)
    requires AttachReady(s, p, list, k)
    ensures AddedOn(p, AttachEach(s, p, list, k).state.events) ==
      AddedOn(p, s.events) + AddedRun(p, list, k, FirstMisfit(s, p, list, k))
    decreases |list| - k
  {
    if k < |list| {
      if Fits(s, p, list[k]) {
        var j := FirstMisfit(s, p, list, k);
        var o := Add(s, p, list[k], Some(k));
        var added := ChildAdded(p, list[k], k);
        AttachStepNext(s, p, list, k);
        AttachStepAdded(s, p, list, k);
        AttachEachAdds(o.state, p, list, k + 1);
        AddedRunStep(p, list, k, j);
        AppendAssoc(AddedOn(p, s.events), [added], AddedRun(p, list, k + 1, j));
      } else {
        AttachStepStops(s, p, list, k);
      }
    }
  }

  /** ... and it only ever appends to the trace. */
  lemma {:induction false} AttachEachExtends(s: State, p: Id, list: seq<Id>, k: nat)
    requires AttachReady(s, p, list, k)
    ensures s.events <= AttachEach(s, p, list, k).state.events
    decreases |list| - k
  {
    if k < |list| {
      if Fits(s, p, list[k]) {
        var o := Add(s, p, list[k], Some(k));
        AttachStepNext(s, p, list, k);
        StepExtends(s.events, RemovedPart(s, list[k]), ChildAdded(p, list[k], k),
          ParentChanged(list[k], ParentOf(s, list[k]), Some(p)));
        AttachEachExtends(o.state, p, list, k + 1);
        PrefixTrans(s.events, o.state.events, AttachEach(o.state, p, list, k + 1).state.events);
      } else {
        AttachStepStops(s, p, list, k);
      }
    }
  }

  lemma StepExtends<T>(a: seq<T>, r: seq<T>, m: T, n: T)
    ensures a <= a + r + [m, n]
  {
    assert a + r + [m, n] == a + (r + [m, n]);
  }

  lemma PrefixTrans<T>(a: seq<T>, b: seq<T>, c: seq<T>)
    requires a <= b && b <= c
    ensures a <= c
  {
    assert c[..|a|] == b[..|a|];
  }

  /** `p.SetChildren(list)` is not atomic. It throws exactly at the first
      element that is `p` or one of its ancestors. By then `p`'s old
      children are all detached, `p`'s list holds the elements before the
      offending one, and the offending element keeps its position as a
      stored index although it was not attached. */
  lemma SetChildrenPartial(s: State, p: Id, list: seq<Id>)
    requires Wf(s) && Indexed(s) && p in s.nodes && (forall x :: x in list ==> x in s.nodes)
    requires NoDup(list)
    ensures var r, j := SetChildren(s, p, list), FirstMisfit(s, p, list, 0);
      && (r.error.Some? <==> j < |list|)
      && ChildrenOf(r.state, p) == list[..j]
      && (j < |list| ==> list[j] == p || IsAncestor(s, list[j], p))
      && (j < |list| ==> IndexField(r.state, list[j]) == Some(j))
  {
    var c := Clear(s, p);
    ClearShape(s, p);
    assert ChildrenOf(c, p) == list[..0];
    AttachEachStops(c, p, list, 0);
    FirstMisfitSameChain(s, c, p, list, 0);
    var j := FirstMisfit(s, p, list, 0);
    if j < |list| {
      FitsIsNotAncestor(s, p, list[j]);
    }
  }

  /** `p.SetChildren(list)` raises the events of `Clear` first, and then
      child-added on `p` for each element it attaches, in list order, with
      the element's position as index. */
  lemma SetChildrenEvents(s: State, p: Id, list: seq<Id>)
    requires Wf(s) && Indexed(s) && p in s.nodes && (forall x :: x in list ==> x in s.nodes)
    requires NoDup(list)
    ensures var r, j := SetChildren(s, p, list), FirstMisfit(s, p, list, 0);
      && s.events + ClearEvents(p, ChildrenOf(s, p)) <= r.state.events
      && AddedOn(p, r.state.events) == AddedOn(p, s.events) + AddedRun(p, list, 0, j)
  {
    var c := Clear(s, p);
    var r := SetChildren(s, p, list);
    var cleared := ClearEvents(p, ChildrenOf(s, p));
    assert AttachReady(c, p, list, 0) && c.events == s.events + cleared
      && FirstMisfit(c, p, list, 0) == FirstMisfit(s, p, list, 0) by {
      ClearShape(s, p);
      assert ChildrenOf(c, p) == list[..0];
      FirstMisfitSameChain(s, c, p, list, 0);
    }
    assert s.events + cleared <= r.state.events by {
      AttachEachExtends(c, p, list, 0);
    }
    assert AddedOn(p, c.events) == AddedOn(p, s.events) by {
      AddedOnConcat(p, s.events, cleared);
      AddedOnClear(p, p, ChildrenOf(s, p));
    }
    AttachEachAdds(c, p, list, 0);
  }

  // ---- The ParentIndex setter ----

  /** Re-placing `c` within `p`'s list touches no other list and no index
      outside `p`'s list. */
  lemma ReplaceFrame(s: State, p: Id, c: Id, newIndex: Option<int>)
    requires p in s.nodes && c in ChildrenOf(s, p)
    ensures var t := AttachTo(s, p, c, newIndex);
      && (forall n :: n != p ==> ChildrenOf(t, n) == ChildrenOf(s, n))
      && (forall n :: n !in ChildrenOf(t, p) ==> IndexField(t, n) == IndexField(s, n))
  {
    var r := PlaceChild(s, p, c, newIndex);
    var others := Remove(ChildrenOf(s, p), c).1;
    assert Insert(others, PlacementIndex(newIndex, |others|), c)[PlacementIndex(newIndex, |others|)] == c;
    assert c in ChildrenOf(r.0, p);
  }

  /** Reordering one list, without changing which elements it holds, keeps
      a scene well formed. */
  lemma ReorderKeepsWf(s: State, t: State, p: Id)
    requires Wf(s) && t.nodes.Keys == s.nodes.Keys
    requires forall n :: ParentOf(t, n) == ParentOf(s, n)
    requires forall n :: n != p ==> ChildrenOf(t, n) == ChildrenOf(s, n)
    requires NoDup(ChildrenOf(t, p)) && forall x :: x in ChildrenOf(t, p) <==> x in ChildrenOf(s, p)
    ensures Wf(t)
  {
    forall n | n in t.nodes
      ensures ChildrenIn(t, n)
    {
      assert ChildrenIn(s, n);
    }
    forall n, k: nat | n in t.nodes && 1 <= k
      ensures Up(t, n, k) != Some(n)
    {
      UpSameParents(s, t, n, k);
    }
  }

  /** The `ParentIndex` setter on an element with no parent stores the value
      and leaves the scene indexed: no list holds the element. */
  lemma SetParentIndexDetached(s: State, c: Id, value: Option<int>)
    requires Wf(s) && Indexed(s) && c in s.nodes && ParentOf(s, c).None?
    ensures var t := SetParentIndex(s, c, value);
      t == WithIndex(s, c, value) && IndexField(t, c) == value && Wf(t) && Indexed(t)
  {
    StoreIndexKeeps(s, c, value);
  }

  /** The `ParentIndex` setter on an element of `p`'s list moves it to the
      value, clamped to the other children (or to the end for `null`), and
      stores where it landed. No event is raised, no other list changes, and
      the scene stays well formed ... */
  lemma SetParentIndexAttached(s: State, c: Id, value: Option<int>)
    requires Wf(s) && Indexed(s) && c in s.nodes && ParentOf(s, c).Some?
    ensures var p := ParentOf(s, c).value;
      var t := SetParentIndex(s, c, value);
      var kids := ChildrenOf(s, p);
      var i := PlacementIndex(value, |kids| - 1);
      && |kids| > 0
      && ChildrenOf(t, p) == Insert(RemoveAt(kids, IndexOf(kids, c)), i, c)
      && IndexField(t, c) == Some(i)
      && t.events == s.events
      && (forall n :: n != p ==> ChildrenOf(t, n) == ChildrenOf(s, n))
      && Wf(t)
  {
    var p := ParentOf(s, c).value;
    var t := SetParentIndex(s, c, value);
    SetParentIndexReplaces(s, c, value);
    ReorderKeepsWf(s, t, p);
  }

  /** The setter re-places `c` within its own list, which keeps the same
      members and stays free of repeats. */
  lemma SetParentIndexReplaces(s: State, c: Id, value: Option<int>)
    requires Wf(s) && c in s.nodes && ParentOf(s, c).Some?
    ensures var p := ParentOf(s, c).value;
      var t := SetParentIndex(s, c, value);
      var kids := ChildrenOf(s, p);
      var i := PlacementIndex(value, |kids| - 1);
      && |kids| > 0
      && ChildrenOf(t, p) == Insert(RemoveAt(kids, IndexOf(kids, c)), i, c)
      && IndexField(t, c) == Some(i)
      && t.events == s.events
      && (forall n :: n != p ==> ChildrenOf(t, n) == ChildrenOf(s, n))
      && t.nodes.Keys == s.nodes.Keys
      && (forall n :: ParentOf(t, n) == ParentOf(s, n))
      && NoDup(ChildrenOf(t, p))
      && (forall x :: x in ChildrenOf(t, p) <==> x in kids)
  {
    var p := ParentOf(s, c).value;
    var kids := ChildrenOf(s, p);
    assert p in s.nodes && c in kids && ChildrenIn(s, p);
    var t := SetParentIndex(s, c, value);
    assert t == AttachTo(s, p, c, value);
    ReplaceShape(s, p, c, value);
    ReplaceFrame(s, p, c, value);
    var others := RemoveAt(kids, IndexOf(kids, c));
    RemoveAtNoDup(kids, IndexOf(kids, c));
    InsertNoDup(others, PlacementIndex(value, |others|), c);
  }

  /** ... and the scene stays indexed. */
  lemma SetParentIndexIndexed(s: State, c: Id, value: Option<int>)
    requires Wf(s) && Indexed(s) && c in s.nodes && ParentOf(s, c).Some?
    ensures Indexed(SetParentIndex(s, c, value))
  {
    var p := ParentOf(s, c).value;
    var kids := ChildrenOf(s, p);
    assert p in s.nodes && c in kids && ChildrenIn(s, p);
    var t := SetParentIndex(s, c, value);
    assert t == AttachTo(s, p, c, value);
    ReplaceShape(s, p, c, value);
    ReplaceFrame(s, p, c, value);
    var others := RemoveAt(kids, IndexOf(kids, c));
    RemoveAtNoDup(kids, IndexOf(kids, c));
    InsertNoDup(others, PlacementIndex(value, |others|), c);
    forall q | q in t.nodes && q != p
      ensures ListIndexed(t, q)
    {
      OtherListIndexed(s, t, p, q);
    }
  }

  /** A list other than `p`'s keeps its indexing when only `p`'s list, and
      the indices of its members, changed, and its members are as before. */
  lemma OtherListIndexed(s: State, t: State, p: Id, q: Id)
    requires Consistent(s) && ListIndexed(s, q) && q in s.nodes && q != p
    requires ChildrenOf(t, q) == ChildrenOf(s, q)
    requires forall x :: x in ChildrenOf(t, p) ==> x in ChildrenOf(s, p)
    requires forall n :: n !in ChildrenOf(t, p) ==> IndexField(t, n) == IndexField(s, n)
    ensures ListIndexed(t, q)
  {
    forall j | 0 <= j < |ChildrenOf(t, q)|
      ensures IndexField(t, ChildrenOf(t, q)[j]) == Some(j)
    {
      var x := ChildrenOf(s, q)[j];
      assert IndexField(s, x) == Some(j);
      assert ParentOf(s, x) == Some(q);
      assert x !in ChildrenOf(t, p);
    }
  }

  /** Two scenes with the same elements, fields, information and trace are
      the same scene. */
  lemma SameFieldsSameState(s: State, t: State)
    requires t.nodes.Keys == s.nodes.Keys && t.info == s.info && t.events == s.events
    requires forall n :: ParentOf(t, n) == ParentOf(s, n) && ChildrenOf(t, n) == ChildrenOf(s, n)
    requires forall n :: IndexField(t, n) == IndexField(s, n)
    ensures t == s
  {
    forall n | n in s.nodes
      ensures t.nodes[n] == s.nodes[n]
    {
      assert ParentOf(t, n) == ParentOf(s, n) && ChildrenOf(t, n) == ChildrenOf(s, n);
      assert IndexField(t, n) == IndexField(s, n);
    }
    assert t.nodes == s.nodes;
  }

  /** A list that is indexed in two scenes gives its members the same
      indices in both. */
  lemma SameListSameIndices(s: State, t: State, p: Id)
    requires ListIndexed(s, p) && ListIndexed(t, p) && ChildrenOf(t, p) == ChildrenOf(s, p)
    ensures forall n :: n in ChildrenOf(s, p) ==> IndexField(t, n) == IndexField(s, n)
  {
    forall n | n in ChildrenOf(s, p)
      ensures IndexField(t, n) == IndexField(s, n)
    {
      var k :| 0 <= k < |ChildrenOf(s, p)| && ChildrenOf(s, p)[k] == n;
      assert IndexField(t, ChildrenOf(t, p)[k]) == Some(k);
    }
  }

  /** Setting `ParentIndex` to the index an element already has changes
      nothing at all: same lists, same indices, no event. */
  lemma SetParentIndexToCurrent(s: State, c: Id)
    requires Wf(s) && Indexed(s) && c in s.nodes && ParentOf(s, c).Some?
    ensures SetParentIndex(s, c, IndexField(s, c)) == s
  {
    var p := ParentOf(s, c).value;
    var kids := ChildrenOf(s, p);
    var t := SetParentIndex(s, c, IndexField(s, c));
    SetParentIndexAttached(s, c, IndexField(s, c));
    SetParentIndexIndexed(s, c, IndexField(s, c));
    ReplaceFrame(s, p, c, IndexField(s, c));
    var i := IndexOf(kids, c);
    assert ChildrenOf(t, p) == kids by {
      assert ListIndexed(s, p);
      assert IndexField(s, kids[i]) == Some(i);
      InsertRemoveAt(kids, i);
    }
    assert ListIndexed(s, p) && ListIndexed(t, p);
    SameListSameIndices(s, t, p);
    SameFieldsSameState(s, t);
  }
}

=== FILE: elements.dfy ===
/** The state of a scene of `Element`s: every element by id, with its place
    in the tree, its name and its transform, plus the trace of the events
    the elements have raised so far. */
module Elements {
  import opened Wrappers
  import opened Geometry

  /** An element's identity (its object reference in C#). */
  type Id = nat

  /** The fields of `Transform` and of its `TransformMatrix`: the local
      properties, the dirty flag and the two cached matrices. */
  datatype Xf = Xf(
    position: Vec3f,
    rotation: Quat,
    scale: Vec3f,
    dirty: bool,
    localMatrix: Matrix,
    worldMatrix: Matrix)

  /** What `CreateTransform` gives a new element: `Position = Zero`,
      `Rotation = Identity`, `Scale = One`, dirty, and both caches at the
      identity matrix. */
  const DefaultXf: Xf := Xf(Zero3f, IdentityRotation, One3f, true, Identity, Identity)

  /** The tree fields of one element: `_parent`, `_children` and
      `_parentIndex`. */
  datatype Node = Node(parent: Option<Id>, children: seq<Id>, parentIndex: Option<int>)

  /** The rest of one element: `_name`, the name of its runtime type, and its
      transform. */
  datatype Info = Info(name: Option<string>, typeName: string, xf: Xf)

  /** The three notifications, each with the element that raises it. */
  datatype Event =
    | ChildAdded(parent: Id, child: Id, index: int)
    | ChildRemoved(parent: Id, child: Id, index: int)
    | ParentChanged(node: Id, oldParent: Option<Id>, newParent: Option<Id>)

  /** A scene: the tree fields and the other fields of every element (kept
      apart, since the tree operations never touch the latter), and the
      trace of raised events. */
  datatype State = State(nodes: map<Id, Node>, info: map<Id, Info>, events: seq<Event>)

  function ParentOf(s: State, n: Id): Option<Id> {
    if n in s.nodes then s.nodes[n].parent else None
  }

  function ChildrenOf(s: State, n: Id): seq<Id> {
    if n in s.nodes then s.nodes[n].children else []
  }

  function IndexField(s: State, n: Id): Option<int> {
    if n in s.nodes then s.nodes[n].parentIndex else None
  }

  /** The `Element` constructor: a detached element with no children, no
      name set yet, and the transform `CreateTransform` builds. Nothing else
      in the scene changes and no event is raised. */
  function NewElement(s: State, id: Id, typeName: string): (r: State)
    requires id !in s.nodes && id !in s.info
    ensures r.nodes.Keys == s.nodes.Keys + {id} && r.info.Keys == s.info.Keys + {id}
    ensures forall n :: n in s.nodes ==> r.nodes[n] == s.nodes[n]
    ensures forall n :: n in s.info ==> r.info[n] == s.info[n]
    ensures ParentOf(r, id) == None && ChildrenOf(r, id) == [] && IndexField(r, id) == None
    ensures r.info[id] == Info(None, typeName, DefaultXf) && r.info[id].xf.dirty
    ensures r.events == s.events
  {
    State(s.nodes[id := Node(None, [], None)], s.info[id := Info(None, typeName, DefaultXf)], s.events)
  }

  // ---- Name ----

  /** The `Name` getter: `_name ??= GetType().Name`. Returns the name and the
      element as left by the memoising read. */
  function ReadName(n: Info): (r: (string, Info))
    ensures n.name.Some? ==> r.0 == n.name.value && r.1 == n
    ensures n.name.None? ==> r.0 == n.typeName
    ensures r.1.name == Some(r.0)
    ensures r.1 == n.(name := r.1.name)
  {
    match n.name
    case Some(v) => (v, n)
    case None => (n.typeName, n.(name := Some(n.typeName)))
  }

  /** The `Name` setter: `_name = value ?? GetType().Name`. */
  function WriteName(n: Info, value: Option<string>): (r: Info)
    ensures r.name.Some?
    ensures value.Some? ==> r.name == value
    ensures value.None? ==> r.name == Some(n.typeName)
    ensures r == n.(name := r.name)
  {
    n.(name := Some(value.GetOr(n.typeName)))
  }

  /** A new element's name reads as its type name. */
  lemma FreshNameIsTypeName(s: State, id: Id, typeName: string)
    requires id !in s.nodes && id !in s.info
    ensures ReadName(NewElement(s, id, typeName).info[id]).0 == typeName
  {
  }

  /** Whatever was written, the name reads back as the written value, or as
      the type name when `null` was written. */
  lemma NameReadsBack(n: Info, value: Option<string>)
    ensures ReadName(WriteName(n, value)).0 == value.GetOr(n.typeName)
    ensures ReadName(WriteName(n, value)).1 == WriteName(n, value)
  {
  }

  /** Reading twice gives the same name, and the second read changes nothing. */
  lemma ReadNameMemoises(n: Info)
    ensures var (a, n1) := ReadName(n); ReadName(n1) == (a, n1)
  {
  }
}

=== FILE: geometry.dfy ===
/** The floating-point values a transform stores, kept opaque. Vectors and
    quaternions are plain records of reals that are only stored and
    compared; a matrix is a symbolic term, so that a product records which
    factors were multiplied in which order without interpreting them. */
module Geometry {

  /** `Vector3` (single precision), only stored. */
  datatype Vec3f = Vec3f(x: real, y: real, z: real)

  /** `Quaternion`, only stored. */
  datatype Quat = Quat(x: real, y: real, z: real, w: real)

  const Zero3f: Vec3f := Vec3f(0.0, 0.0, 0.0)
  const One3f: Vec3f := Vec3f(1.0, 1.0, 1.0)
  const IdentityRotation: Quat := Quat(0.0, 0.0, 0.0, 1.0)

  /** `Matrix4x4` as an uninterpreted term: the identity, the three builders
      `CreateScale`, `CreateFromQuaternion` and `CreateTranslation`, and the
      product `a * b`. */
  datatype Matrix =
    | Identity
    | Scaling(scale: Vec3f)
    | Rotating(rotation: Quat)
    | Translating(position: Vec3f)
    | Mul(left: Matrix, right: Matrix)
}

=== FILE: ints.dfy ===
/** C# 32-bit `int` arithmetic on top of Dafny's unbounded `int`.

    The C# operators `+`, `-`, `*` and unary `-` wrap silently modulo 2^32
    (unchecked context); `/` and `%` truncate toward zero and throw on a zero
    divisor and on `int.MinValue / -1`; `int.Abs` throws on `int.MinValue`;
    `int.Clamp` throws when its lower bound exceeds its upper bound. */
module Ints {
  import opened Wrappers

  const TwoTo32: int := 0x1_0000_0000
  const MinValue: int := -0x8000_0000
  const MaxValue: int := 0x7fff_ffff

  /** A value of C#'s `int`. */
  type Int32 = x: int | MinValue <= x <= MaxValue

  /** The exceptions the integer operators can raise. */
  datatype ArithError =
    | DivideByZero   // System.DivideByZeroException
    | Overflow       // System.OverflowException
    | MinAboveMax    // System.ArgumentException from Math.Clamp

  /** Two integers that denote the same 32-bit pattern. */
  ghost predicate Congruent(x: int, y: int) {
    (x - y) % TwoTo32 == 0
  }

  /** Reduction of an exact result to the 32-bit value C# stores. */
  function Wrap(x: int): (r: Int32)
    ensures Congruent(x, r)
    ensures MinValue <= x <= MaxValue ==> r == x
  {
    (x - MinValue) % TwoTo32 + MinValue
  }

  /** Wrapped subtraction is zero only for equal operands: two `int`s
      differ by less than 2^32. */
  lemma SubZero(a: Int32, b: Int32)
    ensures Sub32(a, b) == 0 <==> a == b
  {
    if Sub32(a, b) == 0 {
      var k := CongruentWitness(a - b, 0);
      assert -TwoTo32 < a - b < TwoTo32;
    }
  }

  /** `r` is the 32-bit value C# stores for the exact result `exact`: the
      same bit pattern, and the exact result itself whenever that fits. */
  ghost predicate Wraps(r: int, exact: int) {
    Congruent(exact, r) && (MinValue <= exact <= MaxValue ==> r == exact)
  }

  function Add32(a: Int32, b: Int32): Int32 { Wrap(a + b) }
  function Sub32(a: Int32, b: Int32): Int32 { Wrap(a - b) }
  function Mul32(a: Int32, b: Int32): Int32 { Wrap(a * b) }
  function Neg32(a: Int32): Int32 { Wrap(-(a as int)) }

  /** Quotient of exact division rounded toward zero (C# `/` on ints). */
  function TruncDiv(a: int, b: int): int
    requires b != 0
  {
    if (a < 0) == (b < 0) then AbsInt(a) / AbsInt(b) else -(AbsInt(a) / AbsInt(b))
  }

  function AbsInt(a: int): nat {
    if a < 0 then -a else a
  }

  /** C# `a / b` on `int`. */
  function Div32(a: Int32, b: Int32): (r: Result<Int32, ArithError>)
    ensures b == 0 <==> r == Err(DivideByZero)
    ensures r == Err(Overflow) <==> a == MinValue && b == -1
    ensures r.Ok? ==> r.value == TruncDiv(a, b)
  {
    if b == 0 then Err(DivideByZero)
    else if a == MinValue && b == -1 then Err(Overflow)
    else Ok(TruncDiv(a, b))
  }

  /** C# `a % b` on `int`: the remainder takes the sign of the dividend. */
  function Rem32(a: Int32, b: Int32): (r: Result<Int32, ArithError>)
    ensures b == 0 <==> r == Err(DivideByZero)
    ensures r == Err(Overflow) <==> a == MinValue && b == -1
    ensures r.Ok? ==> AbsInt(r.value) < AbsInt(b)
    ensures r.Ok? && r.value != 0 ==> (r.value < 0 <==> a < 0)
  {
    if b == 0 then Err(DivideByZero)
    else if a == MinValue && b == -1 then Err(Overflow)
    else
      TruncRem(a, b);
      Ok(a - b * TruncDiv(a, b))
  }

  /** The remainder of truncating division is the remainder of the
      magnitudes, with the sign of the dividend. */
  lemma TruncRem(a: int, b: int)
    requires b != 0
    ensures a - b * TruncDiv(a, b) == if a < 0 then -(AbsInt(a) % AbsInt(b)) else AbsInt(a) % AbsInt(b)
  {
    var q, r := AbsInt(a) / AbsInt(b), AbsInt(a) % AbsInt(b);
    assert AbsInt(a) == AbsInt(b) * q + r;
    if b > 0 {
      assert b * TruncDiv(a, b) == if a < 0 then -(AbsInt(b) * q) else AbsInt(b) * q;
    } else {
      assert AbsInt(b) == -b;
      assert b * TruncDiv(a, b) == if a < 0 then -(AbsInt(b) * q) else AbsInt(b) * q;
    }
  }

  /** `int.Abs`, which throws rather than wrap on `int.MinValue`. */
  function Abs32(a: Int32): (r: Result<Int32, ArithError>)
    ensures r.Err? <==> a == MinValue
    ensures r.Ok? ==> r.value >= 0 && (r.value == a || r.value == -a)
  {
    if a == MinValue then Err(Overflow) else Ok(AbsInt(a))
  }

  /** `int.Clamp(value, lo, hi)`. */
  function Clamp32(value: Int32, lo: Int32, hi: Int32): (r: Result<Int32, ArithError>)
    ensures r.Err? <==> lo > hi
    ensures r.Ok? ==> lo <= r.value <= hi
    ensures r.Ok? && lo <= value <= hi ==> r.value == value
  {
    if lo > hi then Err(MinAboveMax)
    else if value < lo then Ok(lo)
    else if value > hi then Ok(hi)
    else Ok(value)
  }

  /** `int.CreateTruncating(d / ls)` for a double quotient of an `int` by a
      non-zero whole number: the ratio truncated toward zero, saturated at
      `int.MaxValue` (reached only by `int.MinValue / -1`). It never exceeds
      the dividend in magnitude. The double quotient never rounds across an
      integer: when `|d|` and `|ls|` are at most 2^31, a non-integral ratio
      lies at least `1 / |d|` of its size away from the nearest integer, far
      more than double precision loses. */
  function TruncRatio(d: Int32, ls: int): (r: Int32)
    requires ls != 0
    ensures AbsInt(r) <= AbsInt(d)
    ensures TruncDiv(d, ls) <= MaxValue ==> r == TruncDiv(d, ls)
    ensures TruncDiv(d, ls) > MaxValue <==> d == MinValue && ls == -1
    ensures TruncDiv(d, ls) > MaxValue ==> r == MaxValue
  {
    FloorDivBound(AbsInt(d), AbsInt(ls));
    var q := TruncDiv(d, ls);
    if q > MaxValue then
      HalfQuotient(AbsInt(d), AbsInt(ls));
      MaxValue
    else q
  }

  /** `int.CreateTruncating(1d / Math.Sqrt(ls))` for a positive squared
      length: 1 when `ls` is 1, otherwise a value in (0, 1) that truncates to 0. */
  function InverseLengthTruncated(ls: nat): Int32
    requires ls > 0
  {
    if ls == 1 then 1 else 0
  }

  /** Dividing a number of at most 2^31 by two or more leaves at most 2^30. */
  lemma HalfQuotient(a: nat, b: nat)
    requires a <= -MinValue && b > 0
    ensures b >= 2 ==> a / b <= -MinValue / 2
  {
    if b >= 2 {
      var q := a / b;
      assert a == q * b + a % b;
      assert q * b >= q * 2 by {
        assert q * b - q * 2 == q * (b - 2);
        MulAtLeast(q, b - 1);
      }
    }
  }

  function Min32(a: Int32, b: Int32): Int32 { if a <= b then a else b }
  function Max32(a: Int32, b: Int32): Int32 { if a >= b then a else b }

  // ---- Congruence modulo 2^32 ----

  lemma CongruentByMultiple(x: int, y: int, k: int)
    requires x - y == TwoTo32 * k
    ensures Congruent(x, y)
  {
  }

  lemma CongruentWitness(x: int, y: int) returns (k: int)
    requires Congruent(x, y)
    ensures x - y == TwoTo32 * k
  {
    k := (x - y) / TwoTo32;
  }

  lemma CongruentTrans(x: int, y: int, z: int)
    requires Congruent(x, y) && Congruent(y, z)
    ensures Congruent(x, z)
  {
    var k1 := CongruentWitness(x, y);
    var k2 := CongruentWitness(y, z);
    CongruentByMultiple(x, z, k1 + k2);
  }

  lemma CongruentSym(x: int, y: int)
    requires Congruent(x, y)
    ensures Congruent(y, x)
  {
    var k := CongruentWitness(x, y);
    CongruentByMultiple(y, x, -k);
  }

  lemma CongruentAdd(a: int, a': int, b: int, b': int)
    requires Congruent(a, a') && Congruent(b, b')
    ensures Congruent(a + b, a' + b')
    ensures Congruent(a - b, a' - b')
  {
    var k1 := CongruentWitness(a, a');
    var k2 := CongruentWitness(b, b');
    CongruentByMultiple(a + b, a' + b', k1 + k2);
    CongruentByMultiple(a - b, a' - b', k1 - k2);
  }

  lemma CongruentNeg(a: int, a': int)
    requires Congruent(a, a')
    ensures Congruent(-a, -a')
  {
    var k := CongruentWitness(a, a');
    CongruentByMultiple(-a, -a', -k);
  }

  lemma CongruentMul(a: int, a': int, b: int, b': int)
    requires Congruent(a, a') && Congruent(b, b')
    ensures Congruent(a * b, a' * b')
  {
    var k1 := CongruentWitness(a, a');
    var k2 := CongruentWitness(b, b');
    calc {
      a * b - a' * b';
      (a - a') * b + a' * (b - b');
      (TwoTo32 * k1) * b + a' * (TwoTo32 * k2);
      TwoTo32 * (k1 * b + a' * k2);
    }
    CongruentByMultiple(a * b, a' * b', k1 * b + a' * k2);
  }

  /** Congruent integers wrap to the same 32-bit value. */
  lemma {:induction false} WrapCongruent(x: int, y: int)
    requires Congruent(x, y)
    ensures Wrap(x) == Wrap(y)
  {
    var k := CongruentWitness(x, y);
    assert x - MinValue == (y - MinValue) + TwoTo32 * k;
  }

  /** Wrapping an intermediate result does not change the final wrapped one:
      the value C# computes step by step equals the exact value wrapped once. */
  lemma WrapInner(x: int)
    ensures Congruent(Wrap(x), x)
  {
    CongruentSym(x, Wrap(x));
  }

  // ---- Laws of the wrapping operators ----

  lemma {:induction false} AddSubCancel(a: Int32, b: Int32)
    ensures Sub32(Add32(a, b), b) == a
  {
    WrapInner(a + b);
    CongruentAdd(Wrap(a + b), a + b, b, b);
    WrapCongruent(Wrap(a + b) - b, a);
  }

  lemma {:induction false} AddSubRestore(a: Int32, b: Int32)
    ensures Add32(a, Sub32(b, a)) == b
  {
    WrapInner(b - a);
    CongruentAdd(a, a, Wrap(b - a), b - a);
    WrapCongruent(a + Wrap(b - a), b);
  }

  lemma {:induction false} NegNeg(a: Int32)
    ensures Neg32(Neg32(a)) == a
  {
    WrapInner(-(a as int));
    CongruentNeg(Wrap(-(a as int)), -(a as int));
    WrapCongruent(-(Wrap(-(a as int)) as int), a);
  }

  lemma {:induction false} NegSub(a: Int32, b: Int32)
    ensures Neg32(Sub32(a, b)) == Sub32(b, a)
  {
    WrapInner(a - b);
    CongruentNeg(Wrap(a - b), a - b);
    WrapCongruent(-(Wrap(a - b) as int), b - a);
  }

  /** `a*b - c*d` computed with C#'s wrapping operators. */
  lemma {:induction false} SubOfProducts(a: Int32, b: Int32, c: Int32, d: Int32)
    ensures Sub32(Mul32(a, b), Mul32(c, d)) == Wrap(a * b - c * d)
  {
    WrapInner(a * b);
    WrapInner(c * d);
    CongruentAdd(Wrap(a * b), a * b, Wrap(c * d), c * d);
    WrapCongruent(Wrap(a * b) - Wrap(c * d), a * b - c * d);
  }

  /** Wrapping the operands of a sum does not change the wrapped sum. */
  lemma {:induction false} WrapSum2(x: int, y: int)
    ensures Wrap(Wrap(x) + Wrap(y)) == Wrap(x + y)
  {
    WrapInner(x);
    WrapInner(y);
    CongruentAdd(Wrap(x), x, Wrap(y), y);
    WrapCongruent(Wrap(x) + Wrap(y), x + y);
  }

  /** `a1*b1 + a2*b2` computed with C#'s wrapping operators. */
  lemma {:induction false} SumOfProducts2(a1: Int32, b1: Int32, a2: Int32, b2: Int32)
    ensures Add32(Mul32(a1, b1), Mul32(a2, b2)) == Wrap(a1 * b1 + a2 * b2)
  {
    WrapSum2(a1 * b1, a2 * b2);
  }

  /** `a1*b1 + a2*b2 + a3*b3`, evaluated left to right with wrapping. */
  lemma {:induction false} SumOfProducts3(a1: Int32, b1: Int32, a2: Int32, b2: Int32, a3: Int32, b3: Int32)
    ensures Add32(Add32(Mul32(a1, b1), Mul32(a2, b2)), Mul32(a3, b3)) == Wrap(a1 * b1 + a2 * b2 + a3 * b3)
  {
    var p1, p2, p3 := a1 * b1, a2 * b2, a3 * b3;
    WrapSum2(p1, p2);
    assert Wrap(p3) == Wrap(Wrap(p3)) by { WrapInner(p3); WrapCongruent(Wrap(p3), p3); }
    WrapSum2(p1 + p2, p3);
  }

  /** `a * Wrap(e)` is congruent to `a * e`. */
  lemma MulWrapped(a: Int32, e: int)
    ensures Congruent(a * Wrap(e), a * e)
  {
    CongruentMul(a, a, Wrap(e), e);
  }

  /** A wrapped sum of products against wrapped operands is the exact sum
      of products wrapped once. */
  lemma {:induction false} SumOfWrappedProducts3(a1: Int32, e1: int, a2: Int32, e2: int, a3: Int32, e3: int)
    ensures Add32(Add32(Mul32(a1, Wrap(e1)), Mul32(a2, Wrap(e2))), Mul32(a3, Wrap(e3)))
            == Wrap(a1 * e1 + a2 * e2 + a3 * e3)
  {
    var c1, c2, c3 := Wrap(e1), Wrap(e2), Wrap(e3);
    SumOfProducts3(a1, c1, a2, c2, a3, c3);
    var s1, s2, s3 := a1 * c1, a2 * c2, a3 * c3;
    var t1, t2, t3 := a1 * e1, a2 * e2, a3 * e3;
    MulWrapped(a1, e1);
    MulWrapped(a2, e2);
    MulWrapped(a3, e3);
    assert Congruent(s1, t1) && Congruent(s2, t2) && Congruent(s3, t3);
    CongruentAdd(s1, t1, s2, t2);
    CongruentAdd(s1 + s2, t1 + t2, s3, t3);
    WrapCongruent(s1 + s2 + s3, t1 + t2 + t3);
  }

  /** A wrapped sum of two products against a wrapped operand. */
  lemma {:induction false} SumOfWrappedProducts2(a1: Int32, b1: Int32, a2: Int32, e2: int)
    ensures Add32(Mul32(a1, b1), Mul32(a2, Wrap(e2))) == Wrap(a1 * b1 + a2 * e2)
  {
    var c2 := Wrap(e2);
    SumOfProducts2(a1, b1, a2, c2);
    var s1, s2 := a1 * b1, a2 * c2;
    var t2 := a2 * e2;
    MulWrapped(a2, e2);
    CongruentAdd(s1, s1, s2, t2);
    WrapCongruent(s1 + s2, s1 + t2);
  }

  /** Negation wraps only at `MinValue`, which is its own negation, so the
      square is unchanged either way. */
  lemma NegatePreservesSquares(x: Int32)
    ensures Neg32(x) * Neg32(x) == x * x
  {
    if x == MinValue {
      WrapCongruent(-(x as int), x);
    }
  }

  // ---- Truncating division ----

  /** The product of a truncated quotient and its divisor lies between zero
      and the dividend, so it never wraps. */
  lemma TruncDivBound(a: Int32, s: Int32)
    requires s != 0
    ensures 0 <= a ==> 0 <= TruncDiv(a, s) * s <= a
    ensures a < 0 ==> a <= TruncDiv(a, s) * s <= 0
  {
    var q := AbsInt(a) / AbsInt(s);
    var p := q * AbsInt(s);
    FloorDivBound(AbsInt(a), AbsInt(s));
    if s < 0 {
      assert q * s == -p;
    } else {
      assert q * s == p;
    }
  }

  /** `(A / S) * S` lies in `[0, A]` and `A / S` in `[0, A]` for natural `A` and positive `S`. */
  lemma FloorDivBound(A: nat, S: nat)
    requires S > 0
    ensures 0 <= (A / S) * S <= A
    ensures 0 <= A / S <= A
  {
    var q := A / S;
    assert A == q * S + A % S;
    MulAtLeast(q, S);
  }

  /** A natural number times a positive one is at least the first. */
  lemma {:induction false} MulAtLeast(q: nat, s: nat)
    requires s >= 1
    ensures q <= q * s
  {
    if q > 0 {
      MulAtLeast(q - 1, s);
      assert q * s == (q - 1) * s + s;
    }
  }

  /** `65537^2 = 2^32 + 131073`, so the square wraps to 131073. */
  lemma Square65537Wraps()
    ensures Mul32(65537, 65537) == 131073
  {
    CongruentByMultiple(65537 * 65537, 131073, 1);
    WrapCongruent(65537 * 65537, 131073);
  }

  /** `46341^2 = 2^32 - 2147479015`, so the square wraps to a negative value. */
  lemma Square46341Wraps()
    ensures Mul32(46341, 46341) == -2147479015
  {
    CongruentByMultiple(46341 * 46341, -2147479015, 1);
    WrapCongruent(46341 * 46341, -2147479015);
  }
}

=== FILE: matrix_cache.dfy ===
/** `TransformMatrix`: the lazily recomputed local and world matrices of a
    transform. One dirty flag guards both caches; a read of either matrix
    on a dirty transform recomputes both, reading (and so possibly
    recomputing) the parent's world matrix on the way. */
module MatrixCache {
  import opened Wrappers
  import opened Geometry
  import opened Elements
  import opened Tree
  import opened Composite
  import opened Transforms

  /** The private `MatrixType` of `GetMatrix`. */
  datatype MatrixType = Local | World

  /** `ComputeLocalMatrix`: `CreateScale(Scale) * CreateFromQuaternion(Rotation)
      * CreateTranslation(Position)`, multiplied left to right. */
  function ComputeLocal(xf: Xf): Matrix {
    Mul(Mul(Scaling(xf.scale), Rotating(xf.rotation)), Translating(xf.position))
  }

  /** The local matrix is built from the position, rotation and scale
      alone, and it records all three. */
  lemma ComputeLocalReadsProperties(a: Xf, b: Xf)
    ensures ComputeLocal(a) == ComputeLocal(b) <==>
      a.position == b.position && a.rotation == b.rotation && a.scale == b.scale
  {
  }

  function Cached(xf: Xf, kind: MatrixType): Matrix {
    match kind
    case Local => xf.localMatrix
    case World => xf.worldMatrix
  }

  /** `b` is `a` with, at most, some caches and dirty flags changed: names
      and the local properties are never written by a read. */
  ghost predicate OnlyCacheChanged(a: map<Id, Info>, b: map<Id, Info>) {
    && b.Keys == a.Keys
    && forall m :: m in a ==>
         b[m] == a[m].(xf := a[m].xf.(dirty := b[m].xf.dirty, localMatrix := b[m].xf.localMatrix, worldMatrix := b[m].xf.worldMatrix))
  }

  /** `GetMatrix(kind)` on `n`: returns the matrix and the transform fields
      as the read leaves them. A clean transform answers from its cache. A
      dirty one computes its local matrix, then its world matrix (the local
      one for a root, otherwise the local one times the parent's
      `WorldMatrix`, itself a read), and becomes clean. `fuel` bounds the
      chain of parent reads; `Read` passes the size of the scene, which no
      chain of a well-formed scene reaches (`ReadSucceeds`). `None` stands
      for running out of fuel or for a parent without transform fields,
      neither of which a well-formed scene allows. */
  function GetMatrix(s: State, info: map<Id, Info>, n: Id, kind: MatrixType, fuel: nat): (r: Option<(Matrix, map<Id, Info>)>)
    requires n in info
    ensures r.Some? ==> OnlyCacheChanged(info, r.value.1)
    ensures r.Some? ==> !r.value.1[n].xf.dirty && r.value.0 == Cached(r.value.1[n].xf, kind)
    decreases fuel
  {
    var xf := info[n].xf;
    if !xf.dirty then Some((Cached(xf, kind), info))
    else
      var local := ComputeLocal(xf);
      match ParentOf(s, n)
      case None =>
        var computed := xf.(localMatrix := local, worldMatrix := local, dirty := false);
        Some((Cached(computed, kind), info[n := info[n].(xf := computed)]))
      case Some(p) =>
        if fuel == 0 || p !in info then None
        else match GetMatrix(s, info, p, World, fuel - 1)
          case None => None
          case Some((parentWorld, after)) =>
            var computed := after[n].xf.(localMatrix := local, worldMatrix := Mul(local, parentWorld), dirty := false);
            Some((Cached(computed, kind), after[n := after[n].(xf := computed)]))
  }

  /** The `LocalMatrix` and `WorldMatrix` getters on a scene. */
  function Read(s: State, n: Id, kind: MatrixType): (r: Option<(Matrix, State)>)
    requires n in s.info
    ensures r.Some? ==> r.value.1.nodes == s.nodes && r.value.1.events == s.events
    ensures r.Some? ==> OnlyCacheChanged(s.info, r.value.1.info)
    ensures r.Some? ==> !r.value.1.info[n].xf.dirty
  {
    match GetMatrix(s, s.info, n, kind, |s.nodes|)
    case None => None
    case Some((m, after)) => Some((m, s.(info := after)))
  }

  /** A clean transform answers from its cache and changes nothing. */
  lemma CleanReadIsCached(s: State, info: map<Id, Info>, n: Id, kind: MatrixType, fuel: nat)
    requires n in info && !info[n].xf.dirty
    ensures GetMatrix(s, info, n, kind, fuel) == Some((Cached(info[n].xf, kind), info))
  {
  }

  /** Reads are idempotent: reading either matrix after a read returns what
      is now cached and changes nothing more; the same matrix is read again. */
  lemma ReadTwice(s: State, info: map<Id, Info>, n: Id, kind: MatrixType, fuel: nat, kind2: MatrixType, fuel2: nat)
    requires n in info && GetMatrix(s, info, n, kind, fuel).Some?
    ensures var (m, after) := GetMatrix(s, info, n, kind, fuel).value;
      && GetMatrix(s, after, n, kind2, fuel2) == Some((Cached(after[n].xf, kind2), after))
      && GetMatrix(s, after, n, kind, fuel2) == Some((m, after))
  {
  }

  /** A read of a dirty transform recomputes both caches from the transform's
      own properties: the local matrix is `scale * rotation * translation`;
      the world matrix is the local one for a root, and otherwise the local
      one times the parent's world matrix, which the read left clean. */
  lemma DirtyReadRecomputes(s: State, info: map<Id, Info>, n: Id, kind: MatrixType, fuel: nat)
    requires n in info && info[n].xf.dirty && GetMatrix(s, info, n, kind, fuel).Some?
    requires ParentOf(s, n) != Some(n)
    ensures var after := GetMatrix(s, info, n, kind, fuel).value.1;
      && after[n].xf.localMatrix == ComputeLocal(info[n].xf)
      && match ParentOf(s, n)
         case None => after[n].xf.worldMatrix == after[n].xf.localMatrix
         case Some(p) =>
           && p in after && !after[p].xf.dirty
           && after[n].xf.worldMatrix == Mul(after[n].xf.localMatrix, after[p].xf.worldMatrix)
  {
  }

  /** A read follows the chain of dirty ancestors; with more fuel than the
      chain is long, and every element of the scene holding transform
      fields, it always answers. */
  lemma {:induction false} GetMatrixSucceeds(s: State, info: map<Id, Info>, n: Id, kind: MatrixType, fuel: nat)
    requires Closed(s) && s.nodes.Keys <= info.Keys && n in info
    requires Up(s, n, fuel + 1) == None
    ensures GetMatrix(s, info, n, kind, fuel).Some?
    decreases fuel
  {
    if info[n].xf.dirty {
      match ParentOf(s, n)
      case None =>
      case Some(p) =>
        assert Up(s, n, fuel + 1) == Up(s, p, fuel);
        assert n in s.nodes;
        GetMatrixSucceeds(s, info, p, World, fuel - 1);
    }
  }

  /** In a well-formed scene where every element has transform fields, the
      getters never fail. */
  lemma ReadSucceeds(s: State, n: Id, kind: MatrixType)
    requires Wf(s) && s.nodes.Keys <= s.info.Keys && n in s.info
    ensures Read(s, n, kind).Some?
  {
    if n in s.nodes {
      ChainEnds(s, n);
    } else {
      assert Up(s, n, 1) == None;
    }
    UpEnded(s, n, if n in s.nodes then |s.nodes| else 1, |s.nodes| + 1);
    GetMatrixSucceeds(s, s.info, n, kind, |s.nodes|);
  }

  /** A read writes only to the element itself and its ancestors. */
  lemma {:induction false} ReadTouchesChain(s: State, info: map<Id, Info>, n: Id, kind: MatrixType, fuel: nat)
    requires n in info && GetMatrix(s, info, n, kind, fuel).Some?
    ensures var after := GetMatrix(s, info, n, kind, fuel).value.1;
      forall m :: m in info && after[m] != info[m] ==> Within(s, n, m, fuel)
    decreases fuel
  {
    var after := GetMatrix(s, info, n, kind, fuel).value.1;
    assert Up(s, n, 0) == Some(n);
    if info[n].xf.dirty {
      match ParentOf(s, n)
      case None =>
      case Some(p) =>
        ReadTouchesChain(s, info, p, World, fuel - 1);
        var mid := GetMatrix(s, info, p, World, fuel - 1).value.1;
        forall m | m in info && after[m] != info[m]
          ensures Within(s, n, m, fuel)
        {
          if m != n {
            assert mid[m] != info[m];
            var d: nat :| d <= fuel - 1 && Up(s, p, d) == Some(m);
            assert Up(s, n, d + 1) == Some(m);
          }
        }
    }
  }

  /** Nothing in the tree operations invalidates: an element that was clean
      before `SetParent` still answers its world matrix from the cache filled
      under its old parent, whatever its new parent is. */
  lemma StaleWorldAfterMove(s: State, c: Id, parent: Option<Id>)
    requires c in s.nodes && (parent.Some? ==> parent.value in s.nodes)
    requires c in s.info && !s.info[c].xf.dirty
    ensures var t := SetParent(s, c, parent).state;
      Read(t, c, World) == Some((s.info[c].xf.worldMatrix, t))
  {
    var t := SetParent(s, c, parent).state;
    CleanReadIsCached(t, t.info, c, World, |t.nodes|);
  }

  /** The `WorldPosition` getter: the world matrix applied to the origin;
      `Matrix4x4.TransformPoint` is a parameter. */
  function WorldPosition(s: State, n: Id, transformPoint: (Matrix, Vec3f) -> Vec3f): (r: Option<(Vec3f, State)>)
    requires n in s.info
    ensures r.Some? <==> Read(s, n, World).Some?
    ensures r.Some? ==> var t := Read(s, n, World).value.1;
      r.value == (transformPoint(t.info[n].xf.worldMatrix, Zero3f), t)
  {
    match Read(s, n, World)
    case None => None
    case Some((m, t)) => Some((transformPoint(m, Zero3f), t))
  }

  /** The local matrix of a root read right after its position was set is
      built from that position and the other stored properties. */
  lemma LocalAfterSetPosition(s: State, n: Id, value: Vec3f)
    requires n in s.info && ParentOf(s, n) == None
    ensures var t := SetPosition(s, n, value);
      && Read(t, n, Local).Some?
      && Read(t, n, Local).value.0 == Mul(Mul(Scaling(s.info[n].xf.scale), Rotating(s.info[n].xf.rotation)), Translating(value))
  {
  }

  /** A dirty child of a dirty root reads as world matrix its local matrix
      times the root's local matrix. */
  lemma WorldUnderRoot(s: State, p: Id, c: Id)
    requires Wf(s) && ParentOf(s, c) == Some(p) && ParentOf(s, p) == None
    requires p in s.info && c in s.info && s.info[p].xf.dirty && s.info[c].xf.dirty
    ensures Read(s, c, World).Some?
    ensures Read(s, c, World).value.0 == Mul(ComputeLocal(s.info[c].xf), ComputeLocal(s.info[p].xf))
  {
    assert c in s.nodes;
    assert p != c by {
      assert Up(s, c, 1) == Some(p);
    }
    assert |s.nodes| >= 1 by {
      assert s.nodes.Keys >= {c};
    }
    var parentRead := GetMatrix(s, s.info, p, World, |s.nodes| - 1);
    assert parentRead.Some? && parentRead.value.0 == ComputeLocal(s.info[p].xf);
  }
}

=== FILE: rounding.dfy ===
/** Conversions between the integer vectors and real-valued components:
    `Math.Round(x, MidpointRounding.AwayFromZero)` followed by an `(int)`
    cast, and the exact widening of an `int` to `double`. Components are
    modelled as mathematical reals. */
module Rounding {
  import opened Wrappers
  import opened Ints

  /** Rounds to the nearest integer; a value exactly halfway between two
      integers goes to the one farther from zero. The two intervals in the
      contract leave exactly one candidate for `n`. */
  function RoundHalfAway(r: real): (n: int)
    ensures r >= 0.0 ==> n >= 0
    ensures r <= 0.0 ==> n <= 0
    ensures r >= 0.0 ==> (n as real) - 0.5 <= r < (n as real) + 0.5
    ensures r < 0.0 ==> (n as real) - 0.5 < r <= (n as real) + 0.5
  {
    if r >= 0.0 then (r + 0.5).Floor else -((-r + 0.5).Floor)
  }

  /** Rounding is odd: a negated input rounds to the negated result. */
  lemma RoundHalfAwayOdd(r: real)
    ensures RoundHalfAway(-r) == -RoundHalfAway(r)
  {
    if r == 0.0 {
    } else if r > 0.0 {
      assert -r < 0.0;
    }
  }

  /** Rounding an integer-valued real gives that integer back. */
  lemma RoundHalfAwayOfInt(k: int)
    ensures RoundHalfAway(k as real) == k
  {
    var n := RoundHalfAway(k as real);
    assert (n as real) - 0.5 <= k as real <= (n as real) + 0.5;
    assert n - 1 < k < n + 1;
  }

  /** The `(int)` cast after rounding: defined only when the rounded value
      fits, since C# leaves an out-of-range cast unspecified. */
  function RoundToInt32(r: real): (o: Option<Int32>)
    ensures o.Some? <==> MinValue <= RoundHalfAway(r) <= MaxValue
    ensures o.Some? ==> o.value as int == RoundHalfAway(r)
  {
    var n := RoundHalfAway(r);
    if MinValue <= n <= MaxValue then Some(n) else None
  }

  /** Widening an `int` to `double` is exact, so it rounds back to itself. */
  lemma WidenThenRound(x: Int32)
    ensures RoundToInt32(x as real) == Some(x)
  {
    RoundHalfAwayOfInt(x);
  }

  /** `(int)Math.Round(c * (1d / Math.Sqrt(ls)))` for a component `c` of a
      vector whose exact squared length `ls` is positive. As
      `|c| <= Math.Sqrt(ls)`, the quotient lies in [-1, 1]; it rounds to a
      non-zero value exactly when it exceeds one half in magnitude, that
      is when `4 c^2 > ls`. No integer vector puts a component exactly at
      one half (`4 c^2 == ls` has no solution with two or three integer
      components), so the rounding mode does not matter here. */
  function RoundedUnit(c: Int32, ls: nat): (u: Int32)
    requires c * c <= ls
    ensures -1 <= u <= 1
    ensures u == 0 || (u > 0 <==> c > 0)
    ensures u != 0 <==> 4 * (c * c) > ls
  {
    if 4 * (c * c) > ls then (if c > 0 then 1 else -1) else 0
  }

  /** The square of -1, 0 or 1 is its absolute value. */
  lemma SmallSquare(c: int)
    requires -1 <= c <= 1
    ensures c * c == AbsInt(c)
  {
    if c == -1 {
    } else if c == 0 {
    } else {
    }
  }

  /** Outside {-1, 0, 1} a square is at least four. */
  lemma SquareBound(c: int)
    ensures -1 <= c <= 1 || c * c >= 4
  {
    if c >= 2 {
      assert c * c >= 2 * c;
    } else if c <= -2 {
      assert c * c >= -2 * c;
    }
  }

  // ---- Rounding a component divided by a length ----

  /** `m / Math.Sqrt(ls)` is at least `k - 1/2`, in integers. */
  predicate AboveLowerHalf(m: nat, ls: nat, k: nat) {
    k == 0 || (2 * k - 1) * (2 * k - 1) * ls < 4 * (m * m)
  }

  /** `m / Math.Sqrt(ls)` is at most `k + 1/2`, in integers. */
  predicate BelowUpperHalf(m: nat, ls: nat, k: nat) {
    4 * (m * m) <= (2 * k + 1) * (2 * k + 1) * ls
  }

  /** The nearest natural number to `m / Math.Sqrt(ls)`, found by counting
      up from `k`; an exact half is rounded down. */
  function RoundUpFrom(m: nat, ls: nat, k: nat): (r: nat)
    requires ls > 0 && AboveLowerHalf(m, ls, k)
    ensures AboveLowerHalf(m, ls, r) && BelowUpperHalf(m, ls, r)
    decreases 4 * (m * m) - k
  {
    if (2 * k + 1) * (2 * k + 1) * ls < 4 * (m * m) then
      MulAtLeast(2 * k + 1, 2 * k + 1);
      MulAtLeast((2 * k + 1) * (2 * k + 1), ls);
      RoundUpFrom(m, ls, k + 1)
    else k
  }

  lemma SquareMono(a: nat, b: nat)
    requires a <= b
    ensures a * a <= b * b
  {
    assert a * a <= a * b <= b * b;
  }

  /** At most one natural number brackets `m / Math.Sqrt(ls)` to within a
      half on both sides. */
  lemma BracketUnique(m: nat, ls: nat, j: nat, k: nat)
    requires ls > 0
    requires AboveLowerHalf(m, ls, j) && BelowUpperHalf(m, ls, j)
    requires AboveLowerHalf(m, ls, k) && BelowUpperHalf(m, ls, k)
    ensures j == k
  {
    if j < k {
      BracketOrder(m, ls, j, k);
    } else if k < j {
      BracketOrder(m, ls, k, j);
    }
  }

  lemma BracketOrder(m: nat, ls: nat, j: nat, k: nat)
    requires ls > 0 && j < k
    requires BelowUpperHalf(m, ls, j)
    ensures !AboveLowerHalf(m, ls, k)
  {
    SquareMono(2 * j + 1, 2 * k - 1);
    var a, b := (2 * j + 1) * (2 * j + 1), (2 * k - 1) * (2 * k - 1);
    assert a * ls <= b * ls;
  }

  /** A bracketed quotient is at most the numerator, since `ls >= 1`. */
  lemma BracketAtMostNumerator(m: nat, ls: nat, k: nat)
    requires ls > 0 && AboveLowerHalf(m, ls, k)
    ensures k <= m
  {
    if k > m {
      SquareMono(2 * m + 1, 2 * k - 1);
      var b := (2 * k - 1) * (2 * k - 1);
      MulAtLeast(b, ls);
    }
  }

  /** `(int)Math.Round(c * (1d / Math.Sqrt(ls)))` for any positive `ls`: the
      nearest integer to `c / Math.Sqrt(ls)`, stated without square roots
      as lying within a half of the quotient on both sides. It keeps the
      sign of `c` and is never larger in magnitude, so the cast always
      succeeds. The double rounding of the scale and the product is not
      modelled, and an exact half is rounded toward zero. */
  function RoundedQuotient(c: Int32, ls: nat): (u: Int32)
    requires ls > 0
    ensures AboveLowerHalf(AbsInt(c), ls, AbsInt(u)) && BelowUpperHalf(AbsInt(c), ls, AbsInt(u))
    ensures AbsInt(u) <= AbsInt(c)
    ensures u == 0 || (u > 0 <==> c > 0)
  {
    var k := RoundUpFrom(AbsInt(c), ls, 0);
    BracketAtMostNumerator(AbsInt(c), ls, k);
    if c < 0 then -(k as int) else k
  }

  /** When `m^2 <= ls` the bracket holds at 1 above a half and at 0 below. */
  lemma UnitBracket(m: nat, ls: nat)
    requires ls > 0 && m * m <= ls
    ensures 4 * (m * m) > ls ==> AboveLowerHalf(m, ls, 1) && BelowUpperHalf(m, ls, 1)
    ensures 4 * (m * m) <= ls ==> AboveLowerHalf(m, ls, 0) && BelowUpperHalf(m, ls, 0)
  {
  }

  /** When `c^2 <= ls` the general rounding is the unit rounding. */
  lemma RoundedQuotientIsUnit(c: Int32, ls: nat)
    requires ls > 0 && c * c <= ls
    ensures RoundedQuotient(c, ls) == RoundedUnit(c, ls)
  {
    var m, u, q := AbsInt(c), RoundedUnit(c, ls), RoundedQuotient(c, ls);
    assert m * m == c * c;
    UnitBracket(m, ls);
    BracketUnique(m, ls, AbsInt(u), AbsInt(q));
  }
}

=== FILE: seqs.dfy ===
/** The `List<T>` operations the element tree relies on, over sequences:
    `IndexOf`, `Remove` (first occurrence), `RemoveAt` and `Insert`. */
module Seqs {

  predicate NoDup<T(==)>(xs: seq<T>) {
    forall i, j :: 0 <= i < j < |xs| ==> xs[i] != xs[j]
  }

  /** `List.IndexOf`: the position of the first occurrence, or -1. */
  function IndexOf<T(==)>(xs: seq<T>, x: T): (i: int)
    ensures i == -1 <==> x !in xs
    ensures i >= 0 ==> i < |xs| && xs[i] == x && x !in xs[..i]
  {
    if |xs| == 0 then -1
    else if xs[0] == x then 0
    else
      var j := IndexOf(xs[1..], x);
      assert xs[1..][..if j < 0 then 0 else j] == xs[1..if j < 0 then 1 else j + 1];
      if j < 0 then -1 else j + 1
  }

  /** In a list without duplicates, the position of an element is its index. */
  lemma IndexOfNoDup<T>(xs: seq<T>, i: int)
    requires NoDup(xs) && 0 <= i < |xs|
    ensures IndexOf(xs, xs[i]) == i
  {
  }

  /** `List.RemoveAt`. */
  function RemoveAt<T>(xs: seq<T>, i: nat): (r: seq<T>)
    requires i < |xs|
    ensures |r| == |xs| - 1
    ensures forall k :: 0 <= k < i ==> r[k] == xs[k]
    ensures forall k :: i <= k < |r| ==> r[k] == xs[k + 1]
    ensures forall y :: y in r ==> y in xs
  {
    xs[..i] + xs[i + 1..]
  }

  /** `List.Insert`: `x` ends up at position `i`, with the later elements
      shifted one place up. */
  function Insert<T>(xs: seq<T>, i: nat, x: T): (r: seq<T>)
    requires i <= |xs|
    ensures |r| == |xs| + 1
    ensures r[i] == x
    ensures forall k :: 0 <= k < i ==> r[k] == xs[k]
    ensures forall k :: i < k < |r| ==> r[k] == xs[k - 1]
    ensures forall y :: y in r ==> y in xs || y == x
  {
    xs[..i] + [x] + xs[i..]
  }

  /** Inserting at the end appends. */
  lemma InsertAtEnd<T>(xs: seq<T>, x: T)
    ensures Insert(xs, |xs|, x) == xs + [x]
  {
    assert xs[..|xs|] == xs && xs[|xs|..] == [];
  }

  /** Putting an element back where it was taken out restores the list. */
  lemma InsertRemoveAt<T>(xs: seq<T>, i: nat)
    requires i < |xs|
    ensures Insert(RemoveAt(xs, i), i, xs[i]) == xs
  {
    assert xs[..i] + [xs[i]] + xs[i + 1..] == xs;
  }

  lemma TakeSnoc<T>(xs: seq<T>, k: nat)
    requires k < |xs|
    ensures xs[..k] + [xs[k]] == xs[..k + 1]
  {
  }

  /** `List.Remove`: drops the first occurrence, if any; says whether it did. */
  function Remove<T(==)>(xs: seq<T>, x: T): (r: (bool, seq<T>))
    ensures r.0 <==> x in xs
    ensures !r.0 ==> r.1 == xs
    ensures r.0 ==> r.1 == RemoveAt(xs, IndexOf(xs, x))
    ensures forall y :: y in r.1 ==> y in xs
  {
    var i := IndexOf(xs, x);
    if i < 0 then (false, xs) else (true, RemoveAt(xs, i))
  }

  /** Removing one element from a list without duplicates leaves exactly the
      other elements, still without duplicates. */
  lemma RemoveAtNoDup<T>(xs: seq<T>, i: nat)
    requires NoDup(xs) && i < |xs|
    ensures NoDup(RemoveAt(xs, i))
    ensures forall y :: y in RemoveAt(xs, i) <==> y in xs && y != xs[i]
  {
    var r := RemoveAt(xs, i);
    forall y | y in xs && y != xs[i]
      ensures y in r
    {
      var k :| 0 <= k < |xs| && xs[k] == y;
      if k < i {
        assert r[k] == y;
      } else {
        assert r[k - 1] == y;
      }
    }
  }

  /** `Remove` on a list without duplicates drops exactly that element. */
  lemma RemoveNoDup<T>(xs: seq<T>, x: T)
    requires NoDup(xs)
    ensures NoDup(Remove(xs, x).1)
    ensures forall y :: y in Remove(xs, x).1 <==> y in xs && y != x
  {
    if x in xs {
      RemoveAtNoDup(xs, IndexOf(xs, x));
    }
  }

  /** Inserting a new element into a list without duplicates keeps it free
      of duplicates and adds exactly that element. */
  lemma InsertNoDup<T>(xs: seq<T>, i: nat, x: T)
    requires NoDup(xs) && i <= |xs| && x !in xs
    ensures NoDup(Insert(xs, i, x))
    ensures forall y :: y in Insert(xs, i, x) <==> y in xs || y == x
  {
    var r := Insert(xs, i, x);
    forall y | y in xs
      ensures y in r
    {
      var k :| 0 <= k < |xs| && xs[k] == y;
      if k < i {
        assert r[k] == y;
      } else {
        assert r[k + 1] == y;
      }
    }
    forall a, b | 0 <= a < b < |r|
      ensures r[a] != r[b]
    {
      if a == i {
        assert r[b] == xs[b - 1];
      } else if b == i {
        assert r[a] == xs[a];
      } else {
        var a' := if a < i then a else a - 1;
        var b' := if b < i then b else b - 1;
        assert r[a] == xs[a'] && r[b] == xs[b'];
      }
    }
  }

  function ToSet<T>(xs: seq<T>): set<T> {
    set x | x in xs
  }

  /** A sequence without duplicates has as many distinct elements as entries. */
  lemma {:induction false} NoDupCard<T>(xs: seq<T>)
    requires NoDup(xs)
    ensures |ToSet(xs)| == |xs|
  {
    if |xs| > 0 {
      var tail := xs[1..];
      assert NoDup(tail) by {
        forall i, j | 0 <= i < j < |tail|
          ensures tail[i] != tail[j]
        {
          assert tail[i] == xs[i + 1] && tail[j] == xs[j + 1];
        }
      }
      NoDupCard(tail);
      assert xs[0] !in tail by {
        forall k | 0 <= k < |tail|
          ensures tail[k] != xs[0]
        {
          assert tail[k] == xs[k + 1];
        }
      }
      assert ToSet(xs) == ToSet(tail) + {xs[0]} by {
        assert xs == [xs[0]] + tail;
      }
    }
  }

  /** A subset is no larger than its superset. */
  lemma {:induction false} SubsetCard<T>(a: set<T>, b: set<T>)
    requires a <= b
    ensures |a| <= |b|
    decreases a
  {
    if a != {} {
      var x :| x in a;
      SubsetCard(a - {x}, b - {x});
    }
  }
}

=== FILE: transform.dfy ===
/** `Transform`: the Position, Rotation and Scale setters, and `Invalidate`,
    which marks the matrix cache dirty on this element and then, depending
    on the direction, on every ancestor or every descendant. The transform
    fields live in a scene's `info` map; the tree is only read. */
module Transforms {
  import opened Wrappers
  import opened Geometry
  import opened Elements
  import opened Tree

  /** `PropagationDirection`: `None`, `Upwards`, `Downwards`. */
  datatype Direction = Nowhere | Upwards | Downwards

  predicate IsDirty(info: map<Id, Info>, n: Id) {
    n in info && info[n].xf.dirty
  }

  /** `b` is `a` with, at most, some dirty flags changed. */
  ghost predicate OnlyDirtyChanged(a: map<Id, Info>, b: map<Id, Info>) {
    b.Keys == a.Keys && forall m :: m in a ==> b[m] == a[m].(xf := a[m].xf.(dirty := b[m].xf.dirty))
  }

  /** `TransformMatrix.Invalidate` on `n`; an element without transform
      fields is left alone. */
  function MarkDirty(info: map<Id, Info>, n: Id): (r: map<Id, Info>)
    ensures OnlyDirtyChanged(info, r)
    ensures forall m :: IsDirty(r, m) <==> IsDirty(info, m) || (m == n && n in info)
  {
    if n in info then info[n := info[n].(xf := info[n].xf.(dirty := true))] else info
  }

  /** `TransformMatrix.Validate` on `n`. */
  function MarkClean(info: map<Id, Info>, n: Id): (r: map<Id, Info>)
    ensures OnlyDirtyChanged(info, r)
    ensures forall m :: IsDirty(r, m) <==> IsDirty(info, m) && m != n
  {
    if n in info then info[n := info[n].(xf := info[n].xf.(dirty := false))] else info
  }

  /** Validating and then invalidating leaves the element dirty, and the
      other way round leaves it clean; no other element is affected. */
  lemma ToggleDirty(info: map<Id, Info>, n: Id)
    requires n in info
    ensures IsDirty(MarkDirty(MarkClean(info, n), n), n)
    ensures !IsDirty(MarkClean(MarkDirty(info, n), n), n)
    ensures forall m :: m != n ==> (IsDirty(MarkDirty(MarkClean(info, n), n), m) <==> IsDirty(info, m))
  {
  }

  // ---- Propagation ----

  /** `n` is `m` or one of its first `fuel` ancestors. */
  ghost predicate Within(s: State, m: Id, n: Id, fuel: nat) {
    exists d: nat :: d <= fuel && Up(s, m, d) == Some(n)
  }

  /** `Invalidate(…, Upwards)`: marks `n`, then recurses on the parent while
      there is one. `fuel` bounds the chain; `Invalidate` passes the size of
      the scene, which no chain of a well-formed scene reaches. */
  function InvalidateUp(s: State, info: map<Id, Info>, n: Id, fuel: nat): (r: map<Id, Info>)
    ensures OnlyDirtyChanged(info, r)
    ensures forall m :: IsDirty(info, m) ==> IsDirty(r, m)
    ensures n in info ==> IsDirty(r, n)
    decreases fuel
  {
    var marked := MarkDirty(info, n);
    match ParentOf(s, n)
    case None => marked
    case Some(p) => if fuel == 0 then marked else InvalidateUp(s, marked, p, fuel - 1)
  }

  /** `Invalidate(…, Downwards)`: marks `n`, then invalidates each child of
      the snapshot `ForEachChild` takes, in order. */
  function InvalidateDown(s: State, info: map<Id, Info>, n: Id, fuel: nat): (r: map<Id, Info>)
    ensures OnlyDirtyChanged(info, r)
    ensures forall m :: IsDirty(info, m) ==> IsDirty(r, m)
    ensures n in info ==> IsDirty(r, n)
    decreases fuel, 0
  {
    var marked := MarkDirty(info, n);
    if fuel == 0 then marked else InvalidateEach(s, marked, ChildrenOf(s, n), fuel - 1)
  }

  function InvalidateEach(s: State, info: map<Id, Info>, kids: seq<Id>, fuel: nat): (r: map<Id, Info>)
    ensures OnlyDirtyChanged(info, r)
    ensures forall m :: IsDirty(info, m) ==> IsDirty(r, m)
    decreases fuel, 1, |kids|
  {
    if kids == [] then info
    else InvalidateEach(s, InvalidateDown(s, info, kids[0], fuel), kids[1..], fuel)
  }

  /** `Transform.Invalidate(properties, direction)` on the transform fields
      `info` of the scene `s`. The properties are not consulted by the code,
      so they are not a parameter here. */
  function InvalidateIn(s: State, info: map<Id, Info>, n: Id, direction: Direction): (r: map<Id, Info>)
    ensures OnlyDirtyChanged(info, r)
    ensures forall m :: IsDirty(info, m) ==> IsDirty(r, m)
    ensures n in info ==> IsDirty(r, n)
  {
    match direction
    case Nowhere => MarkDirty(info, n)
    case Upwards => InvalidateUp(s, info, n, |s.nodes|)
    case Downwards => InvalidateDown(s, info, n, |s.nodes|)
  }

  function Invalidate(s: State, n: Id, direction: Direction): (t: State)
    ensures t.nodes == s.nodes && t.events == s.events
    ensures OnlyDirtyChanged(s.info, t.info)
  {
    s.(info := InvalidateIn(s, s.info, n, direction))
  }

  /** Upwards invalidation marks exactly `n` and its first `fuel` ancestors. */
  lemma {:induction false} UpwardsMarks(s: State, info: map<Id, Info>, n: Id, fuel: nat)
    ensures forall m :: IsDirty(InvalidateUp(s, info, n, fuel), m) <==>
      IsDirty(info, m) || (m in info && Within(s, n, m, fuel))
    decreases fuel
  {
    var marked := MarkDirty(info, n);
    forall m
      ensures IsDirty(InvalidateUp(s, info, n, fuel), m) <==>
        IsDirty(info, m) || (m in info && Within(s, n, m, fuel))
    {
      assert Up(s, n, 0) == Some(n);
      match ParentOf(s, n)
      case None =>
        if Within(s, n, m, fuel) {
          var d: nat :| d <= fuel && Up(s, n, d) == Some(m);
          assert d == 0;
        }
      case Some(p) =>
        if fuel > 0 {
          UpwardsMarks(s, marked, p, fuel - 1);
          if Within(s, n, m, fuel) && m != n {
            var d: nat :| d <= fuel && Up(s, n, d) == Some(m);
            assert Up(s, p, d - 1) == Some(m);
          }
          if Within(s, p, m, fuel - 1) {
            var d: nat :| d <= fuel - 1 && Up(s, p, d) == Some(m);
            assert Up(s, n, d + 1) == Some(m);
          }
        } else if Within(s, n, m, fuel) {
          var d: nat :| d <= fuel && Up(s, n, d) == Some(m);
          assert d == 0;
        }
    }
  }

  /** One step down: `n` is within `fuel` steps above `m` exactly when `m` is
      `n` or `m` is within `fuel - 1` steps below a child of `n`. */
  lemma ChildStep(s: State, n: Id, m: Id, fuel: nat)
    requires Closed(s) && Consistent(s) && fuel > 0
    ensures Within(s, m, n, fuel) <==> m == n || exists c :: c in ChildrenOf(s, n) && Within(s, m, c, fuel - 1)
  {
    assert Up(s, m, 0) == Some(m);
    if Within(s, m, n, fuel) && m != n {
      var d: nat :| d <= fuel && Up(s, m, d) == Some(n);
      UpStep(s, m, d - 1);
      var c := Up(s, m, d - 1).value;
      assert ParentOf(s, c) == Some(n);
      assert c in ChildrenOf(s, n);
      assert Within(s, m, c, fuel - 1);
    }
    if exists c :: c in ChildrenOf(s, n) && Within(s, m, c, fuel - 1) {
      var c :| c in ChildrenOf(s, n) && Within(s, m, c, fuel - 1);
      var d: nat :| d <= fuel - 1 && Up(s, m, d) == Some(c);
      assert n in s.nodes;
      assert ParentOf(s, c) == Some(n);
      UpStep(s, m, d);
      assert Within(s, m, n, fuel);
    }
  }

  /** Downwards invalidation marks exactly `n` and the elements at most
      `fuel` levels below it. */
  lemma {:induction false} DownwardsMarks(s: State, info: map<Id, Info>, n: Id, fuel: nat)
    requires Closed(s) && Consistent(s)
    ensures forall m :: IsDirty(InvalidateDown(s, info, n, fuel), m) <==>
      IsDirty(info, m) || (m in info && Within(s, m, n, fuel))
    decreases fuel, 0
  {
    var marked := MarkDirty(info, n);
    if fuel == 0 {
      forall m
        ensures Within(s, m, n, fuel) <==> m == n
      {
        assert Up(s, m, 0) == Some(m);
      }
    } else {
      EachMarks(s, marked, ChildrenOf(s, n), fuel - 1);
      forall m
        ensures Within(s, m, n, fuel) <==> m == n || exists c :: c in ChildrenOf(s, n) && Within(s, m, c, fuel - 1)
      {
        ChildStep(s, n, m, fuel);
      }
    }
  }

  lemma {:induction false} EachMarks(s: State, info: map<Id, Info>, kids: seq<Id>, fuel: nat)
    requires Closed(s) && Consistent(s)
    ensures forall m :: IsDirty(InvalidateEach(s, info, kids, fuel), m) <==>
      IsDirty(info, m) || (m in info && exists c :: c in kids && Within(s, m, c, fuel))
    decreases fuel, 1, |kids|
  {
    if kids != [] {
      var first := InvalidateDown(s, info, kids[0], fuel);
      DownwardsMarks(s, info, kids[0], fuel);
      EachMarks(s, first, kids[1..], fuel);
      assert forall c :: c in kids <==> c == kids[0] || c in kids[1..];
    }
  }

  /** In a well-formed scene the size of the scene is enough fuel to reach
      every ancestor. */
  lemma WithinScene(s: State, m: Id, n: Id)
    requires Wf(s)
    ensures Within(s, m, n, |s.nodes|) <==> m == n || IsAncestor(s, n, m)
  {
    assert Up(s, m, 0) == Some(m);
    if IsAncestor(s, n, m) {
      var j: nat :| 1 <= j && Up(s, m, j) == Some(n);
      ChainShorterThanScene(s, m, j);
    }
  }

  /** The elements `Invalidate` marks, besides those already dirty. */
  ghost predicate Reached(s: State, n: Id, m: Id, direction: Direction) {
    match direction
    case Nowhere => m == n
    case Upwards => m == n || IsAncestor(s, m, n)
    case Downwards => m == n || IsAncestor(s, n, m)
  }

  /** `Invalidate` marks exactly the element itself (`None`), the element and
      all its ancestors (`Upwards`), or the element and all its descendants
      (`Downwards`); every other flag and every other field stays as it was. */
  lemma InvalidateMarks(s: State, info: map<Id, Info>, n: Id, direction: Direction)
    requires Wf(s)
    ensures forall m :: IsDirty(InvalidateIn(s, info, n, direction), m) <==>
      IsDirty(info, m) || (m in info && Reached(s, n, m, direction))
  {
    match direction
    case Nowhere =>
    case Upwards =>
      UpwardsMarks(s, info, n, |s.nodes|);
      forall m
        ensures Within(s, n, m, |s.nodes|) <==> m == n || IsAncestor(s, m, n)
      {
        WithinScene(s, n, m);
      }
    case Downwards =>
      DownwardsMarks(s, info, n, |s.nodes|);
      forall m
        ensures Within(s, m, n, |s.nodes|) <==> m == n || IsAncestor(s, n, m)
      {
        WithinScene(s, m, n);
      }
  }

  // ---- Setters ----

  /** Stores `xf` as `n`'s transform fields and invalidates downwards, the
      default direction: what each of the three setters does after
      computing the value to store. */
  function Assign(s: State, n: Id, xf: Xf): (t: State)
    requires n in s.info
    ensures t.nodes == s.nodes && t.events == s.events && t.info.Keys == s.info.Keys
    ensures t.info[n] == s.info[n].(xf := xf.(dirty := true))
    ensures forall m :: m in s.info && m != n ==>
      t.info[m] == s.info[m].(xf := s.info[m].xf.(dirty := t.info[m].xf.dirty))
  {
    var stored := s.info[n := s.info[n].(xf := xf)];
    s.(info := InvalidateIn(s, stored, n, Downwards))
  }

  /** The `Position` setter. */
  function SetPosition(s: State, n: Id, value: Vec3f): (t: State)
    requires n in s.info
    ensures n in t.info && t.info[n].xf == s.info[n].xf.(position := value, dirty := true)
  {
    Assign(s, n, s.info[n].xf.(position := value))
  }

  /** The `Scale` setter. */
  function SetScale(s: State, n: Id, value: Vec3f): (t: State)
    requires n in s.info
    ensures n in t.info && t.info[n].xf == s.info[n].xf.(scale := value, dirty := true)
  {
    Assign(s, n, s.info[n].xf.(scale := value))
  }

  function LengthSquared(q: Quat): real {
    q.x * q.x + q.y * q.y + q.z * q.z + q.w * q.w
  }

  /** The `Rotation` setter's test `|q.Length() - 1| > 1e-3`, stated on the
      squared length so that no square root is needed:
      `1.001² = 1.002001` and `0.999² = 0.998001`. */
  predicate NeedsNormalizing(q: Quat): (r: bool)
    ensures LengthSquared(q) == 1.0 ==> !r
    ensures LengthSquared(q) == 0.0 ==> r
  {
    LengthSquared(q) > 1.002001 || LengthSquared(q) < 0.998001
  }

  /** The squared-length test is the setter's test on the length itself. */
  lemma NeedsNormalizingIsLengthTest(q: Quat, length: real)
    requires length >= 0.0 && length * length == LengthSquared(q)
    ensures NeedsNormalizing(q) <==> length - 1.0 > 0.001 || 1.0 - length > 0.001
  {
    if length > 1.001 {
      assert length * length > 1.001 * length;
    } else {
      assert length * length <= 1.001 * length;
    }
    if length < 0.999 {
      assert length * length <= 0.999 * length;
    } else {
      assert length * length >= 0.999 * length;
    }
  }

  /** What the `Rotation` setter stores: the value itself when its length is
      within 1e-3 of 1, otherwise `normalize(value)` (`Quaternion.Normalize`,
      a parameter). */
  function StoredRotation(q: Quat, normalize: Quat -> Quat): (r: Quat)
    ensures !NeedsNormalizing(q) ==> r == q
    ensures NeedsNormalizing(q) ==> r == normalize(q)
  {
    if NeedsNormalizing(q) then normalize(q) else q
  }

  /** A unit quaternion, the identity among them, is stored as given. */
  lemma UnitRotationKept(q: Quat, normalize: Quat -> Quat)
    requires LengthSquared(q) == 1.0
    ensures StoredRotation(q, normalize) == q
    ensures StoredRotation(IdentityRotation, normalize) == IdentityRotation
  {
  }

  /** When `normalize` yields a quaternion close enough to unit length,
      storing the stored rotation again changes nothing. */
  lemma StoredRotationSettles(q: Quat, normalize: Quat -> Quat)
    requires !NeedsNormalizing(normalize(q))
    ensures !NeedsNormalizing(StoredRotation(q, normalize))
    ensures StoredRotation(StoredRotation(q, normalize), normalize) == StoredRotation(q, normalize)
  {
  }

  /** The `Rotation` setter. */
  function SetRotation(s: State, n: Id, value: Quat, normalize: Quat -> Quat): (t: State)
    requires n in s.info
    ensures n in t.info && t.info[n].xf == s.info[n].xf.(rotation := StoredRotation(value, normalize), dirty := true)
  {
    Assign(s, n, s.info[n].xf.(rotation := StoredRotation(value, normalize)))
  }

  /** The `EulerDegrees` setter: assigns `Rotation`, through its
      normalisation, the quaternion `Quaternion.FromEulerDegrees` (a
      parameter) makes of the angles. */
  function SetEulerDegrees(s: State, n: Id, degrees: Vec3f, fromEuler: Vec3f -> Quat, normalize: Quat -> Quat): (t: State)
    requires n in s.info
    ensures n in t.info && t.info[n].xf == s.info[n].xf.(rotation := StoredRotation(fromEuler(degrees), normalize), dirty := true)
    ensures t.nodes == s.nodes && t.events == s.events && t.info.Keys == s.info.Keys
  {
    SetRotation(s, n, fromEuler(degrees), normalize)
  }

  /** The three ways to write a setter's value. */
  datatype Property = Position(p: Vec3f) | Rotation(q: Quat) | Scale(v: Vec3f)

  function Set(s: State, n: Id, value: Property, normalize: Quat -> Quat): (t: State)
    requires n in s.info
  {
    match value
    case Position(v) => SetPosition(s, n, v)
    case Rotation(q) => SetRotation(s, n, q, normalize)
    case Scale(v) => SetScale(s, n, v)
  }

  /** Every setter leaves the tree, the trace and every other field as they
      were, and marks exactly the element and its descendants dirty. */
  lemma SetMarksSubtree(s: State, n: Id, value: Property, normalize: Quat -> Quat)
    requires Wf(s) && n in s.info
    ensures var t := Set(s, n, value, normalize);
      && t.nodes == s.nodes && t.events == s.events && t.info.Keys == s.info.Keys
      && (forall m :: m in s.info && m != n ==> t.info[m] == s.info[m].(xf := s.info[m].xf.(dirty := t.info[m].xf.dirty)))
      && (forall m :: IsDirty(t.info, m) <==> IsDirty(s.info, m) || (m in s.info && (m == n || IsAncestor(s, n, m))))
  {
    var xf := match value
      case Position(v) => s.info[n].xf.(position := v)
      case Rotation(q) => s.info[n].xf.(rotation := StoredRotation(q, normalize))
      case Scale(v) => s.info[n].xf.(scale := v);
    var stored := s.info[n := s.info[n].(xf := xf)];
    assert Set(s, n, value, normalize).info == InvalidateIn(s, stored, n, Downwards);
    InvalidateMarks(s, stored, n, Downwards);
  }

  /** A child validated by hand becomes dirty again when any setter of its
      parent runs. */
  lemma ChildDirtiedByParent(s: State, p: Id, c: Id, value: Property, normalize: Quat -> Quat)
    requires Wf(s) && ParentOf(s, c) == Some(p) && p in s.info && c in s.info
    ensures var validated := s.(info := MarkClean(s.info, c));
      IsDirty(Set(validated, p, value, normalize).info, c)
  {
    var validated := s.(info := MarkClean(s.info, c));
    SameLinksKeepWf(s, validated);
    assert Up(validated, c, 1) == Some(p);
    SetMarksSubtree(validated, p, value, normalize);
  }
}

=== FILE: tree.dfy ===
/** The shape of the element tree: walks up the `Parent` chain, the
    invariants every reachable scene keeps (closed, parent and child links
    agree, no cycles, dense sibling indices), and `IsDescendantOf`. */
module Tree {
  import opened Wrappers
  import opened Seqs
  import opened Elements

  /** The element `k` steps up the parent chain from `n`, if the chain is
      that long; `Up(s, n, 0)` is `n` itself. */
  function Up(s: State, n: Id, k: nat): Option<Id>
    decreases k
  {
    if k == 0 then Some(n)
    else match ParentOf(s, n)
      case None => None
      case Some(p) => Up(s, p, k - 1)
  }

  /** `a` is a proper ancestor of `n`. */
  ghost predicate IsAncestor(s: State, a: Id, n: Id) {
    exists j: nat :: 1 <= j && Up(s, n, j) == Some(a)
  }

  /** Every listed child of `p` is an element of the scene. */
  ghost predicate ChildrenIn(s: State, p: Id) {
    forall c :: c in ChildrenOf(s, p) ==> c in s.nodes
  }

  /** Every parent and every child is an element of the scene. */
  ghost predicate Closed(s: State) {
    && (forall n {:trigger ParentOf(s, n)} :: n in s.nodes && ParentOf(s, n).Some? ==> ParentOf(s, n).value in s.nodes)
    && (forall n {:trigger ChildrenOf(s, n)} :: n in s.nodes ==> ChildrenIn(s, n))
  }

  /** Child lists have no repeats, and `c` is in `p`'s children exactly when
      `c`'s parent is `p`. */
  ghost predicate Consistent(s: State) {
    && (forall n :: n in s.nodes ==> NoDup(ChildrenOf(s, n)))
    && (forall p, c :: p in s.nodes && c in s.nodes ==>
          (c in ChildrenOf(s, p) <==> ParentOf(s, c) == Some(p)))
  }

  /** No element is its own proper ancestor. */
  ghost predicate Acyclic(s: State) {
    forall n, k: nat :: n in s.nodes && 1 <= k ==> Up(s, n, k) != Some(n)
  }

  ghost predicate Wf(s: State) {
    Closed(s) && Consistent(s) && Acyclic(s)
  }

  /** Every child of `p` has its position in `p`'s list as `ParentIndex`. */
  ghost predicate ListIndexed(s: State, p: Id) {
    forall i :: 0 <= i < |ChildrenOf(s, p)| ==> IndexField(s, ChildrenOf(s, p)[i]) == Some(i)
  }

  /** Every child's `ParentIndex` is its position in its parent's list. */
  ghost predicate Indexed(s: State) {
    forall p :: p in s.nodes ==> ListIndexed(s, p)
  }

  // ---- Walking up ----

  lemma {:induction false} UpCompose(s: State, n: Id, a: nat, b: nat)
    ensures Up(s, n, a + b) == match Up(s, n, a) case None => None case Some(m) => Up(s, m, b)
    decreases a
  {
    if a > 0 {
      match ParentOf(s, n)
      case None =>
      case Some(p) =>
        UpCompose(s, p, a - 1, b);
        assert a + b - 1 == (a - 1) + b;
    }
  }

  /** One more step up is the parent of the element reached so far. */
  lemma UpStep(s: State, n: Id, k: nat)
    ensures Up(s, n, k + 1) == match Up(s, n, k) case None => None case Some(m) => ParentOf(s, m)
  {
    UpCompose(s, n, k, 1);
    match Up(s, n, k)
    case None =>
    case Some(m) =>
      assert Up(s, m, 1) == ParentOf(s, m) by {
        match ParentOf(s, m)
        case None =>
        case Some(p) => assert Up(s, m, 1) == Up(s, p, 0);
      }
  }

  /** Once the chain has ended it stays ended. */
  lemma UpEnded(s: State, n: Id, k: nat, j: nat)
    requires Up(s, n, k) == None && k <= j
    ensures Up(s, n, j) == None
  {
    UpCompose(s, n, k, j - k);
  }

  /** In a closed scene the chain only visits elements of the scene. */
  lemma {:induction false} UpInNodes(s: State, n: Id, k: nat)
    requires Closed(s) && n in s.nodes && Up(s, n, k).Some?
    ensures Up(s, n, k).value in s.nodes
    decreases k
  {
    if k > 0 {
      UpInNodes(s, ParentOf(s, n).value, k - 1);
    }
  }

  /** In an acyclic scene a chain never revisits an element. */
  lemma ChainDistinct(s: State, n: Id, i: nat, j: nat)
    requires Closed(s) && Acyclic(s) && n in s.nodes
    requires i < j && Up(s, n, j).Some?
    ensures Up(s, n, i) != Up(s, n, j)
  {
    UpCompose(s, n, i, j - i);
    UpInNodes(s, n, i);
    var m := Up(s, n, i).value;
    assert Up(s, m, j - i) == Up(s, n, j);
  }

  /** Pigeonhole: a chain that is still going after `k` steps has visited
      `k + 1` distinct elements, so `k` is less than the size of the scene. */
  lemma ChainShorterThanScene(s: State, n: Id, k: nat)
    requires Closed(s) && Acyclic(s) && n in s.nodes
    requires Up(s, n, k).Some?
    ensures k < |s.nodes|
  {
    forall i | 0 <= i <= k
      ensures Up(s, n, i).Some?
    {
      if Up(s, n, i) == None {
        UpEnded(s, n, i, k);
      }
    }
    var q := seq(k + 1, i requires 0 <= i <= k => Up(s, n, i).value);
    forall i, j | 0 <= i < j < |q|
      ensures q[i] != q[j]
    {
      ChainDistinct(s, n, i, j);
    }
    NoDupCard(q);
    forall x | x in q
      ensures x in s.nodes.Keys
    {
      var i :| 0 <= i < |q| && q[i] == x;
      UpInNodes(s, n, i);
    }
    SubsetCard(ToSet(q), s.nodes.Keys);
    assert |s.nodes.Keys| == |s.nodes|;
    assert |q| == k + 1;
  }

  /** So in a scene of `N` elements every chain ends within `N` steps, and a
      loop over the parent chain terminates. */
  lemma ChainEnds(s: State, n: Id)
    requires Closed(s) && Acyclic(s) && n in s.nodes
    ensures Up(s, n, |s.nodes|) == None
  {
    if Up(s, n, |s.nodes|).Some? {
      ChainShorterThanScene(s, n, |s.nodes|);
    }
  }

  // ---- IsDescendantOf ----

  /** The `while (current != null)` loop of `IsDescendantOf`, run for at most
      `fuel` more steps. */
  function Walk(s: State, current: Option<Id>, target: Option<Id>, fuel: nat): bool
    decreases fuel
  {
    match current
    case None => false
    case Some(c) =>
      if current == target then true
      else if fuel == 0 then false
      else Walk(s, ParentOf(s, c), target, fuel - 1)
  }

  /** `IsDescendantOf(potentialAncestor)`: walks up from the parent. The
      number of steps is bounded by the size of the scene, which in a
      well-formed scene is never reached (`ChainEnds`). */
  function IsDescendantOf(s: State, n: Id, potentialAncestor: Option<Id>): (r: bool)
    ensures potentialAncestor.None? ==> !r
    ensures ParentOf(s, n).Some? && potentialAncestor == ParentOf(s, n) ==> r
    ensures ParentOf(s, n).None? ==> !r
  {
    WalkMissesNull(s, ParentOf(s, n), |s.nodes|);
    Walk(s, ParentOf(s, n), potentialAncestor, |s.nodes|)
  }

  /** The walk never reaches `null` as its target: it stops there. */
  lemma {:induction false} WalkMissesNull(s: State, current: Option<Id>, fuel: nat)
    ensures !Walk(s, current, None, fuel)
    decreases fuel
  {
    if current.Some? && fuel > 0 {
      WalkMissesNull(s, ParentOf(s, current.value), fuel - 1);
    }
  }

  lemma {:induction false} WalkFinds(s: State, n: Id, i: nat, target: Option<Id>, fuel: nat)
    ensures Walk(s, Up(s, n, i), target, fuel) <==>
      target.Some? && exists j: nat :: i <= j <= i + fuel && Up(s, n, j) == target
    decreases fuel
  {
    match Up(s, n, i)
    case None =>
      forall j: nat | i <= j
        ensures Up(s, n, j) == None
      {
        UpEnded(s, n, i, j);
      }
    case Some(c) =>
      if Up(s, n, i) == target {
      } else if fuel == 0 {
      } else {
        UpStep(s, n, i);
        WalkFinds(s, n, i + 1, target, fuel - 1);
      }
  }

  /** `IsDescendantOf(x)` looks at the first `N` ancestors, `N` being the
      size of the scene. */
  lemma IsDescendantOfWalk(s: State, n: Id, x: Option<Id>)
    ensures IsDescendantOf(s, n, x) <==>
      x.Some? && exists j: nat :: 1 <= j <= 1 + |s.nodes| && Up(s, n, j) == x
  {
    UpStep(s, n, 0);
    WalkFinds(s, n, 1, x, |s.nodes|);
  }

  /** The walk looks only at parent links. */
  lemma {:induction false} WalkSameParents(s: State, t: State, current: Option<Id>, target: Option<Id>, fuel: nat)
    requires forall n :: ParentOf(t, n) == ParentOf(s, n)
    ensures Walk(t, current, target, fuel) == Walk(s, current, target, fuel)
    decreases fuel
  {
    if current.Some? && current != target && fuel > 0 {
      WalkSameParents(s, t, ParentOf(s, current.value), target, fuel - 1);
    }
  }

  /** So `IsDescendantOf` gives the same answer in two scenes of the same size
      whose parent links agree. */
  lemma IsDescendantOfSameParents(s: State, t: State, n: Id, x: Option<Id>)
    requires |t.nodes| == |s.nodes|
    requires forall m :: ParentOf(t, m) == ParentOf(s, m)
    ensures IsDescendantOf(t, n, x) == IsDescendantOf(s, n, x)
  {
    WalkSameParents(s, t, ParentOf(s, n), x, |s.nodes|);
  }

  /** In a well-formed scene `IsDescendantOf(x)` holds exactly when `x` is a
      proper ancestor; so it is false for `null` and for the element itself. */
  lemma IsDescendantOfIsAncestor(s: State, n: Id, x: Option<Id>)
    requires Closed(s) && Acyclic(s) && n in s.nodes
    ensures IsDescendantOf(s, n, x) <==> x.Some? && IsAncestor(s, x.value, n)
    ensures !IsDescendantOf(s, n, None) && !IsDescendantOf(s, n, Some(n))
  {
    IsDescendantOfWalk(s, n, x);
    IsDescendantOfWalk(s, n, None);
    IsDescendantOfWalk(s, n, Some(n));
    if x.Some? && IsAncestor(s, x.value, n) {
      var j: nat :| 1 <= j && Up(s, n, j) == x;
      ChainEnds(s, n);
      if j >= |s.nodes| {
        UpEnded(s, n, |s.nodes|, j);
      }
    }
  }

  // ---- Re-pointing one parent link ----

  /** Two steps up compose: an ancestor of an ancestor is an ancestor. */
  lemma AncestorTransitive(s: State, a: Id, b: Id, n: Id)
    requires IsAncestor(s, a, b) && IsAncestor(s, b, n)
    ensures IsAncestor(s, a, n)
  {
    var i: nat :| 1 <= i && Up(s, b, i) == Some(a);
    var j: nat :| 1 <= j && Up(s, n, j) == Some(b);
    UpCompose(s, n, j, i);
    assert 1 <= j + i;
  }

  /** In a well-formed scene `IsDescendantOf` is a strict partial order:
      irreflexive, transitive and hence asymmetric. */
  lemma IsDescendantOfStrictOrder(s: State, a: Id, b: Id, c: Id)
    requires Closed(s) && Acyclic(s) && a in s.nodes && b in s.nodes && c in s.nodes
    ensures !IsDescendantOf(s, a, Some(a))
    ensures IsDescendantOf(s, a, Some(b)) && IsDescendantOf(s, b, Some(c)) ==> IsDescendantOf(s, a, Some(c))
    ensures IsDescendantOf(s, a, Some(b)) ==> !IsDescendantOf(s, b, Some(a))
  {
    IsDescendantOfIsAncestor(s, a, Some(a));
    IsDescendantOfIsAncestor(s, a, Some(b));
    IsDescendantOfIsAncestor(s, b, Some(c));
    IsDescendantOfIsAncestor(s, a, Some(c));
    IsDescendantOfIsAncestor(s, b, Some(a));
    if IsAncestor(s, b, a) && IsAncestor(s, c, b) {
      AncestorTransitive(s, c, b, a);
    }
    if IsAncestor(s, b, a) && IsAncestor(s, a, b) {
      AncestorTransitive(s, a, b, a);
    }
  }

  /** `t` differs from `s` at most in the parent of `c`. */
  ghost predicate ParentsAgreeExcept(s: State, t: State, c: Id) {
    && t.nodes.Keys == s.nodes.Keys
    && forall n :: n in s.nodes && n != c ==> ParentOf(t, n) == ParentOf(s, n)
  }

  /** A walk that has not yet reached `c` is the same walk before and after
      re-pointing `c`. */
  lemma {:induction false} UpAvoiding(s: State, t: State, c: Id, n: Id, j: nat)
    requires ParentsAgreeExcept(s, t, c)
    requires forall i: nat :: i < j ==> Up(t, n, i) != Some(c)
    ensures Up(t, n, j) == Up(s, n, j)
    decreases j
  {
    if j > 0 {
      UpAvoiding(s, t, c, n, j - 1);
      UpStep(s, n, j - 1);
      UpStep(t, n, j - 1);
    }
  }

  /** Re-pointing `c` at a parent that is neither `c` nor one of its
      descendants keeps the scene acyclic. */
  lemma ReparentKeepsAcyclic(s: State, t: State, c: Id, np: Option<Id>)
    requires Acyclic(s) && c in s.nodes
    requires ParentsAgreeExcept(s, t, c) && ParentOf(t, c) == np
    requires np != Some(c)
    requires np.Some? ==> !IsAncestor(s, c, np.value)
    ensures Acyclic(t)
  {
    forall n, k: nat | n in t.nodes && 1 <= k
      ensures Up(t, n, k) != Some(n)
    {
      if Up(t, n, k) == Some(n) {
        if i: nat :| i < k && Up(t, n, i) == Some(c) {
          UpCompose(t, n, i, k);
          UpCompose(t, n, k, i);
          assert i + k == k + i;
          NoCycleThroughC(s, t, c, np, k);
        } else {
          UpAvoiding(s, t, c, n, k);
        }
      }
    }
  }

  /** The heart of `ReparentKeepsAcyclic`: a cycle through the re-pointed
      element would make its new parent one of its old descendants. */
  lemma NoCycleThroughC(s: State, t: State, c: Id, np: Option<Id>, k: nat)
    requires Acyclic(s) && c in s.nodes
    requires ParentsAgreeExcept(s, t, c) && ParentOf(t, c) == np
    requires np != Some(c)
    requires np.Some? ==> !IsAncestor(s, c, np.value)
    requires 1 <= k
    ensures Up(t, c, k) != Some(c)
  {
    if Up(t, c, k) == Some(c) {
      UpCompose(t, c, 1, k - 1);
      UpStep(t, c, 0);
      var p := np.value;
      var j: nat := 0;
      while Up(t, p, j) != Some(c)
        invariant j <= k - 1
        invariant forall i: nat :: i < j ==> Up(t, p, i) != Some(c)
        decreases k - 1 - j
      {
        j := j + 1;
      }
      UpAvoiding(s, t, c, p, j);
    }
  }

  // ---- Scenes with the same links ----

  /** Walks up the chain see only parent links. */
  lemma {:induction false} UpSameParents(s: State, t: State, n: Id, k: nat)
    requires forall m :: ParentOf(t, m) == ParentOf(s, m)
    ensures Up(t, n, k) == Up(s, n, k)
    decreases k
  {
    if k > 0 {
      UpSameParents(s, t, n, k - 1);
      UpStep(s, n, k - 1);
      UpStep(t, n, k - 1);
    }
  }

  /** The invariants look only at the links: a scene with the same elements,
      parents and child lists as a well-formed one is well formed. */
  lemma SameLinksKeepWf(s: State, t: State)
    requires Wf(s) && t.nodes.Keys == s.nodes.Keys
    requires forall m :: ParentOf(t, m) == ParentOf(s, m) && ChildrenOf(t, m) == ChildrenOf(s, m)
    ensures Wf(t)
  {
    forall n, k: nat | n in t.nodes && 1 <= k
      ensures Up(t, n, k) != Some(n)
    {
      UpSameParents(s, t, n, k);
    }
  }

  /** Re-pointing `c` leaves the chain above `n` as it was when `c` is not
      on it. */
  lemma {:induction false} AncestorsKept(s: State, t: State, c: Id, n: Id, j: nat)
    requires ParentsAgreeExcept(s, t, c)
    requires forall i: nat :: Up(s, n, i) != Some(c)
    ensures Up(t, n, j) == Up(s, n, j)
    decreases j
  {
    if j > 0 {
      AncestorsKept(s, t, c, n, j - 1);
      UpStep(s, n, j - 1);
      UpStep(t, n, j - 1);
    }
  }

  /** In an acyclic scene an element is not on the chain above its parent. */
  lemma NotAboveParent(s: State, c: Id, p: Id)
    requires Acyclic(s) && c in s.nodes && ParentOf(s, c) == Some(p)
    ensures forall i: nat :: Up(s, p, i) != Some(c)
  {
    forall i: nat
      ensures Up(s, p, i) != Some(c)
    {
      UpCompose(s, c, 1, i);
      UpStep(s, c, 0);
      assert 1 + i >= 1;
    }
  }
}

=== FILE: vector2.dfy ===
/** The generic two-dimensional vector helpers of `MathE` instantiated at
    C#'s `int`; the counterpart of `Vector3Ops` without a cross product. */
module Vector2Ops {
  import opened Wrappers
  import opened Ints

  datatype V2 = V2(x: Int32, y: Int32)

  const Zero: V2 := V2(0, 0)

  function WithX(v: V2, x: Int32): (r: V2)
    ensures r.x == x && r.y == v.y
  {
    V2(x, v.y)
  }

  function WithY(v: V2, y: Int32): (r: V2)
    ensures r.x == v.x && r.y == y
  {
    V2(v.x, y)
  }

  /** Replacing a component by its own value changes nothing, a later
      replacement wins, and replacements of different components commute. */
  lemma WithLaws(v: V2, a: Int32, b: Int32)
    ensures WithX(v, v.x) == v && WithY(v, v.y) == v
    ensures WithX(WithX(v, a), b) == WithX(v, b)
    ensures WithY(WithY(v, a), b) == WithY(v, b)
    ensures WithX(WithY(v, b), a) == WithY(WithX(v, a), b)
  {
  }

  // ---- Arithmetic ----

  function Add(a: V2, b: V2): (r: V2)
    ensures Wraps(r.x, a.x + b.x) && Wraps(r.y, a.y + b.y)
  {
    V2(Add32(a.x, b.x), Add32(a.y, b.y))
  }

  function Subtract(a: V2, b: V2): (r: V2)
    ensures Wraps(r.x, a.x - b.x) && Wraps(r.y, a.y - b.y)
  {
    V2(Sub32(a.x, b.x), Sub32(a.y, b.y))
  }

  function Multiply(v: V2, s: Int32): (r: V2)
    ensures Wraps(r.x, v.x * s) && Wraps(r.y, v.y * s)
  {
    V2(Mul32(v.x, s), Mul32(v.y, s))
  }

  function Negate(v: V2): (r: V2)
    ensures Wraps(r.x, -(v.x as int)) && Wraps(r.y, -(v.y as int))
  {
    V2(Neg32(v.x), Neg32(v.y))
  }

  predicate HasMinValue(v: V2) {
    v.x == MinValue || v.y == MinValue
  }

  /** Component-wise `/`; the first component that throws decides the error. */
  function Divide(v: V2, s: Int32): (r: Result<V2, ArithError>)
    ensures r == Err(DivideByZero) <==> s == 0
    ensures r == Err(Overflow) <==> s == -1 && HasMinValue(v)
    ensures r.Ok? ==> r.value.x == TruncDiv(v.x, s) && r.value.y == TruncDiv(v.y, s)
  {
    var x :- Div32(v.x, s);
    var y :- Div32(v.y, s);
    Ok(V2(x, y))
  }

  /** Component-wise `%`, which throws exactly where `/` does. */
  function Modulus(v: V2, s: Int32): (r: Result<V2, ArithError>)
    ensures r.Err? <==> Divide(v, s).Err?
    ensures r.Err? ==> r.error == Divide(v, s).error
    ensures r.Ok? ==> AbsInt(r.value.x) < AbsInt(s) && AbsInt(r.value.y) < AbsInt(s)
  {
    var x :- Rem32(v.x, s);
    var y :- Rem32(v.y, s);
    Ok(V2(x, y))
  }

  /** Quotient and remainder reassemble the dividend: `(v / s) * s + v % s == v`. */
  lemma DivideModulusReassemble(v: V2, s: Int32)
    requires Divide(v, s).Ok?
    ensures Modulus(v, s).Ok?
    ensures Add(Multiply(Divide(v, s).value, s), Modulus(v, s).value) == v
  {
    var q := Divide(v, s).value;
    var m := Modulus(v, s).value;
    TruncDivBound(v.x, s);
    TruncDivBound(v.y, s);
    assert m.x == v.x - s * q.x;
    assert m.y == v.y - s * q.y;
  }

  /** `Subtract` undoes `Add`, even when the sum wraps. */
  lemma SubtractUndoesAdd(a: V2, b: V2)
    ensures Subtract(Add(a, b), b) == a
  {
    AddSubCancel(a.x, b.x);
    AddSubCancel(a.y, b.y);
  }

  /** `Negate` is an involution, even on `int.MinValue` components. */
  lemma NegateInvolution(a: V2)
    ensures Negate(Negate(a)) == a
  {
    NegNeg(a.x);
    NegNeg(a.y);
  }

  function Dot(a: V2, b: V2): (r: Int32)
    ensures Wraps(r, a.x * b.x + a.y * b.y)
  {
    SumOfProducts2(a.x, b.x, a.y, b.y);
    Add32(Mul32(a.x, b.x), Mul32(a.y, b.y))
  }

  lemma DotCommutes(a: V2, b: V2)
    ensures Dot(a, b) == Dot(b, a)
  {
    assert a.x * b.x == b.x * a.x && a.y * b.y == b.y * a.y;
  }

  /** Rotating by a quarter turn gives a perpendicular vector, even when
      the products wrap. */
  lemma DotQuarterTurnIsZero(a: V2)
    ensures Dot(a, V2(a.y, Neg32(a.x))) == 0
  {
    var e: int := -(a.x as int);
    var b := V2(a.y, Neg32(a.x));
    assert b.y == Wrap(e);
    SumOfWrappedProducts2(a.x, a.y, a.y, e);
    var s: int := a.x * a.y + a.y * e;
    assert s == 0 by {
      assert a.y * e == -(a.x * a.y);
    }
    assert Dot(a, b) == Wrap(s);
  }

  /** The perpendicular pair the unit tests check. */
  lemma DotPerpendicularExample()
    ensures Dot(V2(1, 2), V2(2, -1)) == 0
  {
  }

  // ---- Component-wise helpers ----

  /** `Abs` throws on the first `int.MinValue` component. */
  function Abs(v: V2): (r: Result<V2, ArithError>)
    ensures r.Err? <==> HasMinValue(v)
    ensures r.Ok? ==> 0 <= r.value.x && 0 <= r.value.y
    ensures r.Ok? ==> AbsInt(r.value.x) == AbsInt(v.x) && AbsInt(r.value.y) == AbsInt(v.y)
  {
    var x :- Abs32(v.x);
    var y :- Abs32(v.y);
    Ok(V2(x, y))
  }

  predicate LessEq(a: V2, b: V2) {
    a.x <= b.x && a.y <= b.y
  }

  /** `Clamp` throws when some lower bound exceeds its upper bound. */
  function Clamp(v: V2, min: V2, max: V2): (r: Result<V2, ArithError>)
    ensures r.Err? <==> !LessEq(min, max)
    ensures r.Ok? ==> LessEq(min, r.value) && LessEq(r.value, max)
    ensures r.Ok? && LessEq(min, v) && LessEq(v, max) ==> r.value == v
  {
    var x :- Clamp32(v.x, min.x, max.x);
    var y :- Clamp32(v.y, min.y, max.y);
    Ok(V2(x, y))
  }

  function Min(a: V2, b: V2): (r: V2)
    ensures LessEq(r, a) && LessEq(r, b)
    ensures (r.x == a.x || r.x == b.x) && (r.y == a.y || r.y == b.y)
  {
    V2(Min32(a.x, b.x), Min32(a.y, b.y))
  }

  function Max(a: V2, b: V2): (r: V2)
    ensures LessEq(a, r) && LessEq(b, r)
    ensures (r.x == a.x || r.x == b.x) && (r.y == a.y || r.y == b.y)
  {
    V2(Max32(a.x, b.x), Max32(a.y, b.y))
  }

  lemma MinMaxCommute(a: V2, b: V2)
    ensures Min(a, b) == Min(b, a)
    ensures Max(a, b) == Max(b, a)
  {
  }

  // ---- Lengths ----

  /** Squared length exactly as the C# generic helper computes it at `int`:
      formed in wrapping `int` arithmetic, then converted to `double`. */
  function LengthSquaredAsWritten(v: V2): (r: Int32)
    ensures Wraps(r, LengthSquared(v))
  {
    SumOfProducts2(v.x, v.x, v.y, v.y);
    Add32(Mul32(v.x, v.x), Mul32(v.y, v.y))
  }

  /** `(65536, 0)` is non-zero, yet its squared length wraps to zero. */
  lemma LengthSquaredAsWrittenVanishes()
    ensures LengthSquaredAsWritten(V2(65536, 0)) == 0
    ensures V2(65536, 0) != Zero
  {
    assert Mul32(65536, 65536) == Wrap(TwoTo32);
    WrapCongruent(TwoTo32, 0);
  }

  /** `(int.MaxValue, 0)` is far from unit length, yet its squared length
      wraps to exactly one: `(2^31 - 1)^2 = 2^62 - 2^32 + 1`. */
  lemma LengthSquaredAsWrittenIsOne()
    ensures LengthSquaredAsWritten(V2(MaxValue, 0)) == 1
    ensures LengthSquared(V2(MaxValue, 0)) > MaxValue
  {
    CongruentByMultiple(MaxValue * MaxValue, 1, 0x4000_0000 - 1);
    WrapCongruent(MaxValue * MaxValue, 1);
  }

  /** `(46341, 0)` has a negative squared length as written:
      `46341^2 = 2^32 - 2147479015`. */
  lemma LengthSquaredAsWrittenNegative()
    ensures LengthSquaredAsWritten(V2(46341, 0)) == -2147479015
    ensures LengthSquared(V2(46341, 0)) > MaxValue
  {
    Square46341Wraps();
  }

  /** Squared length computed exactly, as intended; used by the rest of
      this model. */
  function LengthSquared(v: V2): (r: nat)
    ensures r == 0 <==> v == Zero
  {
    v.x * v.x + v.y * v.y
  }

  /** The exact squared length and the wrapped one agree modulo 2^32. */
  lemma LengthSquaredWraps(v: V2)
    ensures LengthSquaredAsWritten(v) == Wrap(LengthSquared(v))
    ensures LengthSquaredAsWritten(v) == Dot(v, v)
  {
    SumOfProducts2(v.x, v.x, v.y, v.y);
  }

  /** The generic `Normalize` at `int`: zero maps to zero; otherwise the
      vector is scaled by `int.CreateTruncating(1 / length)`, which is 1 for
      a unit vector and 0 for any longer one. */
  function Normalize(v: V2): (r: V2)
    ensures v == Zero ==> r == Zero
    ensures r == Zero || (r == v && LengthSquared(v) == 1)
    ensures LengthSquared(v) == 1 ==> r == v
  {
    var ls := LengthSquared(v);
    if ls == 0 then Zero
    else Multiply(v, InverseLengthTruncated(ls))
  }

  lemma NormalizeIdempotent(v: V2)
    ensures Normalize(Normalize(v)) == Normalize(v)
  {
  }

  /** The generic `ProjectOnto` at `int`: zero for a zero normal, otherwise
      the normal scaled by the truncated ratio `Dot(v, n) / |n|^2`. */
  function ProjectOnto(v: V2, n: V2): (r: V2)
    ensures n == Zero ==> r == Zero
  {
    var ls := LengthSquared(n);
    if ls == 0 then Zero
    else Multiply(n, TruncRatio(Dot(v, n), ls))
  }

  /** A normal whose squared length fits in an `int` projects onto itself. */
  lemma ProjectOntoSelf(n: V2)
    requires 0 < LengthSquared(n) <= MaxValue
    ensures ProjectOnto(n, n) == n
  {
    LengthSquaredWraps(n);
    assert TruncDiv(Dot(n, n), LengthSquared(n)) == 1;
  }

  /** A dot product of zero projects to the zero vector. */
  lemma ProjectOntoOrthogonal(v: V2, n: V2)
    requires Dot(v, n) == 0
    ensures ProjectOnto(v, n) == Zero
    ensures ProjectOntoAsWritten(v, n) == Zero
  {
  }

  // ---- Normalize and ProjectOnto on the wrapped squared length ----

  /** The generic `Normalize` at `int` as the code computes it, on the
      wrapped squared length. A negative wrapped value makes the length NaN,
      and `int.CreateTruncating` of a NaN scale is not the same on every
      runtime, so that case has no value here. */
  function NormalizeAsWritten(v: V2): (r: Option<V2>)
    ensures r.None? <==> LengthSquaredAsWritten(v) < 0
    ensures r.Some? ==> r.value == Zero || (r.value == v && LengthSquaredAsWritten(v) == 1)
    ensures LengthSquaredAsWritten(v) == 1 ==> r == Some(v)
  {
    var ls := LengthSquaredAsWritten(v);
    if ls < 0 then None
    else if ls == 0 then Some(Zero)
    else Some(Multiply(v, InverseLengthTruncated(ls)))
  }

  /** Whenever the exact squared length fits in an `int`, the code's
      `Normalize` and the corrected one agree. */
  lemma NormalizeAgreesWhenFits(v: V2)
    requires LengthSquared(v) <= MaxValue
    ensures NormalizeAsWritten(v) == Some(Normalize(v))
  {
    LengthSquaredWraps(v);
  }

  /** The code's `Normalize` is idempotent too, wherever it has a value. */
  lemma NormalizeAsWrittenIdempotent(v: V2)
    requires NormalizeAsWritten(v).Some?
    ensures NormalizeAsWritten(NormalizeAsWritten(v).value) == NormalizeAsWritten(v)
  {
  }

  /** `(int.MaxValue, 0)`: its wrapped squared length is 1, so the code
      returns it unchanged, where the corrected `Normalize` gives zero. */
  lemma NormalizeAsWrittenKeepsMaxValue()
    ensures NormalizeAsWritten(V2(MaxValue, 0)) == Some(V2(MaxValue, 0))
    ensures Normalize(V2(MaxValue, 0)) == Zero
  {
    LengthSquaredAsWrittenIsOne();
  }

  /** The generic `ProjectOnto` at `int` as the code computes it: the wrapped
      dot product over the wrapped squared length, which may be negative. */
  function ProjectOntoAsWritten(v: V2, n: V2): (r: V2)
    ensures LengthSquaredAsWritten(n) == 0 ==> r == Zero
    ensures n == Zero ==> r == Zero
  {
    var ls := LengthSquaredAsWritten(n);
    if ls == 0 then Zero
    else Multiply(n, TruncRatio(Dot(v, n), ls))
  }

  /** Whenever the normal's exact squared length fits in an `int`, the
      code's `ProjectOnto` and the corrected one agree. */
  lemma ProjectOntoAgreesWhenFits(v: V2, n: V2)
    requires LengthSquared(n) <= MaxValue
    ensures ProjectOntoAsWritten(v, n) == ProjectOnto(v, n)
  {
    LengthSquaredWraps(n);
  }

  /** `(2, 0)` onto `(65537, 0)`: the wrapped squared length 131073 is just
      below the dot product 131074, so the code returns the normal itself,
      where the corrected projection gives zero. */
  lemma ProjectOntoAsWrittenDiffers()
    ensures ProjectOntoAsWritten(V2(2, 0), V2(65537, 0)) == V2(65537, 0)
    ensures ProjectOnto(V2(2, 0), V2(65537, 0)) == Zero
  {
    Square65537Wraps();
    assert LengthSquaredAsWritten(V2(65537, 0)) == 131073;
    assert Dot(V2(2, 0), V2(65537, 0)) == 131074;
  }

  /** `(65536, 0)` has wrapped squared length zero, so the code projects
      every vector onto it as zero. */
  lemma ProjectOntoAsWrittenVanishes(v: V2)
    ensures ProjectOntoAsWritten(v, V2(65536, 0)) == Zero
  {
    LengthSquaredAsWrittenVanishes();
  }

  /** Squared distance: the (wrapping) difference, measured exactly. */
  function DistanceSquared(a: V2, b: V2): (r: nat)
    ensures r == 0 <==> a == b
  {
    SubZero(a.x, b.x);
    SubZero(a.y, b.y);
    LengthSquared(Subtract(a, b))
  }

  /** `DistanceSquared` as the code computes it: the wrapped squared length
      of the wrapped difference. */
  function DistanceSquaredAsWritten(a: V2, b: V2): (r: Int32)
    ensures Wraps(r, DistanceSquared(a, b))
    ensures a == b ==> r == 0
  {
    LengthSquaredAsWritten(Subtract(a, b))
  }

  /** As written, `(65536, 0)` is at squared distance 0 from the origin. */
  lemma DistanceSquaredAsWrittenVanishes()
    ensures DistanceSquaredAsWritten(V2(65536, 0), Zero) == 0
    ensures DistanceSquared(V2(65536, 0), Zero) != 0
  {
    var v := V2(65536, 0);
    assert DistanceSquared(v, Zero) != 0 by {
      assert v != Zero;
    }
    assert DistanceSquaredAsWritten(v, Zero) == 0 by {
      assert Subtract(v, Zero) == v by {
        SubZero(v.x, 0);
      }
      LengthSquaredAsWrittenVanishes();
    }
  }

  lemma DistanceSquaredSymmetric(a: V2, b: V2)
    ensures DistanceSquared(a, b) == DistanceSquared(b, a)
  {
    NegSub(a.x, b.x);
    NegSub(a.y, b.y);
    NegatePreservesSquares(Sub32(a.x, b.x));
    NegatePreservesSquares(Sub32(a.y, b.y));
  }
}

=== FILE: vector2i.dfy ===
/** The concrete integer vector `Vector2i`. Its operators (`+`, binary and
    unary `-`, scalar `*` on either side, `/`, `%`) are the generic helpers
    of `Vector2Ops` applied to the same datatype; the type adds a rounding
    `Normalize`, constants, and a rounding conversion from real components. */
module IntVector2 {
  import opened Wrappers
  import opened Ints
  import opened Rounding
  import V = Vector2Ops

  type V2 = V.V2

  const One: V2 := V.V2(1, 1)
  const UnitX: V2 := V.V2(1, 0)
  const UnitY: V2 := V.V2(0, 1)

  /** The one-argument constructor: both components set to `scale`. */
  function Splat(scale: Int32): (r: V2)
    ensures r.x == scale && r.y == scale
  {
    V.V2(scale, scale)
  }

  /** The unit vectors are orthogonal ... */
  lemma UnitsOrthogonal()
    ensures V.Dot(UnitX, UnitY) == 0
  {
    SumOfProducts2(1, 0, 0, 1);
  }

  /** ... and of length one. */
  lemma UnitsHaveLengthOne()
    ensures V.LengthSquared(UnitX) == 1 && V.LengthSquared(UnitY) == 1
  {
  }

  /** `One` is the sum of the unit vectors, and the one-argument constructor
      gives `One` and `Zero` back. */
  lemma OneIsSumOfUnits()
    ensures V.Add(UnitX, UnitY) == One
    ensures Splat(1) == One && Splat(0) == V.Zero
  {
  }

  /** Always true for integer components. */
  predicate IsFinite(v: V2) {
    true
  }

  predicate UnitComponents(v: V2) {
    -1 <= v.x <= 1 && -1 <= v.y <= 1
  }

  /** Each component of `r` is zero or has the sign of the same component of `v`. */
  predicate SignsAgree(v: V2, r: V2) {
    (r.x == 0 || (r.x > 0 <==> v.x > 0)) &&
    (r.y == 0 || (r.y > 0 <==> v.y > 0))
  }

  /** The rounding `Normalize` of `Vector2i`: a zero-length vector is returned
      unchanged; otherwise each component is scaled by the inverse length and
      rounded. The result is a non-zero vector of components in {-1, 0, 1}
      pointing into the same quadrant. */
  function Normalize(v: V2): (r: V2)
    ensures v == V.Zero ==> r == v
    ensures v != V.Zero ==> UnitComponents(r) && SignsAgree(v, r) && r != V.Zero
  {
    var ls := V.LengthSquared(v);
    if ls == 0 then v
    else
      var xx, yy := v.x * v.x, v.y * v.y;
      assert 4 * xx > xx + yy || 4 * yy > xx + yy;
      V.V2(RoundedUnit(v.x, ls), RoundedUnit(v.y, ls))
  }

  /** A vector of components in {-1, 0, 1} is its own normalization. */
  lemma {:induction false} NormalizeFixesUnitComponents(u: V2)
    requires UnitComponents(u)
    ensures Normalize(u) == u
  {
    SmallSquare(u.x);
    SmallSquare(u.y);
  }

  lemma NormalizeIdempotent(v: V2)
    ensures Normalize(Normalize(v)) == Normalize(v)
  {
    if v != V.Zero {
      NormalizeFixesUnitComponents(Normalize(v));
    }
  }

  /** For a vector of length one, the rounding `Normalize` of this type and
      the truncating generic `Normalize` agree. */
  lemma NormalizeAgreesOnUnitVectors(v: V2)
    requires V.LengthSquared(v) == 1
    ensures Normalize(v) == V.Normalize(v) == v
  {
    assert v.x * v.x <= 1 && v.y * v.y <= 1;
    assert UnitComponents(v) by {
      SquareBound(v.x);
      SquareBound(v.y);
    }
    NormalizeFixesUnitComponents(v);
    SmallSquare(v.x);
    SmallSquare(v.y);
  }

  // ---- Normalize on the wrapped squared length ----

  /** The rounding `Normalize` of `Vector2i` as the code computes it, on the
      wrapped squared length. A zero wrapped length returns the vector
      unchanged; a negative one makes the length NaN, whose `(int)` cast is
      unspecified, so that case has no value here. Otherwise each component
      is rounded from `c / length`, which can be far from {-1, 0, 1}. */
  function NormalizeAsWritten(v: V2): (r: Option<V2>)
    ensures r.None? <==> V.LengthSquaredAsWritten(v) < 0
    ensures V.LengthSquaredAsWritten(v) == 0 ==> r == Some(v)
    ensures r.Some? ==> SignsAgree(v, r.value)
    ensures r.Some? ==> AbsInt(r.value.x) <= AbsInt(v.x) && AbsInt(r.value.y) <= AbsInt(v.y)
  {
    var ls := V.LengthSquaredAsWritten(v);
    if ls < 0 then None
    else if ls == 0 then Some(v)
    else Some(V.V2(RoundedQuotient(v.x, ls), RoundedQuotient(v.y, ls)))
  }

  /** Whenever the exact squared length fits in an `int`, the code's
      `Normalize` and the corrected one agree. */
  lemma NormalizeAgreesWhenFits(v: V2)
    requires V.LengthSquared(v) <= MaxValue
    ensures NormalizeAsWritten(v) == Some(Normalize(v))
  {
    V.LengthSquaredWraps(v);
    var ls := V.LengthSquared(v);
    if ls > 0 {
      RoundedQuotientIsUnit(v.x, ls);
      RoundedQuotientIsUnit(v.y, ls);
    }
  }

  /** `(65536, 0)` has wrapped squared length 0, so the code returns it
      unchanged, where the corrected `Normalize` gives `UnitX`. */
  lemma NormalizeAsWrittenKeepsWrappedZero()
    ensures NormalizeAsWritten(V.V2(65536, 0)) == Some(V.V2(65536, 0))
    ensures Normalize(V.V2(65536, 0)) == UnitX
  {
    V.LengthSquaredAsWrittenVanishes();
  }

  /** `(65537, 0)` has wrapped squared length 131073, so the code gives
      `(181, 0)`, and normalizing that again gives `(1, 0)`: the code's
      `Normalize` is not idempotent. The corrected one gives `UnitX` at once. */
  lemma NormalizeAsWrittenNotIdempotent()
    ensures NormalizeAsWritten(V.V2(65537, 0)) == Some(V.V2(181, 0))
    ensures NormalizeAsWritten(V.V2(181, 0)) == Some(UnitX)
    ensures Normalize(V.V2(65537, 0)) == UnitX
  {
    Square65537Wraps();
    var ls := V.LengthSquaredAsWritten(V.V2(65537, 0));
    assert ls == 131073;
    BracketUnique(65537, ls, AbsInt(RoundedQuotient(65537, ls)), 181);
    assert RoundedQuotient(0, ls) == 0;
    var ls' := V.LengthSquaredAsWritten(V.V2(181, 0));
    assert ls' == 32761;
    BracketUnique(181, ls', AbsInt(RoundedQuotient(181, ls')), 1);
    assert RoundedQuotient(0, ls') == 0;
  }

  /** A `Vector2d` (or `Vector2`), with components as reals. */
  datatype D2 = D2(x: real, y: real)

  /** The implicit conversion from `Vector2d`/`Vector2`: each component is
      rounded half away from zero and cast to `int`; `None` where a rounded
      component does not fit, a case C# leaves unspecified. */
  function FromDouble(d: D2): (o: Option<V2>)
    ensures o.Some? <==> RoundToInt32(d.x).Some? && RoundToInt32(d.y).Some?
    ensures o.Some? ==> o.value.x == RoundHalfAway(d.x) && o.value.y == RoundHalfAway(d.y)
  {
    var x :- RoundToInt32(d.x);
    var y :- RoundToInt32(d.y);
    Some(V.V2(x, y))
  }

  /** Integer-valued components convert back to themselves. */
  lemma FromDoubleOfIntegers(v: V2)
    ensures FromDouble(D2(v.x as real, v.y as real)) == Some(v)
  {
    WidenThenRound(v.x);
    WidenThenRound(v.y);
  }

  /** Conversion commutes with negation, as rounding half away from zero is odd. */
  lemma FromDoubleNegate(d: D2)
    requires FromDouble(d).Some?
    requires !V.HasMinValue(FromDouble(d).value)
    ensures FromDouble(D2(-d.x, -d.y)) == Some(V.Negate(FromDouble(d).value))
  {
    RoundHalfAwayOdd(d.x);
    RoundHalfAwayOdd(d.y);
  }
}

=== FILE: vector3.dfy ===
/** The generic three-dimensional vector helpers (`Vector3Extensions` and
    `Vector3Math`) instantiated at C#'s `int`.

    Every helper builds its result through `TSelf.Create`, so one datatype
    serves every integer vector type that implements `IVector3<TSelf, int>`.
    Component arithmetic is C#'s: `+ - *` wrap modulo 2^32, `/ %` truncate
    and may throw, `Abs` and `Clamp` may throw. */
module Vector3Ops {
  import opened Wrappers
  import opened Ints

  datatype V3 = V3(x: Int32, y: Int32, z: Int32)

  const Zero: V3 := V3(0, 0, 0)

  // ---- Component replacement ----

  function WithX(v: V3, x: Int32): (r: V3)
    ensures r.x == x && r.y == v.y && r.z == v.z
  {
    V3(x, v.y, v.z)
  }

  function WithY(v: V3, y: Int32): (r: V3)
    ensures r.x == v.x && r.y == y && r.z == v.z
  {
    V3(v.x, y, v.z)
  }

  function WithZ(v: V3, z: Int32): (r: V3)
    ensures r.x == v.x && r.y == v.y && r.z == z
  {
    V3(v.x, v.y, z)
  }

  /** Replacing a component by its own value changes nothing, a later
      replacement of the same component wins, and replacements of different
      components commute. */
  lemma WithLaws(v: V3, a: Int32, b: Int32)
    ensures WithX(v, v.x) == v && WithY(v, v.y) == v && WithZ(v, v.z) == v
    ensures WithX(WithX(v, a), b) == WithX(v, b)
    ensures WithY(WithY(v, a), b) == WithY(v, b)
    ensures WithZ(WithZ(v, a), b) == WithZ(v, b)
    ensures WithX(WithY(v, b), a) == WithY(WithX(v, a), b)
    ensures WithY(WithZ(v, b), a) == WithZ(WithY(v, a), b)
    ensures WithX(WithZ(v, b), a) == WithZ(WithX(v, a), b)
  {
  }

  // ---- Arithmetic ----

  function Add(a: V3, b: V3): (r: V3)
    ensures Wraps(r.x, a.x + b.x) && Wraps(r.y, a.y + b.y) && Wraps(r.z, a.z + b.z)
  {
    V3(Add32(a.x, b.x), Add32(a.y, b.y), Add32(a.z, b.z))
  }

  function Subtract(a: V3, b: V3): (r: V3)
    ensures Wraps(r.x, a.x - b.x) && Wraps(r.y, a.y - b.y) && Wraps(r.z, a.z - b.z)
  {
    V3(Sub32(a.x, b.x), Sub32(a.y, b.y), Sub32(a.z, b.z))
  }

  function Multiply(v: V3, s: Int32): (r: V3)
    ensures Wraps(r.x, v.x * s) && Wraps(r.y, v.y * s) && Wraps(r.z, v.z * s)
  {
    V3(Mul32(v.x, s), Mul32(v.y, s), Mul32(v.z, s))
  }

  function Negate(v: V3): (r: V3)
    ensures Wraps(r.x, -(v.x as int)) && Wraps(r.y, -(v.y as int)) && Wraps(r.z, -(v.z as int))
  {
    V3(Neg32(v.x), Neg32(v.y), Neg32(v.z))
  }

  predicate HasMinValue(v: V3) {
    v.x == MinValue || v.y == MinValue || v.z == MinValue
  }

  /** Component-wise `/`; the first component that throws decides the error. */
  function Divide(v: V3, s: Int32): (r: Result<V3, ArithError>)
    ensures r == Err(DivideByZero) <==> s == 0
    ensures r == Err(Overflow) <==> s == -1 && HasMinValue(v)
    ensures r.Ok? ==> r.value.x == TruncDiv(v.x, s) && r.value.y == TruncDiv(v.y, s)
                      && r.value.z == TruncDiv(v.z, s)
  {
    var x :- Div32(v.x, s);
    var y :- Div32(v.y, s);
    var z :- Div32(v.z, s);
    Ok(V3(x, y, z))
  }

  /** Component-wise `%`, which throws exactly where `/` does. */
  function Modulus(v: V3, s: Int32): (r: Result<V3, ArithError>)
    ensures r.Err? <==> Divide(v, s).Err?
    ensures r.Err? ==> r.error == Divide(v, s).error
    ensures r.Ok? ==> AbsInt(r.value.x) < AbsInt(s) && AbsInt(r.value.y) < AbsInt(s) && AbsInt(r.value.z) < AbsInt(s)
  {
    var x :- Rem32(v.x, s);
    var y :- Rem32(v.y, s);
    var z :- Rem32(v.z, s);
    Ok(V3(x, y, z))
  }

  /** Quotient and remainder reassemble the dividend: `(v / s) * s + v % s == v`. */
  lemma DivideModulusReassemble(v: V3, s: Int32)
    requires Divide(v, s).Ok?
    ensures Modulus(v, s).Ok?
    ensures Add(Multiply(Divide(v, s).value, s), Modulus(v, s).value) == v
  {
    var q := Divide(v, s).value;
    var m := Modulus(v, s).value;
    TruncDivBound(v.x, s);
    TruncDivBound(v.y, s);
    TruncDivBound(v.z, s);
    assert m.x == v.x - s * q.x;
    assert m.y == v.y - s * q.y;
    assert m.z == v.z - s * q.z;
  }

  // ---- Algebraic laws of the wrapping operators ----

  /** `Subtract` undoes `Add`, even when the sum wraps. */
  lemma SubtractUndoesAdd(a: V3, b: V3)
    ensures Subtract(Add(a, b), b) == a
  {
    AddSubCancel(a.x, b.x);
    AddSubCancel(a.y, b.y);
    AddSubCancel(a.z, b.z);
  }

  /** `Negate` is an involution, even on `int.MinValue` components. */
  lemma NegateInvolution(a: V3)
    ensures Negate(Negate(a)) == a
  {
    NegNeg(a.x);
    NegNeg(a.y);
    NegNeg(a.z);
  }

  // ---- Cross and dot products ----

  function Cross(a: V3, b: V3): (r: V3)
    ensures Wraps(r.x, a.y * b.z - a.z * b.y)
    ensures Wraps(r.y, a.z * b.x - a.x * b.z)
    ensures Wraps(r.z, a.x * b.y - a.y * b.x)
  {
    SubOfProducts(a.y, b.z, a.z, b.y);
    SubOfProducts(a.z, b.x, a.x, b.z);
    SubOfProducts(a.x, b.y, a.y, b.x);
    V3(Sub32(Mul32(a.y, b.z), Mul32(a.z, b.y)),
       Sub32(Mul32(a.z, b.x), Mul32(a.x, b.z)),
       Sub32(Mul32(a.x, b.y), Mul32(a.y, b.x)))
  }

  function Dot(a: V3, b: V3): (r: Int32)
    ensures Wraps(r, a.x * b.x + a.y * b.y + a.z * b.z)
  {
    SumOfProducts3(a.x, b.x, a.y, b.y, a.z, b.z);
    Add32(Add32(Mul32(a.x, b.x), Mul32(a.y, b.y)), Mul32(a.z, b.z))
  }

  /** The wrapped cross product is the exact one reduced modulo 2^32. */
  lemma CrossExact(a: V3, b: V3)
    ensures Cross(a, b) == V3(Wrap(a.y * b.z - a.z * b.y), Wrap(a.z * b.x - a.x * b.z),
                              Wrap(a.x * b.y - a.y * b.x))
  {
    SubOfProducts(a.y, b.z, a.z, b.y);
    SubOfProducts(a.z, b.x, a.x, b.z);
    SubOfProducts(a.x, b.y, a.y, b.x);
  }

  lemma CrossSelfIsZero(a: V3)
    ensures Cross(a, a) == Zero
  {
    CrossExact(a, a);
  }

  /** One component of `a × (a * k)`: the two wrapped products agree
      modulo 2^32, so their wrapped difference is zero. */
  lemma ParallelComponent(p: Int32, q: Int32, k: Int32)
    ensures Wrap(p * Wrap(q * k) - q * Wrap(p * k)) == 0
  {
    MulWrapped(p, q * k);
    MulWrapped(q, p * k);
    CongruentAdd(p * Wrap(q * k), p * (q * k), q * Wrap(p * k), q * (p * k));
    assert p * (q * k) - q * (p * k) == 0;
    WrapCongruent(p * Wrap(q * k) - q * Wrap(p * k), 0);
  }

  /** The cross product with a parallel vector (any integer multiple,
      including zero) is the zero vector, even when the multiple wraps. */
  lemma CrossParallelIsZero(a: V3, k: Int32)
    ensures Cross(a, Multiply(a, k)) == Zero
    ensures Cross(a, Zero) == Zero && Cross(Zero, a) == Zero
  {
    var b := Multiply(a, k);
    CrossExact(a, b);
    ParallelComponent(a.y, a.z, k);
    ParallelComponent(a.z, a.x, k);
    ParallelComponent(a.x, a.y, k);
    CrossExact(a, Zero);
    CrossExact(Zero, a);
  }

  lemma CrossAnticommutes(a: V3, b: V3)
    ensures Cross(a, b) == Negate(Cross(b, a))
  {
    NegSub(Mul32(b.y, a.z), Mul32(b.z, a.y));
    NegSub(Mul32(b.z, a.x), Mul32(b.x, a.z));
    NegSub(Mul32(b.x, a.y), Mul32(b.y, a.x));
  }

  lemma DotCommutes(a: V3, b: V3)
    ensures Dot(a, b) == Dot(b, a)
  {
    assert a.x * b.x == b.x * a.x && a.y * b.y == b.y * a.y && a.z * b.z == b.z * a.z;
  }

  /** The exact polynomial identity behind `a . (a x b) == 0`. */
  lemma CrossOrthogonalExact(p1: int, p2: int, p3: int, q1: int, q2: int, q3: int)
    ensures p1 * (p2 * q3 - p3 * q2) + p2 * (p3 * q1 - p1 * q3) + p3 * (p1 * q2 - p2 * q1) == 0
  {
    assert p1 * (p2 * q3 - p3 * q2) == p1 * p2 * q3 - p1 * p3 * q2;
    assert p2 * (p3 * q1 - p1 * q3) == p2 * p3 * q1 - p1 * p2 * q3;
    assert p3 * (p1 * q2 - p2 * q1) == p1 * p3 * q2 - p2 * p3 * q1;
  }

  /** The dot product with a vector of wrapped components is the exact dot
      product reduced modulo 2^32. */
  lemma DotOfWrapped(a: V3, e1: int, e2: int, e3: int)
    ensures Dot(a, V3(Wrap(e1), Wrap(e2), Wrap(e3))) == Wrap(a.x * e1 + a.y * e2 + a.z * e3)
  {
    SumOfWrappedProducts3(a.x, e1, a.y, e2, a.z, e3);
  }

  /** The cross product is orthogonal to its left operand, modulo 2^32 too. */
  lemma DotCrossIsZero(a: V3, b: V3)
    ensures Dot(a, Cross(a, b)) == 0
  {
    CrossExact(a, b);
    DotOfWrapped(a, a.y * b.z - a.z * b.y, a.z * b.x - a.x * b.z, a.x * b.y - a.y * b.x);
    CrossOrthogonalExact(a.x, a.y, a.z, b.x, b.y, b.z);
  }

  // ---- Component-wise helpers ----

  /** `Abs` throws on the first `int.MinValue` component. */
  function Abs(v: V3): (r: Result<V3, ArithError>)
    ensures r.Err? <==> HasMinValue(v)
    ensures r.Ok? ==> 0 <= r.value.x && 0 <= r.value.y && 0 <= r.value.z
    ensures r.Ok? ==> AbsInt(r.value.x) == AbsInt(v.x) && AbsInt(r.value.y) == AbsInt(v.y)
                      && AbsInt(r.value.z) == AbsInt(v.z)
  {
    var x :- Abs32(v.x);
    var y :- Abs32(v.y);
    var z :- Abs32(v.z);
    Ok(V3(x, y, z))
  }

  predicate LessEq(a: V3, b: V3) {
    a.x <= b.x && a.y <= b.y && a.z <= b.z
  }

  /** `Clamp` throws when some lower bound exceeds its upper bound. */
  function Clamp(v: V3, min: V3, max: V3): (r: Result<V3, ArithError>)
    ensures r.Err? <==> !LessEq(min, max)
    ensures r.Ok? ==> LessEq(min, r.value) && LessEq(r.value, max)
    ensures r.Ok? && LessEq(min, v) && LessEq(v, max) ==> r.value == v
  {
    var x :- Clamp32(v.x, min.x, max.x);
    var y :- Clamp32(v.y, min.y, max.y);
    var z :- Clamp32(v.z, min.z, max.z);
    Ok(V3(x, y, z))
  }

  /** Clamping is idempotent. */
  lemma ClampIdempotent(v: V3, min: V3, max: V3)
    requires LessEq(min, max)
    ensures Clamp(Clamp(v, min, max).value, min, max) == Clamp(v, min, max)
  {
  }

  function Min(a: V3, b: V3): (r: V3)
    ensures LessEq(r, a) && LessEq(r, b)
    ensures (r.x == a.x || r.x == b.x) && (r.y == a.y || r.y == b.y) && (r.z == a.z || r.z == b.z)
  {
    V3(Min32(a.x, b.x), Min32(a.y, b.y), Min32(a.z, b.z))
  }

  function Max(a: V3, b: V3): (r: V3)
    ensures LessEq(a, r) && LessEq(b, r)
    ensures (r.x == a.x || r.x == b.x) && (r.y == a.y || r.y == b.y) && (r.z == a.z || r.z == b.z)
  {
    V3(Max32(a.x, b.x), Max32(a.y, b.y), Max32(a.z, b.z))
  }

  lemma MinMaxCommute(a: V3, b: V3)
    ensures Min(a, b) == Min(b, a)
    ensures Max(a, b) == Max(b, a)
  {
  }

  // ---- Lengths ----

  /** Squared length exactly as the C# generic helper computes it at `int`:
      the sum of squares is formed in wrapping `int` arithmetic and only then
      converted to `double`. */
  function LengthSquaredAsWritten(v: V3): (r: Int32)
    ensures Wraps(r, LengthSquared(v))
  {
    SumOfProducts3(v.x, v.x, v.y, v.y, v.z, v.z);
    Add32(Add32(Mul32(v.x, v.x), Mul32(v.y, v.y)), Mul32(v.z, v.z))
  }

  lemma LengthSquaredAsWrittenIsSelfDot(v: V3)
    ensures LengthSquaredAsWritten(v) == Dot(v, v)
  {
  }

  /** `(65536, 0, 0)` is non-zero, yet its squared length wraps to zero. */
  lemma LengthSquaredAsWrittenVanishes()
    ensures LengthSquaredAsWritten(V3(65536, 0, 0)) == 0
    ensures V3(65536, 0, 0) != Zero
  {
    assert Mul32(65536, 65536) == Wrap(TwoTo32);
    WrapCongruent(TwoTo32, 0);
  }

  /** `(int.MaxValue, 0, 0)` is far from unit length, yet its squared length
      wraps to exactly one: `(2^31 - 1)^2 = 2^62 - 2^32 + 1`. */
  lemma LengthSquaredAsWrittenIsOne()
    ensures LengthSquaredAsWritten(V3(MaxValue, 0, 0)) == 1
    ensures LengthSquared(V3(MaxValue, 0, 0)) > MaxValue
  {
    CongruentByMultiple(MaxValue * MaxValue, 1, 0x4000_0000 - 1);
    WrapCongruent(MaxValue * MaxValue, 1);
  }

  /** `(46341, 0, 0)` has a negative squared length as written:
      `46341^2 = 2^32 - 2147479015`, so the code's `Length` is NaN. */
  lemma LengthSquaredAsWrittenNegative()
    ensures LengthSquaredAsWritten(V3(46341, 0, 0)) == -2147479015
    ensures LengthSquared(V3(46341, 0, 0)) > MaxValue
  {
    Square46341Wraps();
  }

  /** Squared length computed exactly (in `double`, as intended), which is
      what the rest of this model uses. */
  function LengthSquared(v: V3): (r: nat)
    ensures r == 0 <==> v == Zero
  {
    v.x * v.x + v.y * v.y + v.z * v.z
  }

  /** The exact squared length and the wrapped one agree modulo 2^32, so they
      coincide whenever the exact one fits in an `int`. */
  lemma LengthSquaredWraps(v: V3)
    ensures LengthSquaredAsWritten(v) == Wrap(LengthSquared(v))
    ensures LengthSquared(v) <= MaxValue ==> LengthSquaredAsWritten(v) == LengthSquared(v)
  {
    SumOfProducts3(v.x, v.x, v.y, v.y, v.z, v.z);
  }

  /** The generic `Normalize` at `int`: the zero vector maps to zero, and a
      non-zero vector is scaled by its truncated inverse length. */
  function Normalize(v: V3): (r: V3)
    ensures v == Zero ==> r == Zero
    ensures r == Zero || (r == v && LengthSquared(v) == 1)
    ensures LengthSquared(v) == 1 ==> r == v
  {
    var ls := LengthSquared(v);
    if ls == 0 then Zero
    else Multiply(v, InverseLengthTruncated(ls))
  }

  lemma NormalizeIdempotent(v: V3)
    ensures Normalize(Normalize(v)) == Normalize(v)
  {
  }

  /** The generic `ProjectOnto` at `int`: zero for a zero normal, otherwise
      the normal scaled by the truncated ratio `Dot(v, n) / |n|^2`. */
  function ProjectOnto(v: V3, n: V3): (r: V3)
    ensures n == Zero ==> r == Zero
  {
    var ls := LengthSquared(n);
    if ls == 0 then Zero
    else Multiply(n, TruncRatio(Dot(v, n), ls))
  }

  /** A normal whose squared length fits in an `int` projects onto itself. */
  lemma ProjectOntoSelf(n: V3)
    requires 0 < LengthSquared(n) <= MaxValue
    ensures ProjectOnto(n, n) == n
  {
    LengthSquaredWraps(n);
    LengthSquaredAsWrittenIsSelfDot(n);
    assert TruncDiv(Dot(n, n), LengthSquared(n)) == 1;
  }

  /** A dot product of zero projects to the zero vector. */
  lemma ProjectOntoOrthogonal(v: V3, n: V3)
    requires Dot(v, n) == 0
    ensures ProjectOnto(v, n) == Zero
    ensures ProjectOntoAsWritten(v, n) == Zero
  {
    assert ProjectOnto(v, n) == Zero by {
      MultiplyByZeroOrOne(n);
      var ls := LengthSquared(n);
      if ls != 0 {
        assert TruncRatio(0, ls) == 0;
      }
    }
    assert ProjectOntoAsWritten(v, n) == Zero by {
      MultiplyByZeroOrOne(n);
      var lw := LengthSquaredAsWritten(n);
      if lw != 0 {
        assert TruncRatio(0, lw) == 0;
      }
    }
  }

  // ---- Normalize and ProjectOnto on the wrapped squared length ----

  /** The generic `Normalize` at `int` as the code computes it: the length
      is the square root of the wrapped squared length. A negative wrapped
      value makes the length NaN, and `int.CreateTruncating` of a NaN scale
      is not the same on every runtime, so that case has no value here. */
  function NormalizeAsWritten(v: V3): (r: Option<V3>)
    ensures r.None? <==> LengthSquaredAsWritten(v) < 0
    ensures r.Some? ==> r.value == Zero || (r.value == v && LengthSquaredAsWritten(v) == 1)
    ensures LengthSquaredAsWritten(v) == 1 ==> r == Some(v)
  {
    var ls := LengthSquaredAsWritten(v);
    if ls < 0 then None
    else if ls == 0 then Some(Zero)
    else Some(Multiply(v, InverseLengthTruncated(ls)))
  }

  /** Whenever the exact squared length fits in an `int`, the code's
      `Normalize` and the corrected one agree. */
  lemma NormalizeAgreesWhenFits(v: V3)
    requires LengthSquared(v) <= MaxValue
    ensures NormalizeAsWritten(v) == Some(Normalize(v))
  {
    LengthSquaredWraps(v);
  }

  /** The code's `Normalize` is idempotent too, wherever it has a value. */
  lemma NormalizeAsWrittenIdempotent(v: V3)
    requires NormalizeAsWritten(v).Some?
    ensures NormalizeAsWritten(NormalizeAsWritten(v).value) == NormalizeAsWritten(v)
  {
  }

  /** `(int.MaxValue, 0, 0)`: its wrapped squared length is 1, so the code
      returns it unchanged as if it were a unit vector, where the corrected
      `Normalize` gives zero. */
  lemma NormalizeAsWrittenKeepsMaxValue()
    ensures NormalizeAsWritten(V3(MaxValue, 0, 0)) == Some(V3(MaxValue, 0, 0))
    ensures Normalize(V3(MaxValue, 0, 0)) == Zero
  {
    LengthSquaredAsWrittenIsOne();
  }

  /** The generic `ProjectOnto` at `int` as the code computes it: the ratio
      divides the wrapped dot product by the wrapped squared length, which
      may be negative. */
  function ProjectOntoAsWritten(v: V3, n: V3): (r: V3)
    ensures LengthSquaredAsWritten(n) == 0 ==> r == Zero
    ensures n == Zero ==> r == Zero
  {
    var ls := LengthSquaredAsWritten(n);
    if ls == 0 then Zero
    else Multiply(n, TruncRatio(Dot(v, n), ls))
  }

  /** Whenever the normal's exact squared length fits in an `int`, the
      code's `ProjectOnto` and the corrected one agree. */
  lemma ProjectOntoAgreesWhenFits(v: V3, n: V3)
    requires LengthSquared(n) <= MaxValue
    ensures ProjectOntoAsWritten(v, n) == ProjectOnto(v, n)
  {
    LengthSquaredWraps(n);
  }

  /** `(2, 0, 0)` onto `(65537, 0, 0)`: the wrapped squared length 131073 is
      just below the dot product 131074, so the code returns the normal
      itself, where the corrected projection gives zero. */
  lemma ProjectOntoAsWrittenDiffers()
    ensures ProjectOntoAsWritten(V3(2, 0, 0), V3(65537, 0, 0)) == V3(65537, 0, 0)
    ensures ProjectOnto(V3(2, 0, 0), V3(65537, 0, 0)) == Zero
  {
    Square65537Wraps();
    assert LengthSquaredAsWritten(V3(65537, 0, 0)) == 131073;
    assert Dot(V3(2, 0, 0), V3(65537, 0, 0)) == 131074;
  }

  /** `(65536, 0, 0)` has wrapped squared length zero, so the code projects
      every vector onto it as zero. */
  lemma ProjectOntoAsWrittenVanishes(v: V3)
    ensures ProjectOntoAsWritten(v, V3(65536, 0, 0)) == Zero
  {
    LengthSquaredAsWrittenVanishes();
  }

  // ---- Vector3Math ----

  /** Squared distance: the (wrapping) difference, measured exactly. */
  function DistanceSquared(a: V3, b: V3): (r: nat)
    ensures r == 0 <==> a == b
  {
    SubZero(a.x, b.x);
    SubZero(a.y, b.y);
    SubZero(a.z, b.z);
    LengthSquared(Subtract(a, b))
  }

  /** `DistanceSquared` as the code computes it: the wrapped squared length
      of the wrapped difference. */
  function DistanceSquaredAsWritten(a: V3, b: V3): (r: Int32)
    ensures Wraps(r, DistanceSquared(a, b))
    ensures a == b ==> r == 0
  {
    LengthSquaredAsWritten(Subtract(a, b))
  }

  /** As written, `(65536, 0, 0)` is at squared distance 0 from the origin,
      although the two differ. */
  lemma DistanceSquaredAsWrittenVanishes()
    ensures DistanceSquaredAsWritten(V3(65536, 0, 0), Zero) == 0
    ensures DistanceSquared(V3(65536, 0, 0), Zero) != 0
  {
    var v := V3(65536, 0, 0);
    assert DistanceSquared(v, Zero) != 0 by {
      assert v != Zero;
    }
    assert DistanceSquaredAsWritten(v, Zero) == 0 by {
      assert Subtract(v, Zero) == v by {
        SubZero(v.x, 0);
      }
      LengthSquaredAsWrittenVanishes();
    }
  }

  lemma DistanceSquaredSymmetric(a: V3, b: V3)
    ensures DistanceSquared(a, b) == DistanceSquared(b, a)
  {
    NegSub(a.x, b.x);
    NegSub(a.y, b.y);
    NegSub(a.z, b.z);
    NegatePreservesSquares(Sub32(a.x, b.x));
    NegatePreservesSquares(Sub32(a.y, b.y));
    NegatePreservesSquares(Sub32(a.z, b.z));
  }

  lemma MultiplyByZeroOrOne(v: V3)
    ensures Multiply(v, 0) == Zero
    ensures Multiply(v, 1) == v
  {
  }

  lemma AddRestoresSubtract(a: V3, b: V3)
    ensures Add(a, Subtract(b, a)) == b
    ensures Add(a, Zero) == a
  {
    AddSubRestore(a.x, b.x);
    AddSubRestore(a.y, b.y);
    AddSubRestore(a.z, b.z);
  }

  /** `Lerp` clamps `amount` to [0, 1]; at `int` the clamped amount is 0 or
      1, so the result is one of the two end points. */
  function Lerp(start: V3, end: V3, amount: Int32): (r: V3)
    ensures amount <= 0 ==> r == start
    ensures amount >= 1 ==> r == end
  {
    var clamped := Clamp32(amount, 0, 1).value;
    MultiplyByZeroOrOne(Subtract(end, start));
    AddRestoresSubtract(start, end);
    Add(start, Multiply(Subtract(end, start), clamped))
  }
}

=== FILE: vector3i.dfy ===
/** The concrete integer vector `Vector3i`, in both of its versions: the
    current one in `Emi.Mathematics.Vectors` and the older one in
    `Emi.Mathematics`. Both are thin wrappers over the generic helpers of
    `Vector3Ops`: `+`, binary and unary `-`, scalar `*` (on either side),
    `/`, `%` and the static `Cross` are those helpers applied to the same
    datatype, so they are not restated here. What the types add is a
    rounding `Normalize`, constants, and conversions to and from real
    components. */
module IntVector3 {
  import opened Wrappers
  import opened Ints
  import opened Rounding
  import V = Vector3Ops

  type V3 = V.V3

  const One: V3 := V.V3(1, 1, 1)
  const UnitX: V3 := V.V3(1, 0, 0)
  const UnitY: V3 := V.V3(0, 1, 0)
  const UnitZ: V3 := V.V3(0, 0, 1)

  /** The one-argument constructor: every component set to `scale`. */
  function Splat(scale: Int32): (r: V3)
    ensures r.x == scale && r.y == scale && r.z == scale
  {
    V.V3(scale, scale, scale)
  }

  /** Two different unit vectors are orthogonal. */
  lemma UnitsOrthogonal(u: V3, w: V3)
    requires u in [UnitX, UnitY, UnitZ] && w in [UnitX, UnitY, UnitZ] && u != w
    ensures V.Dot(u, w) == 0
  {
    DotOfUnits(u.x, u.y, u.z, w.x, w.y, w.z);
  }

  /** The wrapped dot product of two vectors of small components is the
      exact one. */
  lemma DotOfUnits(a1: int, a2: int, a3: int, b1: int, b2: int, b3: int)
    requires -1 <= a1 <= 1 && -1 <= a2 <= 1 && -1 <= a3 <= 1
    requires -1 <= b1 <= 1 && -1 <= b2 <= 1 && -1 <= b3 <= 1
    ensures V.Dot(V.V3(a1, a2, a3), V.V3(b1, b2, b3)) == a1 * b1 + a2 * b2 + a3 * b3
  {
    assert -1 <= a1 * b1 <= 1 && -1 <= a2 * b2 <= 1 && -1 <= a3 * b3 <= 1;
  }

  /** The unit vectors form a right-handed basis. */
  lemma UnitsRightHanded()
    ensures V.Cross(UnitX, UnitY) == UnitZ
    ensures V.Cross(UnitY, UnitZ) == UnitX
    ensures V.Cross(UnitZ, UnitX) == UnitY
  {
  }

  /** `One` is the sum of the unit vectors, and the one-argument constructor
      gives `One` and `Zero` back. */
  lemma OneIsSumOfUnits()
    ensures V.Add(V.Add(UnitX, UnitY), UnitZ) == One
    ensures Splat(1) == One && Splat(0) == V.Zero
  {
  }

  /** Always true for integer components. */
  predicate IsFinite(v: V3) {
    true
  }

  predicate UnitComponents(v: V3) {
    -1 <= v.x <= 1 && -1 <= v.y <= 1 && -1 <= v.z <= 1
  }

  /** Each component of `r` is zero or has the sign of the same component of `v`. */
  predicate SignsAgree(v: V3, r: V3) {
    (r.x == 0 || (r.x > 0 <==> v.x > 0)) &&
    (r.y == 0 || (r.y > 0 <==> v.y > 0)) &&
    (r.z == 0 || (r.z > 0 <==> v.z > 0))
  }

  /** Among three non-negative numbers with a positive sum, the largest is
      more than a quarter of the sum. */
  lemma LargestOfThree(a: nat, b: nat, c: nat)
    requires a + b + c > 0
    ensures 4 * a > a + b + c || 4 * b > a + b + c || 4 * c > a + b + c
  {
  }

  /** The rounding `Normalize` of `Vector3i`: a zero-length vector is returned
      unchanged; otherwise each component is scaled by the inverse length and
      rounded. The result is a non-zero vector of components in {-1, 0, 1}
      pointing into the same octant. */
  function Normalize(v: V3): (r: V3)
    ensures v == V.Zero ==> r == v
    ensures v != V.Zero ==> UnitComponents(r) && SignsAgree(v, r) && r != V.Zero
  {
    var ls := V.LengthSquared(v);
    if ls == 0 then v
    else
      var xx, yy, zz := v.x * v.x, v.y * v.y, v.z * v.z;
      LargestOfThree(xx, yy, zz);
      V.V3(RoundedUnit(v.x, ls), RoundedUnit(v.y, ls), RoundedUnit(v.z, ls))
  }

  /** A vector of components in {-1, 0, 1} is its own normalization, so
      normalizing twice is normalizing once. */
  lemma {:induction false} NormalizeFixesUnitComponents(u: V3)
    requires UnitComponents(u)
    ensures Normalize(u) == u
  {
    SmallSquares(u);
  }

  /** The square of a component in {-1, 0, 1} is its absolute value. */
  lemma SmallSquares(u: V3)
    requires UnitComponents(u)
    ensures u.x * u.x == AbsInt(u.x) && u.y * u.y == AbsInt(u.y) && u.z * u.z == AbsInt(u.z)
    ensures V.LengthSquared(u) == AbsInt(u.x) + AbsInt(u.y) + AbsInt(u.z)
  {
    SmallSquare(u.x);
    SmallSquare(u.y);
    SmallSquare(u.z);
  }

  lemma NormalizeIdempotent(v: V3)
    ensures Normalize(Normalize(v)) == Normalize(v)
  {
    if v != V.Zero {
      NormalizeFixesUnitComponents(Normalize(v));
    }
  }

  /** For a vector of length one, the rounding `Normalize` of this type and
      the truncating generic `Normalize` agree. */
  lemma NormalizeAgreesOnUnitVectors(v: V3)
    requires V.LengthSquared(v) == 1
    ensures Normalize(v) == V.Normalize(v) == v
  {
    assert v.x * v.x <= 1 && v.y * v.y <= 1 && v.z * v.z <= 1;
    assert UnitComponents(v) by {
      SquareBound(v.x);
      SquareBound(v.y);
      SquareBound(v.z);
    }
    NormalizeFixesUnitComponents(v);
    SmallSquares(v);
  }

  // ---- Normalize on the wrapped squared length ----

  /** The rounding `Normalize` of `Vector3i` as the code computes it: the
      length is the square root of the wrapped squared length. A zero
      wrapped length returns the vector unchanged; a negative one makes the
      length NaN, and the `(int)` cast of NaN is unspecified, so that case
      has no value here. Otherwise each component is rounded from
      `c / length`, which can be far from {-1, 0, 1}. */
  function NormalizeAsWritten(v: V3): (r: Option<V3>)
    ensures r.None? <==> V.LengthSquaredAsWritten(v) < 0
    ensures V.LengthSquaredAsWritten(v) == 0 ==> r == Some(v)
    ensures r.Some? ==> SignsAgree(v, r.value)
    ensures r.Some? ==> AbsInt(r.value.x) <= AbsInt(v.x) && AbsInt(r.value.y) <= AbsInt(v.y)
                          && AbsInt(r.value.z) <= AbsInt(v.z)
  {
    var ls := V.LengthSquaredAsWritten(v);
    if ls < 0 then None
    else if ls == 0 then Some(v)
    else Some(V.V3(RoundedQuotient(v.x, ls), RoundedQuotient(v.y, ls), RoundedQuotient(v.z, ls)))
  }

  /** Whenever the exact squared length fits in an `int`, the code's
      `Normalize` and the corrected one agree. */
  lemma NormalizeAgreesWhenFits(v: V3)
    requires V.LengthSquared(v) <= MaxValue
    ensures NormalizeAsWritten(v) == Some(Normalize(v))
  {
    var ls := V.LengthSquared(v);
    assert V.LengthSquaredAsWritten(v) == ls;
    if ls > 0 {
      assert v.x * v.x <= ls && v.y * v.y <= ls && v.z * v.z <= ls by {
        assert v.x * v.x >= 0 && v.y * v.y >= 0 && v.z * v.z >= 0;
      }
      RoundedQuotientIsUnit(v.x, ls);
      RoundedQuotientIsUnit(v.y, ls);
      RoundedQuotientIsUnit(v.z, ls);
    }
  }

  /** `(65536, 0, 0)` has wrapped squared length 0, so the code returns it
      unchanged, where the corrected `Normalize` gives `UnitX`. */
  lemma NormalizeAsWrittenKeepsWrappedZero()
    ensures NormalizeAsWritten(V.V3(65536, 0, 0)) == Some(V.V3(65536, 0, 0))
    ensures Normalize(V.V3(65536, 0, 0)) == UnitX
  {
    V.LengthSquaredAsWrittenVanishes();
  }

  /** `(65537, 0, 0)` has wrapped squared length 131073, whose square root is
      about 362.04, so the code gives `(181, 0, 0)`; normalizing that again
      gives `(1, 0, 0)`. The code's `Normalize` is therefore not idempotent,
      and the corrected one gives `UnitX` at once. */
  lemma NormalizeAsWrittenNotIdempotent()
    ensures NormalizeAsWritten(V.V3(65537, 0, 0)) == Some(V.V3(181, 0, 0))
    ensures NormalizeAsWritten(V.V3(181, 0, 0)) == Some(UnitX)
    ensures Normalize(V.V3(65537, 0, 0)) == UnitX
  {
    Square65537Wraps();
    var ls := V.LengthSquaredAsWritten(V.V3(65537, 0, 0));
    assert ls == 131073;
    BracketUnique(65537, ls, AbsInt(RoundedQuotient(65537, ls)), 181);
    assert RoundedQuotient(0, ls) == 0;
    var ls' := V.LengthSquaredAsWritten(V.V3(181, 0, 0));
    assert ls' == 32761;
    BracketUnique(181, ls', AbsInt(RoundedQuotient(181, ls')), 1);
    assert RoundedQuotient(0, ls') == 0;
  }

  /** The older `Vector3i` overloads `*` between two vectors as the cross
      product; the unit test's instance. */
  lemma CrossOperatorExample()
    ensures V.Cross(V.V3(2, 3, 4), V.V3(5, 6, 7)) == V.V3(-3, 6, -3)
  {
  }

  // ---- Conversions ----

  /** A `Vector3d` (or `Vector3`), with components as reals. */
  datatype D3 = D3(x: real, y: real, z: real)

  /** `ToDouble` of the older `Vector3i`: every `int` is exactly representable. */
  function ToDouble(v: V3): (d: D3)
    ensures d.x == v.x as real && d.y == v.y as real && d.z == v.z as real
  {
    D3(v.x as real, v.y as real, v.z as real)
  }

  /** The implicit conversion from `Vector3d`/`Vector3`: each component is
      rounded half away from zero and cast to `int`; `None` where a rounded
      component does not fit, a case C# leaves unspecified. */
  function FromDouble(d: D3): (o: Option<V3>)
    ensures o.Some? <==> RoundToInt32(d.x).Some? && RoundToInt32(d.y).Some? && RoundToInt32(d.z).Some?
    ensures o.Some? ==> o.value.x == RoundHalfAway(d.x) && o.value.y == RoundHalfAway(d.y)
                          && o.value.z == RoundHalfAway(d.z)
  {
    var x :- RoundToInt32(d.x);
    var y :- RoundToInt32(d.y);
    var z :- RoundToInt32(d.z);
    Some(V.V3(x, y, z))
  }

  /** Converting to `double` and back is the identity. */
  lemma FromDoubleToDouble(v: V3)
    ensures FromDouble(ToDouble(v)) == Some(v)
  {
    WidenThenRound(v.x);
    WidenThenRound(v.y);
    WidenThenRound(v.z);
  }

  /** Each converted component lies within one half of its source. */
  lemma FromDoubleIsNearest(d: D3)
    requires FromDouble(d).Some?
    ensures var v := FromDouble(d).value;
      -0.5 <= d.x - v.x as real <= 0.5 &&
      -0.5 <= d.y - v.y as real <= 0.5 &&
      -0.5 <= d.z - v.z as real <= 0.5
  {
  }
}

=== FILE: vertex_layout.dfy ===
/** `VertexLayout`: the attributes of one vertex buffer layout and the
    stride that covers them. Every added attribute may widen the stride to
    its end; offsets and sizes are `uint`, so that end wraps modulo 2^32. */
module VertexLayouts {
  import opened Ints

  /** `uint`. */
  type UInt32 = x: int | 0 <= x < TwoTo32

  /** WebGPU's `VertexFormat` enumeration, as the bindings name it; `Other`
      stands for any further value of the enumeration, which the size table
      does not list. */
  datatype VertexFormat =
    | Undefined
    | Uint8x2 | Uint8x4 | Sint8x2 | Sint8x4 | Unorm8x2 | Unorm8x4 | Snorm8x2 | Snorm8x4
    | Uint16x2 | Uint16x4 | Sint16x2 | Sint16x4 | Unorm16x2 | Unorm16x4 | Snorm16x2 | Snorm16x4
    | Float16x2 | Float16x4
    | Float32 | Float32x2 | Float32x3 | Float32x4
    | Uint32 | Uint32x2 | Uint32x3 | Uint32x4
    | Sint32 | Sint32x2 | Sint32x3 | Sint32x4
    | Other

  datatype VertexAttribute = VertexAttribute(format: VertexFormat, shaderLocation: UInt32, offset: UInt32)

  datatype VertexLayout = VertexLayout(stride: UInt32, attributes: seq<VertexAttribute>)

  /** `GetSize`: the byte size of one value of the format, by family; 0 for
      a format the table does not list. The table agrees with the width
      and count of components that the format's name spells out. */
  function GetSize(format: VertexFormat): (r: UInt32)
    ensures r == ComponentBits(format) / 8 * Components(format)
    ensures r > 0 <==> format != Undefined && format != Other
  {
    match format
    case Uint8x2 | Sint8x2 | Unorm8x2 | Snorm8x2 => 2
    case Uint8x4 | Sint8x4 | Unorm8x4 | Snorm8x4 => 4
    case Uint16x2 | Sint16x2 | Unorm16x2 | Snorm16x2 | Float16x2 => 4
    case Uint16x4 | Sint16x4 | Unorm16x4 | Snorm16x4 | Float16x4 => 8
    case Float32 | Uint32 | Sint32 => 4
    case Float32x2 | Uint32x2 | Sint32x2 => 8
    case Float32x3 | Uint32x3 | Sint32x3 => 12
    case Float32x4 | Uint32x4 | Sint32x4 => 16
    case _ => 0
  }

  /** The width in bits of one component, as the format's name spells it
      (0 for a format without components). */
  function ComponentBits(format: VertexFormat): nat {
    match format
    case Uint8x2 | Uint8x4 | Sint8x2 | Sint8x4 | Unorm8x2 | Unorm8x4 | Snorm8x2 | Snorm8x4 => 8
    case Uint16x2 | Uint16x4 | Sint16x2 | Sint16x4 | Unorm16x2 | Unorm16x4 | Snorm16x2 | Snorm16x4 => 16
    case Float16x2 | Float16x4 => 16
    case Float32 | Float32x2 | Float32x3 | Float32x4 => 32
    case Uint32 | Uint32x2 | Uint32x3 | Uint32x4 => 32
    case Sint32 | Sint32x2 | Sint32x3 | Sint32x4 => 32
    case Undefined | Other => 0
  }

  /** The number of components, as the format's name spells it (the `xN`
      suffix, 1 without one). */
  function Components(format: VertexFormat): nat {
    match format
    case Float32 | Uint32 | Sint32 => 1
    case Uint8x2 | Sint8x2 | Unorm8x2 | Snorm8x2 => 2
    case Uint16x2 | Sint16x2 | Unorm16x2 | Snorm16x2 | Float16x2 => 2
    case Float32x2 | Uint32x2 | Sint32x2 => 2
    case Float32x3 | Uint32x3 | Sint32x3 => 3
    case Uint8x4 | Sint8x4 | Unorm8x4 | Snorm8x4 => 4
    case Uint16x4 | Sint16x4 | Unorm16x4 | Snorm16x4 | Float16x4 => 4
    case Float32x4 | Uint32x4 | Sint32x4 => 4
    case Undefined | Other => 0
  }

  /** The constructor `VertexLayout(stride)`: no attributes yet. */
  function NewLayout(stride: UInt32): (r: VertexLayout)
    ensures r.attributes == [] && r.stride == stride
  {
    VertexLayout(stride, [])
  }

  /** The end of an attribute as `uint` arithmetic computes it. */
  function End(format: VertexFormat, offset: UInt32): (r: UInt32)
    ensures offset + GetSize(format) < TwoTo32 ==> r == offset + GetSize(format)
    ensures offset + GetSize(format) >= TwoTo32 ==> r < offset
  {
    (offset + GetSize(format)) % TwoTo32
  }

  /** `AddAttribute`: appends the attribute and widens the stride to its
      end when that end, computed in `uint`, is larger. */
  function AddAttribute(layout: VertexLayout, format: VertexFormat, shaderLocation: UInt32, offset: UInt32): (r: VertexLayout)
    ensures r.attributes == layout.attributes + [VertexAttribute(format, shaderLocation, offset)]
    ensures r.stride >= layout.stride
    ensures offset + GetSize(format) < TwoTo32 ==>
      r.stride == if offset + GetSize(format) > layout.stride then offset + GetSize(format) else layout.stride
  {
    var end := End(format, offset);
    VertexLayout(if end > layout.stride then end else layout.stride, layout.attributes + [VertexAttribute(format, shaderLocation, offset)])
  }

  /** `CreateDefault`: one three-float position attribute at location 0. */
  function CreateDefault(): (r: VertexLayout)
    ensures r.attributes == [VertexAttribute(Float32x3, 0, 0)]
    ensures r.stride == 12
  {
    AddAttribute(NewLayout(0), Float32x3, 0, 0)
  }

  /** No attribute's end wraps around. */
  ghost predicate NoWrap(layout: VertexLayout) {
    forall i :: 0 <= i < |layout.attributes| ==>
      layout.attributes[i].offset + GetSize(layout.attributes[i].format) < TwoTo32
  }

  /** The stride covers every attribute. */
  ghost predicate Covers(layout: VertexLayout) {
    forall i :: 0 <= i < |layout.attributes| ==>
      layout.attributes[i].offset + GetSize(layout.attributes[i].format) <= layout.stride
  }

  /** Adding an attribute whose end does not wrap keeps the stride covering
      every attribute, the new one included. */
  lemma AddKeepsCovered(layout: VertexLayout, format: VertexFormat, shaderLocation: UInt32, offset: UInt32)
    requires Covers(layout) && offset + GetSize(format) < TwoTo32
    ensures Covers(AddAttribute(layout, format, shaderLocation, offset))
  {
  }

  /** Adding a sequence of attributes, in order. */
  function AddAll(layout: VertexLayout, added: seq<VertexAttribute>): (r: VertexLayout)
    ensures r.attributes == layout.attributes + added
    decreases |added|
  {
    if added == [] then layout
    else
      var a := added[|added| - 1];
      AddAttribute(AddAll(layout, added[..|added| - 1]), a.format, a.shaderLocation, a.offset)
  }

  /** The largest end among the attributes, or `floor` if none is larger. */
  function MaxEnd(floor: int, added: seq<VertexAttribute>): (r: int)
    decreases |added|
  {
    if added == [] then floor
    else
      var a := added[|added| - 1];
      var rest := MaxEnd(floor, added[..|added| - 1]);
      if a.offset + GetSize(a.format) > rest then a.offset + GetSize(a.format) else rest
  }

  /** `MaxEnd` is the maximum: no smaller than the floor or any end, and
      equal to the floor or to one of the ends. */
  lemma {:induction false} MaxEndIsMax(floor: int, added: seq<VertexAttribute>)
    ensures floor <= MaxEnd(floor, added)
    ensures forall i :: 0 <= i < |added| ==> added[i].offset + GetSize(added[i].format) <= MaxEnd(floor, added)
    ensures MaxEnd(floor, added) == floor ||
      exists i :: 0 <= i < |added| && MaxEnd(floor, added) == added[i].offset + GetSize(added[i].format)
    decreases |added|
  {
    if added != [] {
      var prefix := added[..|added| - 1];
      MaxEndIsMax(floor, prefix);
      forall i | 0 <= i < |prefix|
        ensures added[i] == prefix[i]
      {
      }
    }
  }

  /** Without wrap-around, the stride after adding attributes is the largest
      of the initial stride and their ends, and it covers all of them. */
  lemma {:induction false} AddAllStride(layout: VertexLayout, added: seq<VertexAttribute>)
    requires NoWrap(VertexLayout(0, added))
    ensures AddAll(layout, added).stride == MaxEnd(layout.stride, added)
    ensures Covers(layout) ==> Covers(AddAll(layout, added))
    decreases |added|
  {
    if added != [] {
      var prefix := added[..|added| - 1];
      var a := added[|added| - 1];
      assert NoWrap(VertexLayout(0, prefix)) by {
        forall i | 0 <= i < |prefix|
          ensures prefix[i].offset + GetSize(prefix[i].format) < TwoTo32
        {
          assert prefix[i] == added[i];
        }
      }
      AddAllStride(layout, prefix);
      assert a.offset + GetSize(a.format) < TwoTo32 by {
        assert a == added[|added| - 1];
      }
      if Covers(layout) {
        AddKeepsCovered(AddAll(layout, prefix), a.format, a.shaderLocation, a.offset);
      }
    }
  }

  /** An end past 2^32 wraps: an attribute at offset 2^32 - 4 of format
      `Float32x3` ends at 8, so a layout of stride 0 gets stride 8 and no
      longer covers that attribute. */
  lemma WrappedEndUndercounts()
    ensures AddAttribute(NewLayout(0), Float32x3, 0, TwoTo32 - 4).stride == 8
    ensures !Covers(AddAttribute(NewLayout(0), Float32x3, 0, TwoTo32 - 4))
  {
    var r := AddAttribute(NewLayout(0), Float32x3, 0, TwoTo32 - 4);
    assert r.attributes[0] == VertexAttribute(Float32x3, 0, TwoTo32 - 4);
  }
}

=== FILE: wrappers.dfy ===
/** Optional values and error-carrying results, used where the C# code has
    nullable values (`int?`, `Element?`) or throws an exception. */
module Wrappers {

  /** A C# nullable value: `None` is `null`. */
  datatype Option<+T> = None | Some(value: T) {

    /** The C# `??` operator: the value if present, otherwise `default`. */
    function GetOr(default: T): (r: T)
      ensures Some? ==> r == value
      ensures None? ==> r == default
    {
      match this
      case Some(v) => v
      case None => default
    }

    predicate IsFailure() {
      None?
    }

    function PropagateFailure<U>(): Option<U>
      requires None?
    {
      None
    }

    function Extract(): T
      requires Some?
    {
      value
    }
  }

  /** The outcome of a C# call that either returns a value or throws. */
  datatype Result<+R, +E> = Ok(value: R) | Err(error: E) {

    predicate IsFailure() {
      Err?
    }

    function PropagateFailure<U>(): Result<U, E>
      requires Err?
    {
      Err(error)
    }

    function Extract(): R
      requires Ok?
    {
      value
    }
  }
}
